=== FILE: README.md ===
# Personal-finance ledger: a Dafny model

This project models the core of a small personal-finance application: users keep income and
expense **categories** and record **transactions** against them. The model covers four parts.

- **ORM backend.** The `TransactionService` and `CategoryService` guards sit over an in-memory
  store of both tables. The controllers scope every request to the signed-in user. The
  repository finders are modelled as filter-plus-order specifications.
- **Stand-alone SQLite server** (`server.js`). The transaction list with its optional `WHERE`
  filters, the required-field checks of POST and PUT, the 404/204 delete, the category list,
  the balance, the monthly statistics with Turkish month names, the expense breakdown per
  category and the seeding of the default categories.
- **Pages and forms.** Filtering, the stable two-direction sort and its toggle, the totals and
  delete on the transactions page. The dashboard's manual filter, top-five enrichment and
  summary mappings.
- **Validators.** The three add-transaction screens (including the sign given to an amount),
  the dashboard filter form, the `DD.MM.YYYY` formatter and the registration page's password
  checks.

Conventions:
- Amounts are integer cents.
- Backend dates are `YYYY-MM-DD` text compared the way SQLite compares `TEXT`
  (`Ordering.TextLe`).
- Frontend dates are millisecond instants.
- Library calls become function parameters, because their code is not part of this model:
  `new Date(text)`, `parseFloat`, `Number`, `parseInt`, `String.prototype.toLowerCase`, and
  SQLite's integer affinity for a `?` parameter.
- A JavaScript number that may be `NaN` is `Client.Number`.
- A JavaScript `sort` is stable, so it is modelled as a stable insertion sort (`Ordering.SortBy`).
  Its permutation, order and stability are proved.
- A database `ORDER BY` leaves ties unspecified. Finders are therefore specified only by
  "the same rows as the filter" (a multiset count) plus "sorted".

Module layout follows the source:
- `TransactionService`, `CategoryService`, `TransactionController`, `CategoryController` and
  `Repositories` model the ORM backend. `Ledger` holds its entities and the store invariants.
- `RawServer` and `RawStats` model `server.js`.
- One module per page or form: `TransactionsPage`, `DashboardPage`, `NewTransactionPage`,
  `TransactionsNewPage`, `AddTransactionForm`, `FilterForm`, `RegisterPage`.
- `Client` holds the API record shapes.
- `Wrappers`, `Kinds`, `Seqs`, `Ordering` and `Text` are shared helpers.

The store invariant `Ledger.Consistent` has four parts:
- ids are unique;
- ids are below the id generators;
- every transaction's category exists;
- every transaction's type equals its category's type.

## Model

| member | source | states |
|---|---|---|
| TransactionService.CreateTransaction | backend/src/services/TransactionService.ts:33-53 | "Kategori bulunamadı" exactly when no category has that id for that user. With unique ids, the type-mismatch error exactly when the found category has the other type, and success exactly when it has the request's type. On success the store gains exactly one row, under the next id, and nothing else changes. |
| TransactionService.CreatePreservesConsistency | backend/src/services/TransactionService.ts:35-52 | A successful create keeps the store consistent: the new row's category exists and has its type. |
| TransactionService.UpdateTransaction | backend/src/services/TransactionService.ts:55-103 | "İşlem bulunamadı" exactly when no row has both the id and the user. A truthy, changed categoryId must name a category of the same user whose type equals the request's type, or else the old type; otherwise the matching error. After the guards, `update(id, data)` refuses an empty body `{}` with TypeORM's missing-values error. It also fails exactly when the patch changes categoryId to an id no category row has, since `categoryId` is a foreign key (Transaction.ts:29-31). Otherwise, and in particular when the re-check finds one of the user's categories with the expected type, the update succeeds: the patch is applied as given, and the store differs only in the rows with that id. |
| TransactionService.KindOnlyUpdateBreaksAgreement | backend/src/services/TransactionService.ts:72-91 | Gap: a patch that changes only `type` succeeds on a consistent store and leaves a transaction whose type differs from its category's. |
| TransactionService.ZeroCategoryUpdateRefused | backend/src/services/TransactionService.ts:72-91 | categoryId 0 is falsy and skips the re-check, but on a consistent store no category has id 0, so the foreign key refuses the write and the update fails. |
| TransactionService.UpdatePreservesConsistency | backend/src/services/TransactionService.ts:72-91 | Any successful update keeps consistency when the patch leaves the type alone or moves the row to a re-checked category. A categoryId that skips the re-check passed the foreign key, so it names an existing category. |
| TransactionService.PatchedStoreConsistent | backend/src/services/TransactionService.ts:91 | The store after the `update(id, data)` write is consistent under the same conditions. |
| TransactionService.DeleteTransaction | backend/src/services/TransactionService.ts:105-115 | Fails with "İşlem bulunamadı" exactly when no row has both the id and the user. Otherwise only that transaction goes: categories and counters are unchanged, and every other row keeps its multiplicity and order. |
| TransactionService.DeletePreservesConsistency | backend/src/services/TransactionService.ts:105-115 | Removing a transaction keeps the store consistent. |
| CategoryService.CreateCategory | backend/src/services/CategoryService.ts:22-25 | No validation: the category is stored as given under the next id, and nothing else changes. |
| CategoryService.CreateCategoryPreservesConsistency | backend/src/services/CategoryService.ts:22-25 | Adding a category keeps the store consistent. |
| CategoryService.UpdateCategory | backend/src/services/CategoryService.ts:27-58 | "Kategori bulunamadı" exactly when no category has both the id and the user. With no type, or the same type, the update is refused exactly when the body is empty (`{}`), with TypeORM's missing-values error. A different type is refused exactly when some transaction of this category has the category's old type. |
| CategoryService.UpdateCategoryPreservesConsistency | backend/src/services/CategoryService.ts:36-50 | A successful update keeps the store consistent. |
| CategoryService.KindChangeIgnoresOtherKind | backend/src/services/CategoryService.ts:37-48 | Gap: transactions of the other type do not block a type change, although they do block a delete. |
| CategoryService.DeleteCategory | backend/src/services/CategoryService.ts:60-79 | Not found exactly when no category has both the id and the user. A found category is refused exactly when any transaction references it, whatever its type. On success the transactions and counters are unchanged, and only that category is removed. |
| CategoryService.DeleteCategoryPreservesConsistency | backend/src/services/CategoryService.ts:69-78 | A successful delete leaves no dangling reference: the store stays consistent. |
| CategoryService.OldKindReferences | backend/src/services/CategoryService.ts:38-43 | The guard's query returns exactly the transactions with that categoryId and the old type. |
| CategoryService.References | backend/src/services/CategoryService.ts:70-72 | The guard's query returns exactly the transactions with that categoryId. |
| Repositories.FindTransactionsByUserId | backend/src/repositories/TransactionRepository.ts:10-16 | Exactly the user's transactions, each with its multiplicity, ordered by date, newest first. |
| Repositories.FindTransactionsByUserIdAndDateRange | backend/src/repositories/TransactionRepository.ts:18-31 | Exactly the user's transactions with start ≤ date ≤ end (both inclusive), ordered by date, newest first. |
| Repositories.FindTransactionsByUserIdAndType | backend/src/repositories/TransactionRepository.ts:33-42 | A type other than "income" or "expense" is refused by the enum column, with an error. Otherwise exactly the user's transactions of that type, ordered by date, newest first. |
| Repositories.TypeQueriesPartitionUser | backend/src/repositories/TransactionRepository.ts:33-42 | Both enum labels are accepted, and the income and expense queries together return each of the user's transactions exactly once. |
| Repositories.FindCategoriesByUserId | backend/src/repositories/CategoryRepository.ts:9-14 | Exactly the user's categories, ordered by name ascending by character code. |
| Repositories.FindCategoriesByUserIdAndType | backend/src/repositories/CategoryRepository.ts:16-24 | A type outside the enum is refused with an error. Otherwise exactly the user's categories of that type, ordered by name ascending by character code. |
| Kinds.ParseKind | backend/src/entities/Transaction.ts:20-24 | The `type` enum column accepts exactly "income" and "expense", and reads each back as the kind it spells. |
| Kinds.ParseKindName | backend/src/entities/Category.ts:20-24 | Each kind's stored spelling reads back as that kind. |
| TransactionController.GetTransactions | backend/src/controllers/TransactionController.ts:14-36 | Both dates truthy: the date-range rows. Otherwise a truthy type: that type's rows, or the enum error exactly when the type is neither "income" nor "expense". Otherwise all of the user's rows. Always newest first. |
| TransactionController.GetTransactionsOwnRowsOnly | backend/src/controllers/TransactionController.ts:21-35 | Every listed transaction belongs to the signed-in user. |
| TransactionController.DateRangeIgnoresType | backend/src/controllers/TransactionController.ts:21-27 | With both dates given, the type parameter does not change the result. |
| TransactionController.CreateTransaction | backend/src/controllers/TransactionController.ts:40-47 | The created row belongs to the signed-in user. The category check runs against that user. |
| TransactionController.CreateIgnoresClientUserId | backend/src/controllers/TransactionController.ts:45-46 | A userId sent by the client has no effect on the outcome. |
| TransactionController.UpdateTransaction | backend/src/controllers/TransactionController.ts:51-57 | Another user's transaction id is answered "İşlem bulunamadı". |
| TransactionController.UpdateLeavesOtherUsersAlone | backend/src/controllers/TransactionController.ts:56 | A successful update leaves every other user's row as it was. |
| TransactionController.DeleteTransaction | backend/src/controllers/TransactionController.ts:61-67 | Succeeds exactly when the user owns a row with that id, replying `{success: true}`. Otherwise it fails with "İşlem bulunamadı". |
| TransactionController.DeleteKeepsOtherUsersRows | backend/src/controllers/TransactionController.ts:65 | No other user's transaction is removed. |
| CategoryController.GetCategories | backend/src/controllers/CategoryController.ts:14-22 | With a truthy type, the user's categories of that type, or the enum error exactly when the type is outside the enum; otherwise all of the user's categories. Always by name ascending, by character code. |
| CategoryController.GetCategoriesOwnRowsOnly | backend/src/controllers/CategoryController.ts:18-21 | Every listed category belongs to the user and, with a type, has it. |
| CategoryController.CreateCategory | backend/src/controllers/CategoryController.ts:26-33 | The new category carries the signed-in user's id and the body's name and type. Transactions are untouched. |
| CategoryController.UpdateCategory | backend/src/controllers/CategoryController.ts:37-43 | Another user's category id is answered "Kategori bulunamadı". |
| CategoryController.UpdateLeavesOtherUsersAlone | backend/src/controllers/CategoryController.ts:42 | A successful update leaves every other user's category as it was. |
| CategoryController.DeleteCategory | backend/src/controllers/CategoryController.ts:47-53 | `{success: true}` with transactions untouched. Another user's category is answered "Kategori bulunamadı". |
| CategoryController.DeleteKeepsOtherUsersCategories | backend/src/controllers/CategoryController.ts:51 | No other user's category is removed. |
| RawServer.Join | backend/server.js:97 | The inner join pairs each transaction exactly with the categories of its categoryId. A row without a category is dropped. |
| RawServer.WhereClauses | backend/server.js:101-125 | One clause per truthy query parameter, at most four. No clause (no `WHERE`) exactly when none is truthy. |
| RawServer.WhereClausesMeaning | backend/server.js:101-125 | A row satisfies the `AND` of the clauses exactly when each truthy parameter admits it: date ≥ start, date ≤ end, same categoryId, same type. |
| RawServer.ListTransactions | backend/server.js:95-137 | The joined rows admitted by every supplied filter, each with its multiplicity, in `ORDER BY t.date DESC`. |
| RawServer.ListedRowsSatisfyFilters | backend/server.js:101-127 | Every listed row satisfies every supplied filter and comes from the tables. |
| RawServer.OrphanNeverListed | backend/server.js:97 | A transaction whose category is missing is never listed. |
| RawServer.PostTransaction | backend/server.js:140-175 | 400 "Tüm alanlar gereklidir" exactly when a field is falsy (a zero amount or categoryId included), with the table unchanged. Otherwise exactly one row is appended under the next id, with 201. |
| RawServer.PostSkipsCategoryCheck | backend/server.js:143-152 | Gap: a body whose categoryId names no category is still stored with 201. The reply carries no row, because the join finds none. |
| RawServer.PutTransaction | backend/server.js:178-219 | The field check comes first (400). Then 404 "İşlem bulunamadı" exactly when no row has the id. Otherwise the reply is 200 with the joined row of that id, read after the write. Every row with that id gets all five fields, the others stay, and neither id counter moves. |
| RawServer.PutIdempotent | backend/server.js:178-219 | Repeating the same PUT leaves the tables as the first one left them. |
| RawServer.DeleteTransaction | backend/server.js:222-237 | 404 exactly when no row has the id, with the table unchanged. Otherwise 204, and only the rows with that id are removed. |
| RawServer.Changes | backend/server.js:198-199 | `this.changes` is 0 exactly when no row has the id. |
| RawServer.ListCategories | backend/server.js:240-260 | All categories, or those of the truthy type, in `ORDER BY name ASC`. |
| RawServer.Seed | backend/server.js:56-89 | An empty category table gets the fourteen defaults, in order, under consecutive ids. A non-empty table is left alone. |
| RawServer.Inserted | backend/server.js:80-84 | Each default becomes one row with the next id and the default's name, type and colour. |
| RawServer.SeedIdempotent | backend/server.js:62 | Seeding twice is the same as seeding once. |
| RawServer.Status | backend/server.js:140-237 | The HTTP code of each reply kind: 400 and 404 exactly for the two error replies. |
| RawStats.GetBalance | backend/server.js:263-288 | balance = income − expense. Each is the sum over that type's rows, 0 when it has none, and rows of any other type count in neither. |
| RawStats.BalanceAfterPost | backend/server.js:263-288 | A successful POST moves the balance by its amount: up for "income", down for "expense", and not at all for any other type. |
| RawStats.MonthKey | backend/server.js:296 | `substr(date, 1, 7)`: a prefix of the date, at most 7 characters. |
| RawStats.MonthlyMonths | backend/server.js:295-300 | The monthly rows have exactly the month keys of the transactions. |
| RawStats.MonthlyAscending | backend/server.js:300-301 | Month keys are strictly ascending, so there is one row per month. |
| RawStats.AscendingPairwise | backend/server.js:300-301 | Strict ascent implies every earlier row's key is below every later row's. |
| RawStats.MonthlyPerMonth | backend/server.js:297-298 | A month's row holds the sum of that month's income amounts, and likewise for expense. |
| RawStats.MonthlyTotalsSum | backend/server.js:295-301 | Over all months, income sums to the total income amount, and likewise for expense. |
| RawStats.MonthlyConservation | backend/server.js:263-301 | The monthly incomes add up to the balance endpoint's income, and the monthly expenses to its expense. |
| RawStats.Split | backend/server.js:316 | `split('-')` always yields at least one piece. |
| RawStats.SplitAfterFirst | backend/server.js:316 | The text after the first separator is split on its own. |
| RawStats.MonthCode | backend/server.js:309-313 | The table's keys are two-digit codes. |
| RawStats.MonthNameOf | backend/server.js:309-318 | A name is found only in the twelve-name table. |
| RawStats.MonthNameOfCode | backend/server.js:309-313 | Code "01" … "12" maps to "Ocak" … "Aralık" in order. |
| RawStats.MonthNameOnlyForCodes | backend/server.js:309-318 | Only the twelve codes have a name; any other piece gives `undefined`. |
| RawStats.MonthLabel | backend/server.js:315-318 | A label comes only from the month table. |
| RawStats.MonthLabelOfKey | backend/server.js:315-318 | `YYYY-MM` is labelled with the name of month `MM`. |
| RawStats.MonthlyStats | backend/server.js:315-324 | One output row per month, in order, with the month's name and its two sums. |
| RawStats.ExpenseRows | backend/server.js:332-336 | Exactly the joined rows of type "expense". |
| RawStats.GroupByCategoryGroups | backend/server.js:337 | There is a group for a category id exactly when some row has it. |
| RawStats.GroupByCategoryDistinct | backend/server.js:337 | No category id appears in two groups. |
| RawStats.GroupByCategorySums | backend/server.js:333-337 | A category's group holds the sum of that category's amounts, and the groups together hold the sum of all rows. |
| RawStats.CategoryBreakdown | backend/server.js:330-338 | The expense groups, one per category id, in `ORDER BY amount DESC`. |
| RawStats.BreakdownRows | backend/server.js:332-337 | There is a breakdown row for a category exactly when it has an expense transaction. Each row's category exists. |
| RawStats.BreakdownPerCategory | backend/server.js:333-337 | A category's breakdown amount is the sum of its expense amounts. |
| RawStats.BreakdownTotal | backend/server.js:333-337 | The breakdown amounts add up to the total of the expense rows. |
| Client.FindCategory | frontend/src/app/transactions/page.tsx:296 | `categories.find` by id gives the first category with that id, and `undefined` exactly when there is none. |
| Client.CategoriesOfKind | frontend/src/app/transactions/new/page.tsx:29-32 | Exactly the categories of the chosen type, in their loaded order; the new-transaction page and the dashboard form filter the same way. |
| TransactionsPage.EndOfDay | frontend/src/app/transactions/page.tsx:274-275 | `setHours(23, 59, 59, 999)` gives the last millisecond of the same day. |
| TransactionsPage.FilterChainIsConjunction | frontend/src/app/transactions/page.tsx:262-313 | The chain of optional filters equals one filter by the conjunction of the active conditions. |
| TransactionsPage.FilterChainMeaning | frontend/src/app/transactions/page.tsx:262-313 | The filtered list is a subsequence of the loaded list. It holds exactly the loaded transactions that satisfy every active filter, the description one compared through the given `toLowerCase`. |
| TransactionsPage.EndDateIncludesWholeDay | frontend/src/app/transactions/page.tsx:273-280 | Any instant on the end date's day passes the end filter. |
| TransactionsPage.KindFilterDropsUnknownCategory | frontend/src/app/transactions/page.tsx:291-305 | With a type filter, a transaction whose category is not found is dropped. |
| TransactionsPage.DescriptionFilterIgnoresCase | frontend/src/app/transactions/page.tsx:308-313 | Two descriptions that `toLowerCase` maps to the same text pass or fail the search together. |
| TransactionsPage.ClearedFiltersKeepAll | frontend/src/app/transactions/page.tsx:197-204 | The cleared filters keep every transaction. |
| TransactionsPage.SortData | frontend/src/app/transactions/page.tsx:334-371 | No column: the input unchanged. Otherwise a permutation ordered by the column's key in the given direction. Amount sorts by absolute value; a missing category's name counts as "". |
| TransactionsPage.SortDataStable | frontend/src/app/transactions/page.tsx:341-370 | Transactions with equal keys keep their relative order. |
| TransactionsPage.HandleSort | frontend/src/app/transactions/page.tsx:322-331 | The clicked column becomes the sort column. |
| TransactionsPage.HandleSortTwiceRestores | frontend/src/app/transactions/page.tsx:323-325 | On the same column the direction flips, and two clicks restore the state. |
| TransactionsPage.HandleSortNewColumn | frontend/src/app/transactions/page.tsx:326-329 | A new column starts descending; the next click makes it ascending. |
| TransactionsPage.HandleFilter | frontend/src/app/transactions/page.tsx:262-319 | The filtered transactions, with `toLowerCase` as a parameter for the description search, each kept once per occurrence and sorted by the current sort state. |
| TransactionsPage.Total | frontend/src/app/transactions/page.tsx:517-529 | A type's total, the sum of absolute amounts over that category type, is never negative. |
| TransactionsPage.Balance | frontend/src/app/transactions/page.tsx:531 | The balance lies between −expense total and income total. |
| TransactionsPage.TotalsCoverKnownCategories | frontend/src/app/transactions/page.tsx:517-529 | Income plus expense total is the absolute-amount sum of the transactions whose category is found. |
| TransactionsPage.DeleteFromLists | frontend/src/app/transactions/page.tsx:402-408 | Both lists lose exactly the rows with that id, stay subsequences, and keep every other row's count. |
| DashboardPage.Enrich | frontend/src/app/dashboard/page.tsx:155-162 | A missing category gives "Bilinmeyen", "#CCC" and "expense". A found one gives its name and colour, each falling back when empty, and its type. |
| DashboardPage.ManualFilter | frontend/src/app/dashboard/page.tsx:131-152 | A subsequence of the fetched list, in its order. It holds each fetched transaction that satisfies every truthy filter, as often as it was fetched, and no other. Both dates are inclusive, and the type comes from the category lookup. |
| DashboardPage.ManualFilterIsConjunction | frontend/src/app/dashboard/page.tsx:131-152 | The four filter steps keep exactly what one filter by their conjunction keeps. |
| DashboardPage.EnrichKindMatchesLookup | frontend/src/app/dashboard/page.tsx:147-162 | The type a row is shown with is `k` exactly when the type filter's category lookup finds type `k`, or finds nothing and `k` is expense. |
| DashboardPage.TypeFilterRowsShowType | frontend/src/app/dashboard/page.tsx:147-162 | With a type filter, every listed row is shown with that type. |
| DashboardPage.HandleFilter | frontend/src/app/dashboard/page.tsx:107-165 | With no truthy filter field, the summary's recent list. Otherwise at most five rows, the first ones of the filtered list in order, each enriched. |
| DashboardPage.EndDateNotExtended | frontend/src/app/dashboard/page.tsx:138-141 | A listed transaction is not after the parsed end date itself (no end-of-day extension). |
| DashboardPage.ExpenseCategoryData | frontend/src/app/dashboard/page.tsx:76-81 | One row per item. Its id is the id of the first category with the item's name, or 0 when there is none. The name, amount and colour are copied. |
| DashboardPage.ExpenseCategoryDataIds | frontend/src/app/dashboard/page.tsx:77 | When exactly one category has an item's name, that item's row carries the category's id. |
| DashboardPage.ChartData | frontend/src/app/dashboard/page.tsx:85-89 | One row per month: `name`, `gelir`, `gider` become `month`, `income`, `expense`. |
| DashboardPage.ChartDataRoundTrip | frontend/src/app/dashboard/page.tsx:85-89 | Mapping the chart rows back to `name`/`gelir`/`gider` gives the summary's months unchanged. |
| NewTransactionPage.HandleSubmit | frontend/src/app/new-transaction/page.tsx:105-138 | A blank-after-trim description is refused first. Then an empty or non-positive amount. Then a falsy category. The payload is sent exactly when all three pass. |
| NewTransactionPage.AdjustAmount | frontend/src/app/new-transaction/page.tsx:129-130 | The amount's magnitude is kept. Its sign is ≤ 0 for expense and ≥ 0 for income. |
| NewTransactionPage.SubmittedSignMatchesKind | frontend/src/app/new-transaction/page.tsx:114-130 | A submitted numeric amount is never 0, and is negative exactly for the expense type. |
| NewTransactionPage.NaNAmountPasses | frontend/src/app/new-transaction/page.tsx:114-117 | On its own, `handleSubmit` lets text that parses to `NaN` through (`NaN <= 0` is false) and sends `NaN`. The page's `type="number"` input never holds such text. |
| NewTransactionPage.SubmitAndReset | frontend/src/app/new-transaction/page.tsx:144-149 | After a successful submit the form is "", "", today, category 0. After a refusal the form stays. |
| NewTransactionPage.ResetFormRejected | frontend/src/app/new-transaction/page.tsx:109-149 | The reset form is refused at its description. |
| NewTransactionPage.FirstOfKind | frontend/src/app/new-transaction/page.tsx:95 | The first category of the type, and none exactly when no category has it. |
| NewTransactionPage.HandleTypeChange | frontend/src/app/new-transaction/page.tsx:91-102 | The type changes. When a category of it exists, the first one in the list is selected and nothing else changes; otherwise the form is unchanged. |
| NewTransactionPage.BasicAdditionalPartition | frontend/src/app/new-transaction/page.tsx:169-170 | The basic and the additional categories partition those of the type. No category record has `isBasic` (lib/api.ts:13-18), so the basic list is empty and all of them are additional. |
| NewTransactionPage.CategoriesToShow | frontend/src/app/new-transaction/page.tsx:164-173 | With "show all" on, exactly the categories of the type. With it off, the basic ones, which are none: the list is empty. |
| NewTransactionPage.CategoryPanel | frontend/src/app/new-transaction/page.tsx:301-359 | "noCategoriesFound" exactly when the list to show is empty. Otherwise the cards of that list, with the toggle exactly when some category of the type is additional. |
| NewTransactionPage.ClickToggle | frontend/src/app/new-transaction/page.tsx:333-350 | A click flips "show all" when the toggle is rendered and changes nothing otherwise. |
| NewTransactionPage.NoCategoryEverShown | frontend/src/app/new-transaction/page.tsx:29 | "Show all" starts false. However often the user clicks, it stays false and the page shows "noCategoriesFound", whatever categories were loaded. |
| TransactionsNewPage.HandleSubmit | frontend/src/app/transactions/new/page.tsx:42-67 | "Fill in every field" exactly when a field is empty. Otherwise the payload carries the description, the signed amount, the parsed categoryId and the date. |
| TransactionsNewPage.Selected | frontend/src/app/transactions/new/page.tsx:56 | The found category for a parsed id; none for `NaN`. |
| TransactionsNewPage.SignedAmount | frontend/src/app/transactions/new/page.tsx:57-59 | Magnitude kept. It is ≤ 0 when the found category is an expense category, ≥ 0 otherwise. |
| TransactionsNewPage.SignFollowsTypeWhenFound | frontend/src/app/transactions/new/page.tsx:29-59 | Among the categories loaded for the type, a found category makes the sign follow the form's type. |
| TransactionsNewPage.UnknownCategoryGivesPositive | frontend/src/app/transactions/new/page.tsx:56-59 | Gap: an id no loaded category has is submitted with the non-negative amount. |
| TransactionsNewPage.ChangeType | frontend/src/app/transactions/new/page.tsx:118-121 | Changing the type clears the category and keeps the other fields. |
| TransactionsNewPage.ChangeTypeBlocksSubmit | frontend/src/app/transactions/new/page.tsx:118-121 | A type change empties the category, so the next submit is refused with the fill-all-fields message. |
| AddTransactionForm.Validate | frontend/src/components/ui/dashboard/AddTransactionForm.tsx:41-58 | The amount is flagged exactly when empty, `NaN` or ≤ 0. The category is flagged exactly when empty, the date exactly when absent. |
| AddTransactionForm.HandleSubmit | frontend/src/components/ui/dashboard/AddTransactionForm.tsx:60-82 | `onSubmit` is called exactly when nothing is flagged, with a positive amount and the form's fields. Then the form is cleared and the type is reset to expense. Otherwise the form stays and the flags are shown. |
| AddTransactionForm.ClearedFormInvalid | frontend/src/components/ui/dashboard/AddTransactionForm.tsx:44-81 | The cleared form flags amount and category, but not the date. |
| AddTransactionForm.FormatDateLayout | frontend/src/components/ui/dashboard/AddTransactionForm.tsx:84-89 | The layout is two-digit day, dot, two-digit month, dot, year. |
| AddTransactionForm.FormatDateReadsBack | frontend/src/components/ui/dashboard/AddTransactionForm.tsx:84-89 | Reading the label back gives the day, `getMonth() + 1` and, when it is not negative, the year. |
| AddTransactionForm.ChooseType | frontend/src/components/ui/dashboard/AddTransactionForm.tsx:117-122 | Picking a type clears the category and keeps the rest. |
| FilterForm.OrUndefined | frontend/src/components/ui/dashboard/FilterForm.tsx:36-37 | `text \|\| undefined`: absent exactly for "". |
| FilterForm.Submit | frontend/src/components/ui/dashboard/FilterForm.tsx:33-41 | Empty dates become absent. The category is present exactly when one is picked. The type passes through. |
| FilterForm.SubmitKeepsCategory | frontend/src/components/ui/dashboard/FilterForm.tsx:38 | `parseInt(id.toString())` gives back the picked id. |
| FilterForm.SubmitNoFilterIff | frontend/src/components/ui/dashboard/FilterForm.tsx:33-41 | The dashboard shows its unfiltered list exactly when both dates are empty, no type is picked, and no category or the category with id 0 is picked. |
| FilterForm.Reset | frontend/src/components/ui/dashboard/FilterForm.tsx:43-49 | Every field is cleared and the empty filter `{}` is sent. |
| FilterForm.ResetClearsDashboard | frontend/src/components/ui/dashboard/FilterForm.tsx:43-49 | After a reset the dashboard is unfiltered, and submitting the cleared form sends the same filter. |
| RegisterPage.HandleSubmit | frontend/src/app/auth/register/page.tsx:22-41 | "Şifreler eşleşmiyor" exactly on a mismatch, so it takes precedence. Then "at least 6 characters" exactly for a matching password shorter than 6 UTF-16 code units, as `length` counts. `register` receives name, email and password exactly when both checks pass. |
| RegisterPage.AstralPasswordLength | frontend/src/app/auth/register/page.tsx:31 | Three characters above U+FFFF make six code units, so such a password is registered. |

## Left out

- UserService, AuthMiddleware and the register call's result are not part of this model: password hashing and token signing are foreign cryptographic code.
- lib/api.ts (lines 21-144) exports no `getDashboardSummary` and no `register`. The dashboard imports the first (dashboard/page.tsx:14, called at :68 and :122) and the register page the second (auth/register/page.tsx:11, called at :41). As written these calls cannot succeed, so the pages would take their catch branches. The model takes `summaryRecent` of DashboardPage.HandleFilter as an input and treats RegisterPage's `Register` outcome as the hand-off to a call it does not model. It does not promise that the call resolves.
- The new-transaction page (new-transaction/page.tsx:133-138) and the transactions/new page (transactions/new/page.tsx:62-67) send no `type`. `server.js:141-145` answers such a body with 400 "Tüm alanlar gereklidir" (RawServer.PostTransaction's field check), and `addTransaction` then throws. The pages' success paths (NewTransactionPage.SubmitAndReset, TransactionsNewPage.HandleSubmit) model what they do once the call returns. That the call fails against the stand-alone server is recorded here and not proved.
- The database wiring, the TypeORM plumbing, the SQLite connection and the `api.ts` fetch calls are left out. Only the declared filter and order semantics are modelled.
- The throws after a failed reload ("İşlem güncellenemedi", "Kategori güncellenemedi") and the raw server's 500 replies are left out. They come from I/O failures, which are not modelled. The errors the ORM backend can meet from its inputs are modelled: the `categoryId` foreign key and the `type` enum of PostgreSQL, and TypeORM's refusal of an update with no values. Their messages are represented by fixed texts.
- The `userId` foreign keys to the users table are not modelled, because users are not part of this model. A patch that changes `userId` is applied as given.
- Charts, the balance card, the recent-transactions list, i18n, toasts, the settings, login and forgot-password pages, the layouts and the mock add-transaction page are left out. They are presentation, timers or local storage.
- CSV export, `Intl.NumberFormat`, date-fns and time zones are left out. The local day is modelled as whole multiples of 86 400 000 ms, so daylight-saving shifts are not modelled.
- `new Date(text)`, `parseFloat`, `Number`, `parseInt`, `toLowerCase` and SQLite's integer affinity are parameters. Their own behaviour, including an invalid `Date` in a comparison and Unicode case mapping, is not modelled.
- Repositories.FindCategoriesByUserId: `order: { name: 'ASC' }` sorts by the PostgreSQL database's collation (backend/src/data-source.ts:7). The model sorts by character code, so under a locale collation pairs such as "gıda"/"Kira" come out the other way round. The collation is configuration the source does not fix.
- Repositories.FindCategoriesByUserIdAndType: the same code-point order stands for the database collation, for the same reason.
- CategoryController.GetCategories: it returns the repositories' lists, so it inherits the code-point order in place of the collation.
- Ordering on text is by character code, as SQLite and JavaScript compare. The UTF-16 code-unit order of JavaScript for characters outside the Basic Multilingual Plane is not modelled. `length` in UTF-16 units is modelled (`Text.Utf16Length`), for the password check.
- Request bodies are typed records. `Partial<>` bodies that carry an `id`, `null` fields, string-typed numbers in JSON and repeated query parameters are not modelled. An update body holding only keys the entity lacks is outside the patch records; TypeORM would refuse it as it refuses `{}`.
- The `decimal(10,2)` column bound and fractional or REAL amounts are not modelled: amounts are unbounded integer cents.
- SQL text generation in `server.js` is left out; the clause list stands for it. The foreign key `server.js` declares at line 51 is not enforced: the server never runs `PRAGMA foreign_keys = ON`, and SQLite leaves foreign keys off by default.
- The raw server's seeding runs on a `COUNT(*)` callback and is modelled as one step. The timing of the callback is left out.
- Loading, success flags, redirects and the `loading` overlays of the pages are left out. They are UI state with timers.
- TransactionService.UpdateTransaction: the reloaded row (with its `category` relation) is modelled as the patched row itself.
- RawServer.PutTransaction: the ids written in the `WHERE id = ?` clause are compared through the integer-affinity parameter. A text id that SQLite would compare as text is not modelled.
- TransactionsPage.SortData: keys are compared with `<` and `>` as the source does, texts by character code. It differs from JavaScript only for characters outside the Basic Multilingual Plane, as noted above.
- DashboardPage.HandleFilter: the type filter uses the category lookup of the page's own category list, as the code does. The `type` returned by the API is not consulted.

=== FILE: add_transaction_form.dfy ===
/** The dashboard's add-transaction form: per-field validation, submit-then-clear, the
    `DD.MM.YYYY` date label and the category list that follows the chosen type. */
module AddTransactionForm {
  import opened Wrappers
  import opened Kinds
  import opened Client
  import Seqs
  import Text

  /** The form state; `date` is `None` when the picker holds no date. */
  datatype Form = Form(amount: string, kind: Kind, categoryId: string, date: Option<int>, description: string)

  /** The fields `validateForm` can flag. */
  datatype Field = AmountField | CategoryField | DateField

  function Message(f: Field): string
  {
    match f
    case AmountField => "Geçerli bir miktar giriniz"
    case CategoryField => "Kategori seçiniz"
    case DateField => "Tarih seçiniz"
  }

  /** What `onSubmit` receives. */
  datatype Submission = Submission(amount: int, kind: Kind, categoryId: Number, date: int, description: string)

  /** `!amount || isNaN(Number(amount)) || Number(amount) <= 0`; `toNumber` is `Number(text)`. */
  predicate BadAmount(amount: string, toNumber: string -> Number)
  {
    amount == "" || toNumber(amount).NaN? || toNumber(amount).v <= 0
  }

  /** `validateForm`: the set of flagged fields; the form is valid when it is empty. */
  function Validate(form: Form, toNumber: string -> Number): (errs: set<Field>)
    ensures AmountField in errs <==> BadAmount(form.amount, toNumber)
    ensures CategoryField in errs <==> form.categoryId == ""
    ensures DateField in errs <==> form.date.None?
  {
    (if BadAmount(form.amount, toNumber) then {AmountField} else {})
    + (if form.categoryId == "" then {CategoryField} else {})
    + (if form.date.None? then {DateField} else {})
  }

  /** The form after a submit: everything cleared, the type back to expense, today's date. */
  function Cleared(now: int): Form
  {
    Form("", Expense, "", Some(now), "")
  }

  /** `handleSubmit`: what reaches `onSubmit`, the next form and the shown errors. */
  function HandleSubmit(form: Form, toNumber: string -> Number, now: int): (r: (Option<Submission>, Form, set<Field>))
    ensures r.0.Some? <==> Validate(form, toNumber) == {}
    ensures r.0.None? ==> r.1 == form && r.2 == Validate(form, toNumber)
    ensures r.0.Some? ==>
              && r.0.value.amount > 0 && toNumber(form.amount) == Num(r.0.value.amount)
              && r.0.value.kind == form.kind && r.0.value.categoryId == toNumber(form.categoryId)
              && Some(r.0.value.date) == form.date && r.0.value.description == form.description
              && r.1 == Cleared(now) && r.2 == {}
  {
    var errs := Validate(form, toNumber);
    if errs != {} then (None, form, errs)
    else
      assert AmountField !in errs && DateField !in errs;
      var s := Submission(toNumber(form.amount).v, form.kind, toNumber(form.categoryId), form.date.value, form.description);
      (Some(s), Cleared(now), {})
  }

  /** A cleared form is invalid: amount and category are empty, only the date is set. */
  lemma ClearedFormInvalid(toNumber: string -> Number, now: int)
    ensures Validate(Cleared(now), toNumber) == {AmountField, CategoryField}
  {
    assert AmountField in Validate(Cleared(now), toNumber);
  }

  /** The calendar fields of a `Date` in local time: `getDate()`, `getMonth()`, `getFullYear()`. */
  datatype DateParts = DateParts(day: int, month0: int, year: int)

  predicate ValidParts(p: DateParts)
  {
    1 <= p.day <= 31 && 0 <= p.month0 <= 11
  }

  /** `formatDate`: two-digit day, dot, two-digit month counted from 1, dot, year. */
  function FormatDate(p: DateParts): (r: string)
    requires ValidParts(p)
  {
    Text.Pad2(p.day) + "." + Text.Pad2(p.month0 + 1) + "." + Text.IntToString(p.year)
  }

  /** The label's layout: day, dot, month, dot, year. */
  lemma FormatDateLayout(p: DateParts)
    requires ValidParts(p)
    ensures var r := FormatDate(p);
            && |r| >= 7 && r[2] == '.' && r[5] == '.'
            && r[..2] == Text.Pad2(p.day) && r[3..5] == Text.Pad2(p.month0 + 1)
            && r[6..] == Text.IntToString(p.year)
  {
    Text.Pad2Value(p.day);
    Text.Pad2Value(p.month0 + 1);
    DottedSlices(Text.Pad2(p.day), Text.Pad2(p.month0 + 1), Text.IntToString(p.year));
  }

  /** Reading the label back gives the day, the month and (when it is not negative) the year. */
  lemma FormatDateReadsBack(p: DateParts)
    requires ValidParts(p)
    ensures |FormatDate(p)| >= 7 && FormatDate(p)[2] == '.' && FormatDate(p)[5] == '.'
    ensures Text.AllDigits(FormatDate(p)[..2]) && Text.DigitsValue(FormatDate(p)[..2]) == p.day
    ensures Text.AllDigits(FormatDate(p)[3..5]) && Text.DigitsValue(FormatDate(p)[3..5]) == p.month0 + 1
    ensures p.year >= 0 ==> Text.AllDigits(FormatDate(p)[6..]) && Text.DigitsValue(FormatDate(p)[6..]) == p.year
  {
    var r := FormatDate(p);
    FormatDateLayout(p);
    assert Text.AllDigits(r[..2]) && Text.DigitsValue(r[..2]) == p.day by {
      Text.Pad2Value(p.day);
    }
    assert Text.AllDigits(r[3..5]) && Text.DigitsValue(r[3..5]) == p.month0 + 1 by {
      Text.Pad2Value(p.month0 + 1);
    }
    if p.year >= 0 {
      assert r[6..] == Text.NatToString(p.year);
      Text.NatToStringValue(p.year);
    }
  }

  lemma DottedSlices(d: string, m: string, y: string)
    requires |d| == 2 && |m| == 2
    ensures var r := d + "." + m + "." + y;
            |r| == 6 + |y| && r[2] == '.' && r[5] == '.' && r[..2] == d && r[3..5] == m && r[6..] == y
  {
    var r := d + "." + m + "." + y;
    assert r == (d + "." + m + ".") + y;
    assert |d + "." + m + "."| == 6;
  }

  /** Picking a type clears the selected category. */
  function ChooseType(form: Form, k: Kind): (r: Form)
    ensures r.kind == k && r.categoryId == ""
    ensures r.amount == form.amount && r.date == form.date && r.description == form.description
  {
    form.(kind := k, categoryId := "")
  }
}

=== FILE: category_controller.dfy ===
/** `CategoryController`: the type-filter dispatch and the authenticated user's id stamped onto,
    or scoped into, every write. */
module CategoryController {
  import opened Wrappers
  import opened Kinds
  import opened Ledger
  import Ordering
  import Repositories
  import CategoryService
  import TransactionController

  /** `getCategories`: a truthy `type` parameter selects the typed finder, which fails for a
      type outside the enum. */
  function GetCategories(s: Store, userId: int, kind: Option<string>): (r: Result<seq<Category>>)
    ensures r.Err? <==> TransactionController.Truthy(kind) && ParseKind(kind.value).None?
    ensures r.Err? ==> r.msg == Repositories.InvalidEnumValue
    ensures r.Ok? ==> Ordering.Sorted(r.value, Repositories.NameKey, Ordering.Asc)
    ensures TransactionController.Truthy(kind) && r.Ok? ==>
              forall c :: multiset(r.value)[c] ==
                if c.userId == userId && KindName(c.kind) == kind.value then multiset(s.categories)[c] else 0
    ensures !TransactionController.Truthy(kind) ==>
              r.Ok? && forall c :: multiset(r.value)[c] == if c.userId == userId then multiset(s.categories)[c] else 0
  {
    if TransactionController.Truthy(kind) then
      Repositories.FindCategoriesByUserIdAndType(s.categories, userId, kind.value)
    else
      Ok(Repositories.FindCategoriesByUserId(s.categories, userId))
  }

  /** Every listed category is one of the user's own, of the requested type when one is given. */
  lemma GetCategoriesOwnRowsOnly(s: Store, userId: int, kind: Option<string>, c: Category)
    requires GetCategories(s, userId, kind).Ok?
    requires c in GetCategories(s, userId, kind).value
    ensures c in s.categories && c.userId == userId
    ensures TransactionController.Truthy(kind) ==> KindName(c.kind) == kind.value
  {
    assert multiset(GetCategories(s, userId, kind).value)[c] > 0;
  }

  /** A create body as JSON sends it, possibly with a `userId` of the client's choosing. */
  datatype CategoryBody = CategoryBody(userId: Option<int>, name: string, kind: Kind)

  /** `createCategory`: the body's `userId` is overwritten with the authenticated user's. */
  function CreateCategory(s: Store, userId: int, b: CategoryBody): (r: (Store, Category))
    ensures r.1.userId == userId && r.1.name == b.name && r.1.kind == b.kind
    ensures r.0.categories == s.categories + [r.1] && r.0.transactions == s.transactions
  {
    CategoryService.CreateCategory(s, CategoryService.NewCategory(userId, b.name, b.kind))
  }

  /** `updateCategory`, scoped to the authenticated user. */
  function UpdateCategory(s: Store, userId: int, id: int, p: CategoryService.CategoryPatch): (r: Result<(Store, Category)>)
    ensures (forall c :: c in s.categories && c.id == id ==> c.userId != userId)
            ==> r == Err(CategoryService.CategoryNotFound)
  {
    CategoryService.UpdateCategory(s, id, userId, p)
  }

  /** Scoping: with unique ids, an update never touches another user's category. */
  lemma UpdateLeavesOtherUsersAlone(s: Store, userId: int, id: int, p: CategoryService.CategoryPatch, i: int)
    requires UniqueIds(s)
    requires UpdateCategory(s, userId, id, p).Ok?
    requires 0 <= i < |s.categories| && s.categories[i].userId != userId
    ensures UpdateCategory(s, userId, id, p).value.0.categories[i] == s.categories[i]
  {
    var c :| c in s.categories && c.id == id && c.userId == userId;
    if s.categories[i].id == id {
      CategoryIdDetermines(s, s.categories[i], c);
      assert false;
    }
  }

  /** `deleteCategory`: scoped to the user; on success it answers `{ success: true }`. */
  function DeleteCategory(s: Store, userId: int, id: int): (r: Result<(Store, TransactionController.DeleteReply)>)
    ensures r.Ok? ==> r.value.1 == TransactionController.DeleteReply(true) && r.value.0.transactions == s.transactions
    ensures (forall c :: c in s.categories && c.id == id ==> c.userId != userId)
            ==> r == Err(CategoryService.CategoryNotFound)
  {
    match CategoryService.DeleteCategory(s, id, userId)
    case Err(m) => Err(m)
    case Ok(s') => Ok((s', TransactionController.DeleteReply(true)))
  }

  /** Scoping: with unique ids, a delete keeps every category of another user. */
  lemma DeleteKeepsOtherUsersCategories(s: Store, userId: int, id: int, x: Category)
    requires UniqueIds(s)
    requires DeleteCategory(s, userId, id).Ok?
    requires x in s.categories && x.userId != userId
    ensures x in DeleteCategory(s, userId, id).value.0.categories
  {
    var c :| c in s.categories && c.id == id && c.userId == userId;
    if x.id == id {
      CategoryIdDetermines(s, x, c);
      assert false;
    }
    assert multiset(DeleteCategory(s, userId, id).value.0.categories)[x] == multiset(s.categories)[x];
  }
}

=== FILE: category_service.dfy ===
/** `CategoryService`: unchecked create, and update/delete guarded by the transactions that
    reference the category. */
module CategoryService {
  import opened Wrappers
  import opened Kinds
  import opened Ledger
  import Seqs
  import Text

  /** A create request after the controller stamped the owner. */
  datatype NewCategory = NewCategory(userId: int, name: string, kind: Kind)

  /** The fields an update request may carry; an absent field is left as it is. */
  datatype CategoryPatch = CategoryPatch(userId: Option<int>, name: Option<string>, kind: Option<Kind>)

  const CategoryNotFound: string := "Kategori bulunamadı"

  function KindChangeBlocked(n: nat): string
  {
    "Bu kategoriye ait " + Text.NatToString(n) + " adet işlem bulunduğu için kategori tipi değiştirilemez"
  }

  function DeleteBlocked(n: nat): string
  {
    "Bu kategoriye ait " + Text.NatToString(n) + " adet işlem bulunduğu için kategori silinemez"
  }

  /** `createCategory`: no validation; the data is saved under the next generated id. */
  function CreateCategory(s: Store, d: NewCategory): (r: (Store, Category))
    ensures r.1 == Category(s.nextCategoryId, d.userId, d.name, d.kind)
    ensures r.0 == s.(categories := s.categories + [r.1], nextCategoryId := s.nextCategoryId + 1)
  {
    var c := Category(s.nextCategoryId, d.userId, d.name, d.kind);
    (s.(categories := s.categories + [c], nextCategoryId := s.nextCategoryId + 1), c)
  }

  function PatchedCategory(c: Category, p: CategoryPatch): Category
  {
    Category(c.id, p.userId.GetOr(c.userId), p.name.GetOr(c.name), p.kind.GetOr(c.kind))
  }

  /** `update(id, data)` applies the patch to the row with that primary key. */
  function UpdateCategoryRows(cats: seq<Category>, id: int, p: CategoryPatch): (r: seq<Category>)
    ensures |r| == |cats|
    ensures forall i :: 0 <= i < |cats| ==> r[i] == if cats[i].id == id then PatchedCategory(cats[i], p) else cats[i]
  {
    Seqs.Map(cats, (c: Category) => if c.id == id then PatchedCategory(c, p) else c)
  }

  /** The transactions the type-change guard counts: this category id and the category's
      current type, whatever their owner. */
  function OldKindReferences(txns: seq<Transaction>, id: int, k: Kind): (r: seq<Transaction>)
    ensures forall t :: t in r <==> t in txns && t.categoryId == id && t.kind == k
  {
    Seqs.Filter(txns, (t: Transaction) => t.categoryId == id && t.kind == k)
  }

  /** The transactions the delete guard counts: this category id, any type, any owner. */
  function References(txns: seq<Transaction>, id: int): (r: seq<Transaction>)
    ensures forall t :: t in r <==> t in txns && t.categoryId == id
  {
    Seqs.Filter(txns, (t: Transaction) => t.categoryId == id)
  }

  /** The request body names no column: `{}`. */
  predicate NoValues(p: CategoryPatch)
  {
    p.userId.None? && p.name.None? && p.kind.None?
  }

  /** `updateCategory`: the owner lookup and the type-change guard, then `update(id, data)`,
      which refuses an empty body. */
  function UpdateCategory(s: Store, id: int, userId: int, p: CategoryPatch): (r: Result<(Store, Category)>)
    ensures (forall c :: c in s.categories ==> !(c.id == id && c.userId == userId)) <==> r == Err(CategoryNotFound)
    ensures NoValues(p) && (exists c :: c in s.categories && c.id == id && c.userId == userId) ==>
              r == Err(UpdateValuesMissing)
    ensures r.Ok? ==>
              && !NoValues(p)
              && r.value.0 == s.(categories := UpdateCategoryRows(s.categories, id, p))
              && exists c :: c in s.categories && c.id == id && c.userId == userId && r.value.1 == PatchedCategory(c, p)
    ensures UniqueIds(s) ==> forall c :: c in s.categories && c.id == id && c.userId == userId ==>
              && ((p.kind.None? || p.kind == Some(c.kind)) ==> (r.Ok? <==> !NoValues(p)))
              && (p.kind.Some? && p.kind.value != c.kind ==>
                    (r.Err? <==> exists t :: t in s.transactions && t.categoryId == id && t.kind == c.kind))
  {
    match FindCategory(s.categories, id, userId)
    case None => Err(CategoryNotFound)
    case Some(c) =>
      OnlyCategoryWithId(s, c);
      var blocking := OldKindReferences(s.transactions, id, c.kind);
      if p.kind.Some? && p.kind.value != c.kind && |blocking| > 0 then
        assert blocking[0] in blocking;
        Err(KindChangeBlocked(|blocking|))
      else if NoValues(p) then
        Err(UpdateValuesMissing)
      else
        Ok((s.(categories := UpdateCategoryRows(s.categories, id, p)), PatchedCategory(c, p)))
  }

  /** `deleteCategory`: refused while any transaction references the category. */
  function DeleteCategory(s: Store, id: int, userId: int): (r: Result<Store>)
    ensures (forall c :: c in s.categories ==> !(c.id == id && c.userId == userId)) <==> r == Err(CategoryNotFound)
    ensures (exists c :: c in s.categories && c.id == id && c.userId == userId) ==>
              (r.Err? <==> exists t :: t in s.transactions && t.categoryId == id)
    ensures r.Ok? ==>
              && r.value.transactions == s.transactions
              && r.value.nextCategoryId == s.nextCategoryId
              && r.value.nextTransactionId == s.nextTransactionId
              && Seqs.IsSubseq(r.value.categories, s.categories)
              && forall c :: multiset(r.value.categories)[c] == if c.id == id then 0 else multiset(s.categories)[c]
  {
    match FindCategory(s.categories, id, userId)
    case None => Err(CategoryNotFound)
    case Some(c) =>
      var refs := References(s.transactions, id);
      if |refs| > 0 then
        assert refs[0] in refs;
        Err(DeleteBlocked(|refs|))
      else
        var kept := Seqs.Filter(s.categories, (x: Category) => x.id != c.id);
        Seqs.FilterIsSubseq(s.categories, (x: Category) => x.id != c.id);
        Seqs.FilterCount(s.categories, (x: Category) => x.id != c.id);
        Ok(s.(categories := kept))
  }

  /** Creating a category keeps the store consistent. */
  lemma CreateCategoryPreservesConsistency(s: Store, d: NewCategory)
    requires Consistent(s)
    ensures Consistent(CreateCategory(s, d).0)
  {
    var (s', c) := CreateCategory(s, d);
    forall i, j | 0 <= i < j < |s'.categories|
      ensures s'.categories[i].id != s'.categories[j].id
    {
      if j == |s.categories| {
        assert s'.categories[i] in s.categories;
      }
    }
    forall t, c' | t in s'.transactions && c' in s'.categories && c'.id == t.categoryId
      ensures t.kind == c'.kind
    {
      var e :| e in s.categories && e.id == t.categoryId;
      assert c' != c;
    }
  }

  /** On a consistent store every transaction that references a category has its type, so the
      type-change guard sees all references and an update keeps the store consistent. */
  lemma UpdateCategoryPreservesConsistency(s: Store, id: int, userId: int, p: CategoryPatch)
    requires Consistent(s)
    requires UpdateCategory(s, id, userId, p).Ok?
    ensures Consistent(UpdateCategory(s, id, userId, p).value.0)
  {
    var c :| c in s.categories && c.id == id && c.userId == userId
             && UpdateCategory(s, id, userId, p).value.1 == PatchedCategory(c, p);
    PatchCategoryConsistent(s, c, p);
  }

  /** Patching one category keeps the store consistent unless its type changes while a
      transaction of its current type references it. */
  lemma PatchCategoryConsistent(s: Store, c: Category, p: CategoryPatch)
    requires Consistent(s) && c in s.categories
    requires p.kind.Some? && p.kind.value != c.kind ==>
               forall t :: t in s.transactions ==> !(t.categoryId == c.id && t.kind == c.kind)
    ensures Consistent(s.(categories := UpdateCategoryRows(s.categories, c.id, p)))
  {
    var s' := s.(categories := UpdateCategoryRows(s.categories, c.id, p));
    forall i | 0 <= i < |s.categories|
      ensures s'.categories[i] == if s.categories[i].id == c.id then PatchedCategory(c, p) else s.categories[i]
    {
      if s.categories[i].id == c.id {
        CategoryIdDetermines(s, s.categories[i], c);
      }
    }
    forall t, c' | t in s'.transactions && c' in s'.categories && c'.id == t.categoryId
      ensures t.kind == c'.kind
    {
      var i :| 0 <= i < |s'.categories| && s'.categories[i] == c';
      if c'.id == c.id {
        assert t.kind == c.kind;
        if p.kind.Some? && p.kind.value != c.kind {
          assert false;
        }
      }
    }
    forall t | t in s'.transactions
      ensures exists c' :: c' in s'.categories && c'.id == t.categoryId
    {
      var e :| e in s.categories && e.id == t.categoryId;
      var i :| 0 <= i < |s.categories| && s.categories[i] == e;
      assert s'.categories[i] in s'.categories;
    }
  }

  /** Gap: the type-change guard only counts transactions of the category's current type, so a
      category referenced only by transactions of the other type (as a type-only transaction
      update can leave behind) changes type although it is referenced. */
  lemma KindChangeIgnoresOtherKind(s: Store, c: Category, t: Transaction)
    requires UniqueIds(s)
    requires c in s.categories && t in s.transactions && t.categoryId == c.id && t.kind != c.kind
    requires forall u :: u in s.transactions && u.categoryId == c.id ==> u.kind != c.kind
    ensures UpdateCategory(s, c.id, c.userId, CategoryPatch(None, None, Some(t.kind))).Ok?
    ensures DeleteCategory(s, c.id, c.userId).Err?
  {
  }

  /** Deleting a category keeps the store consistent: nothing referenced it. */
  lemma DeleteCategoryPreservesConsistency(s: Store, id: int, userId: int)
    requires Consistent(s)
    requires DeleteCategory(s, id, userId).Ok?
    ensures Consistent(DeleteCategory(s, id, userId).value)
  {
    var s' := DeleteCategory(s, id, userId).value;
    assert s' == s.(categories := s'.categories);
    DropUnreferencedCategory(s, s'.categories, id);
  }

  /** Dropping the rows of a category id that no transaction references keeps the store
      consistent. */
  lemma DropUnreferencedCategory(s: Store, kept: seq<Category>, id: int)
    requires Consistent(s) && Seqs.IsSubseq(kept, s.categories)
    requires forall c :: multiset(kept)[c] == if c.id == id then 0 else multiset(s.categories)[c]
    requires forall t :: t in s.transactions ==> t.categoryId != id
    ensures Consistent(s.(categories := kept))
  {
    var s' := s.(categories := kept);
    Seqs.SubseqElements(kept, s.categories);
    forall t | t in s'.transactions
      ensures exists e :: e in s'.categories && e.id == t.categoryId
    {
      var e :| e in s.categories && e.id == t.categoryId;
      assert multiset(kept)[e] == multiset(s.categories)[e] > 0;
    }
    Seqs.SubseqKeepsDistinct(kept, s.categories, (c: Category) => c.id);
  }

}

=== FILE: client.dfy ===
/** The records the frontend receives from the API, and `Array.prototype.find` over categories. */
module Client {
  import opened Wrappers
  import opened Kinds
  import Seqs

  /** A category as the API sends it: id, name, type and an optional colour, nothing more. */
  datatype Category = Category(id: int, name: string, kind: Kind, color: Option<string>)

  /** A transaction as the pages hold it. `at` is the instant `new Date(transaction.date)` denotes,
      in milliseconds; `amount` is in cents. */
  datatype Transaction = Transaction(id: int, description: string, amount: int, kind: Kind, categoryId: int, at: int)

  /** `categories.find(c => c.id === id)`: the first category with that id. */
  function FindCategory(cats: seq<Category>, id: int): (r: Option<Category>)
    ensures r.None? <==> forall c :: c in cats ==> c.id != id
    ensures r.Some? ==> exists i :: 0 <= i < |cats| && cats[i] == r.value && r.value.id == id
                                    && forall j :: 0 <= j < i ==> cats[j].id != id
  {
    Seqs.Find(cats, (c: Category) => c.id == id)
  }

  /** `categories.filter(c => c.type === k)`: the categories of one type, in their order. */
  function CategoriesOfKind(cats: seq<Category>, k: Kind): (r: seq<Category>)
    ensures forall c :: c in r <==> c in cats && c.kind == k
    ensures forall c :: multiset(r)[c] == if c.kind == k then multiset(cats)[c] else 0
    ensures Seqs.IsSubseq(r, cats)
  {
    Seqs.FilterIsSubseq(cats, (c: Category) => c.kind == k);
    Seqs.FilterCount(cats, (c: Category) => c.kind == k);
    Seqs.Filter(cats, (c: Category) => c.kind == k)
  }

  /** `categories.find(c => c.id === t.categoryId)?.type === k`: false when no category is found. */
  predicate CategoryKindIs(cats: seq<Category>, id: int, k: Kind)
  {
    FindCategory(cats, id).Some? && FindCategory(cats, id).value.kind == k
  }

  /** A JavaScript number as the forms produce it: `NaN`, or a value in cents. */
  datatype Number = NaN | Num(v: int)

  function Abs(n: int): (r: int)
    ensures r >= 0 && (r == n || r == -n)
  {
    if n < 0 then -n else n
  }
}

=== FILE: dashboard_page.dfy ===
/** The dashboard page: `handleFilter` with its empty-filter short cut, its manual filters and
    the top-five enrichment, and the mappings of the summary into chart rows. */
module DashboardPage {
  import opened Wrappers
  import opened Kinds
  import opened Client
  import Seqs

  /** The filter object `FilterForm` emits. Dates are `YYYY-MM-DD` strings here. */
  datatype DashboardFilter = DashboardFilter(startDate: Option<string>, endDate: Option<string>,
                                             categoryId: Option<int>, kind: Option<Kind>)

  predicate TruthyText(o: Option<string>)
  {
    o.Some? && o.value != ""
  }

  predicate TruthyId(o: Option<int>)
  {
    o.Some? && o.value != 0
  }

  /** The short cut's condition: no field is truthy. */
  predicate NoFilter(f: DashboardFilter)
  {
    !TruthyText(f.startDate) && !TruthyText(f.endDate) && !TruthyId(f.categoryId) && f.kind.None?
  }

  /** A transaction enriched for the recent-transactions list. */
  datatype Extended = Extended(t: Transaction, categoryName: string, categoryColor: string, kind: Kind)

  const UnknownName: string := "Bilinmeyen"
  const UnknownColor: string := "#CCC"

  /** `category?.name || "Bilinmeyen"`, `category?.color || "#CCC"`, `category?.type || "expense"`. */
  function Enrich(cats: seq<Category>, t: Transaction): (r: Extended)
    ensures r.t == t
    ensures FindCategory(cats, t.categoryId).None? ==> r == Extended(t, UnknownName, UnknownColor, Expense)
    ensures FindCategory(cats, t.categoryId).Some? ==>
              var c := FindCategory(cats, t.categoryId).value;
              && r.kind == c.kind
              && (c.name != "" ==> r.categoryName == c.name)
              && (c.name == "" ==> r.categoryName == UnknownName)
              && (c.color.Some? && c.color.value != "" ==> r.categoryColor == c.color.value)
              && (c.color.None? || c.color.value == "" ==> r.categoryColor == UnknownColor)
  {
    match FindCategory(cats, t.categoryId)
    case None => Extended(t, UnknownName, UnknownColor, Expense)
    case Some(c) =>
      Extended(t, if c.name != "" then c.name else UnknownName,
               if c.color.Some? && c.color.value != "" then c.color.value else UnknownColor,
               c.kind)
  }

  /** The manual filters; `parseDate` is `new Date(...)` on a filter string. Both ends are
      inclusive and the end date is not moved to the end of its day. */
  predicate DashAdmits(cats: seq<Category>, f: DashboardFilter, parseDate: string -> int, t: Transaction)
  {
    && (TruthyText(f.startDate) ==> t.at >= parseDate(f.startDate.value))
    && (TruthyText(f.endDate) ==> t.at <= parseDate(f.endDate.value))
    && (TruthyId(f.categoryId) ==> t.categoryId == f.categoryId.value)
    && (f.kind.Some? ==> CategoryKindIs(cats, t.categoryId, f.kind.value))
  }

  /** The four filter steps as the handler applies them: one filter by `DashAdmits`, so the
      fetched order is kept and every admitted transaction keeps its multiplicity. */
  function ManualFilter(all: seq<Transaction>, cats: seq<Category>, f: DashboardFilter, parseDate: string -> int)
    : (r: seq<Transaction>)
    ensures forall t :: t in r <==> t in all && DashAdmits(cats, f, parseDate, t)
    ensures Seqs.IsSubseq(r, all)
    ensures forall t :: multiset(r)[t] == if DashAdmits(cats, f, parseDate, t) then multiset(all)[t] else 0
  {
    ManualFilterIsConjunction(all, cats, f, parseDate);
    Seqs.FilterIsSubseq(all, (t: Transaction) => DashAdmits(cats, f, parseDate, t));
    Seqs.FilterCount(all, (t: Transaction) => DashAdmits(cats, f, parseDate, t));
    FilterSteps(all, cats, f, parseDate)
  }

  function FilterSteps(all: seq<Transaction>, cats: seq<Category>, f: DashboardFilter, parseDate: string -> int)
    : seq<Transaction>
  {
    var a := Seqs.FilterIf(all, TruthyText(f.startDate), (t: Transaction) => t.at >= parseDate(f.startDate.GetOr("")));
    var b := Seqs.FilterIf(a, TruthyText(f.endDate), (t: Transaction) => t.at <= parseDate(f.endDate.GetOr("")));
    var c := Seqs.FilterIf(b, TruthyId(f.categoryId), (t: Transaction) => t.categoryId == f.categoryId.GetOr(0));
    Seqs.FilterIf(c, f.kind.Some?, (t: Transaction) => CategoryKindIs(cats, t.categoryId, f.kind.GetOr(Expense)))
  }

  /** The four steps keep what one filter by the conjunction keeps. */
  lemma ManualFilterIsConjunction(all: seq<Transaction>, cats: seq<Category>, f: DashboardFilter, parseDate: string -> int)
    ensures FilterSteps(all, cats, f, parseDate) == Seqs.Filter(all, (t: Transaction) => DashAdmits(cats, f, parseDate, t))
  {
    var p1 := (t: Transaction) => t.at >= parseDate(f.startDate.GetOr(""));
    var p2 := (t: Transaction) => t.at <= parseDate(f.endDate.GetOr(""));
    var p3 := (t: Transaction) => t.categoryId == f.categoryId.GetOr(0);
    var p4 := (t: Transaction) => CategoryKindIs(cats, t.categoryId, f.kind.GetOr(Expense));
    var q1 := (t: Transaction) => TruthyText(f.startDate) ==> p1(t);
    var q2 := (t: Transaction) => q1(t) && (TruthyText(f.endDate) ==> p2(t));
    var q3 := (t: Transaction) => q2(t) && (TruthyId(f.categoryId) ==> p3(t));
    var q4 := (t: Transaction) => DashAdmits(cats, f, parseDate, t);
    var a := Seqs.FilterIf(all, TruthyText(f.startDate), p1);
    Seqs.FilterIfIsFilter(all, TruthyText(f.startDate), p1, q1);
    var b := Seqs.FilterIf(a, TruthyText(f.endDate), p2);
    Seqs.FilterIfIsFilter(a, TruthyText(f.endDate), p2, (t: Transaction) => TruthyText(f.endDate) ==> p2(t));
    Seqs.FilterFilter(all, q1, (t: Transaction) => TruthyText(f.endDate) ==> p2(t), q2);
    var c := Seqs.FilterIf(b, TruthyId(f.categoryId), p3);
    Seqs.FilterIfIsFilter(b, TruthyId(f.categoryId), p3, (t: Transaction) => TruthyId(f.categoryId) ==> p3(t));
    Seqs.FilterFilter(all, q2, (t: Transaction) => TruthyId(f.categoryId) ==> p3(t), q3);
    Seqs.FilterIfIsFilter(c, f.kind.Some?, p4, (t: Transaction) => f.kind.Some? ==> p4(t));
    Seqs.FilterFilter(all, q3, (t: Transaction) => f.kind.Some? ==> p4(t), q4);
  }

  /** `handleFilter`: with no filter the summary's recent list is shown as it is; otherwise the
      first five matching transactions, enriched. */
  function HandleFilter(f: DashboardFilter, summaryRecent: seq<Extended>, all: seq<Transaction>,
                        cats: seq<Category>, parseDate: string -> int): (r: seq<Extended>)
    ensures NoFilter(f) ==> r == summaryRecent
    ensures !NoFilter(f) ==>
              && |r| <= 5 && |r| <= |ManualFilter(all, cats, f, parseDate)|
              && (|r| < 5 ==> |r| == |ManualFilter(all, cats, f, parseDate)|)
              && forall i :: 0 <= i < |r| ==>
                   && r[i].t == ManualFilter(all, cats, f, parseDate)[i]
                   && r[i].t in all && DashAdmits(cats, f, parseDate, r[i].t)
                   && r[i] == Enrich(cats, r[i].t)
  {
    if NoFilter(f) then summaryRecent
    else
      var shown := Seqs.Take(ManualFilter(all, cats, f, parseDate), 5);
      assert forall i :: 0 <= i < |shown| ==> shown[i] in ManualFilter(all, cats, f, parseDate);
      Seqs.Map(shown, (t: Transaction) => Enrich(cats, t))
  }

  /** The type shown for a row agrees with the type filter's lookup: it is `k` exactly when the
      row's category is found with type `k`, or when no category is found and `k` is expense. */
  lemma EnrichKindMatchesLookup(cats: seq<Category>, t: Transaction, k: Kind)
    ensures Enrich(cats, t).kind == k <==>
              CategoryKindIs(cats, t.categoryId, k) || (FindCategory(cats, t.categoryId).None? && k == Expense)
  {
  }

  /** With a type filter, every row the list shows is displayed with that type. */
  lemma {:induction false} TypeFilterRowsShowType(f: DashboardFilter, summaryRecent: seq<Extended>, all: seq<Transaction>,
                                                  cats: seq<Category>, parseDate: string -> int, x: Extended)
    requires f.kind.Some?
    requires x in HandleFilter(f, summaryRecent, all, cats, parseDate)
    ensures x.kind == f.kind.value
  {
    var r := HandleFilter(f, summaryRecent, all, cats, parseDate);
    var i :| 0 <= i < |r| && r[i] == x;
    assert DashAdmits(cats, f, parseDate, x.t);
    EnrichKindMatchesLookup(cats, x.t, f.kind.value);
  }

  /** Unlike the transactions page, the end date is the exact instant it parses to: a transaction
      later on that day is not shown. */
  lemma EndDateNotExtended(f: DashboardFilter, summaryRecent: seq<Extended>, all: seq<Transaction>,
                           cats: seq<Category>, parseDate: string -> int, x: Extended)
    requires TruthyText(f.endDate)
    requires x in HandleFilter(f, summaryRecent, all, cats, parseDate)
    ensures x.t.at <= parseDate(f.endDate.value)
  {
  }

  /** A dashboard summary's expense-by-category item and its chart row. */
  datatype SummaryCategory = SummaryCategory(name: string, value: int, color: string)
  datatype CategoryData = CategoryData(id: int, name: string, amount: int, color: string)

  /** `categoriesData.find(c => c.name === name)`: an instance of `Seqs.Find`, whose contract
      gives the first category with that name. */
  function FindByName(cats: seq<Category>, name: string): Option<Category>
  {
    Seqs.Find(cats, (c: Category) => c.name == name)
  }

  /** `expenseCategoryData`: `find(...)?.id || 0`, so the id of the first category with the
      item's name (an id of 0 gives 0 as well), and 0 when there is none. */
  function ExpenseCategoryData(items: seq<SummaryCategory>, cats: seq<Category>): (r: seq<CategoryData>)
    ensures |r| == |items|
    ensures forall i :: 0 <= i < |items| ==>
              && r[i].name == items[i].name && r[i].amount == items[i].value && r[i].color == items[i].color
              && (FindByName(cats, items[i].name).None? ==> r[i].id == 0)
              && (FindByName(cats, items[i].name).Some? ==> r[i].id == FindByName(cats, items[i].name).value.id)
  {
    Seqs.Map(items, (item: SummaryCategory) =>
      CategoryData(match FindByName(cats, item.name) case Some(c) => c.id case None => 0,
                   item.name, item.value, item.color))
  }

  /** When exactly one loaded category has an item's name, the item's row carries that
      category's id; when none has it, the row's id is 0. */
  lemma ExpenseCategoryDataIds(items: seq<SummaryCategory>, cats: seq<Category>, i: int, c: Category)
    requires 0 <= i < |items|
    requires c in cats && c.name == items[i].name
    requires forall d :: d in cats && d.name == items[i].name ==> d == c
    ensures ExpenseCategoryData(items, cats)[i].id == c.id
  {
    var f := FindByName(cats, items[i].name);
    assert f.Some?;
    var k :| 0 <= k < |cats| && cats[k] == f.value && f.value.name == items[i].name;
    assert cats[k] in cats;
  }

  /** A dashboard summary's monthly item (`name`, `gelir`, `gider`) and its chart row. */
  datatype SummaryMonth = SummaryMonth(name: string, gelir: int, gider: int)
  datatype ChartMonth = ChartMonth(month: string, income: int, expense: int)

  /** `chartData`: `name/gelir/gider` become `month/income/expense`, row for row. */
  function ChartData(items: seq<SummaryMonth>): (r: seq<ChartMonth>)
    ensures |r| == |items|
    ensures forall i :: 0 <= i < |items| ==>
              r[i].month == items[i].name && r[i].income == items[i].gelir && r[i].expense == items[i].gider
  {
    Seqs.Map(items, (m: SummaryMonth) => ChartMonth(m.name, m.gelir, m.gider))
  }

  /** The chart rows lose nothing: mapping them back gives the summary's months. */
  lemma ChartDataRoundTrip(items: seq<SummaryMonth>)
    ensures Seqs.Map(ChartData(items), (c: ChartMonth) => SummaryMonth(c.month, c.income, c.expense)) == items
  {
    var back := Seqs.Map(ChartData(items), (c: ChartMonth) => SummaryMonth(c.month, c.income, c.expense));
    assert |back| == |items|;
    forall i | 0 <= i < |items| ensures back[i] == items[i] {
      assert ChartData(items)[i] == ChartMonth(items[i].name, items[i].gelir, items[i].gider);
    }
  }
}

=== FILE: filter_form.dfy ===
/** The dashboard's filter form: what `handleSubmit` and `handleReset` hand to `onFilter`. */
module FilterForm {
  import opened Wrappers
  import opened Kinds
  import Text
  import DashboardPage

  /** The form's inputs: date texts, the picked category (its select value is the id written in
      decimal), the picked type. */
  datatype FormState = FormState(startDate: string, endDate: string, categoryId: Option<nat>, kind: Option<Kind>)

  /** `text || undefined`. */
  function OrUndefined(s: string): (r: Option<string>)
    ensures r.None? <==> s == ""
    ensures r.Some? ==> r.value == s
  {
    if s == "" then None else Some(s)
  }

  /** `parseInt` of a select value, which is always `id.toString()`. */
  function ParseId(id: nat): nat
  {
    Text.DigitsValue(Text.NatToString(id))
  }

  /** `handleSubmit`: empty dates become absent, the picked category id is parsed back. */
  function Submit(s: FormState): (r: DashboardPage.DashboardFilter)
    ensures r.startDate == OrUndefined(s.startDate) && r.endDate == OrUndefined(s.endDate)
    ensures r.kind == s.kind
    ensures r.categoryId.Some? <==> s.categoryId.Some?
  {
    DashboardPage.DashboardFilter(
      OrUndefined(s.startDate), OrUndefined(s.endDate),
      if s.categoryId.Some? then Some(ParseId(s.categoryId.value)) else None,
      s.kind)
  }

  /** The category reaching the dashboard is the one picked. */
  lemma SubmitKeepsCategory(s: FormState)
    ensures Submit(s).categoryId == s.categoryId
  {
    if s.categoryId.Some? {
      Text.NatToStringValue(s.categoryId.value);
    }
  }

  /** The dashboard falls back to its recent list exactly when the form is empty, or its only
      choice is the category with id 0. */
  lemma SubmitNoFilterIff(s: FormState)
    ensures DashboardPage.NoFilter(Submit(s)) <==>
              s.startDate == "" && s.endDate == "" && (s.categoryId.None? || s.categoryId == Some(0)) && s.kind.None?
  {
    SubmitKeepsCategory(s);
  }

  /** `handleReset`: the inputs are cleared and `{}` is sent. */
  function Reset(): (r: (FormState, DashboardPage.DashboardFilter))
    ensures r.0 == FormState("", "", None, None)
    ensures r.1.startDate.None? && r.1.endDate.None? && r.1.categoryId.None? && r.1.kind.None?
  {
    (FormState("", "", None, None), DashboardPage.DashboardFilter(None, None, None, None))
  }

  /** After a reset the dashboard shows its unfiltered list, and submitting the cleared form
      sends the same filter. */
  lemma ResetClearsDashboard()
    ensures DashboardPage.NoFilter(Reset().1)
    ensures Submit(Reset().0) == Reset().1
  {
  }
}

=== FILE: kinds.dfy ===
/** The two transaction/category types of the ledger. */
module Kinds {
  import opened Wrappers

  /** `'income' | 'expense'` in the entities and the client types. */
  datatype Kind = Income | Expense

  /** The spelling of a kind as stored in the `type` column and sent in query strings. */
  function KindName(k: Kind): (r: string)
    ensures r == "income" || r == "expense"
    ensures (r == "income") <==> k == Income
  {
    match k
    case Income => "income"
    case Expense => "expense"
  }

  /** A text as the `type` enum column reads it: only the two enum labels are values. */
  function ParseKind(s: string): (r: Option<Kind>)
    ensures r.Some? <==> s == "income" || s == "expense"
    ensures r.Some? ==> KindName(r.value) == s
  {
    if s == "income" then Some(Income) else if s == "expense" then Some(Expense) else None
  }

  /** Every kind reads back from its spelling. */
  lemma ParseKindName(k: Kind)
    ensures ParseKind(KindName(k)) == Some(k)
  {
  }
}

=== FILE: ledger.dfy ===
/** The ORM backend's entities and the store they live in, with the invariants the services
    are meant to keep: unique generated ids, no dangling category reference, and every
    transaction's type equal to its category's type. */
module Ledger {
  import opened Wrappers
  import opened Kinds

  /** A category row: `id`, owner `userId`, `name`, `type`. */
  datatype Category = Category(id: int, userId: int, name: string, kind: Kind)

  /** A transaction row; `amount` is in cents (the column is `decimal(10,2)`), `date` an ISO
      `YYYY-MM-DD` string. */
  datatype Transaction = Transaction(
    id: int, userId: int, categoryId: int, kind: Kind, amount: int, description: string, date: string)

  /** Both tables, and the next value each primary-key generator hands out. */
  datatype Store = Store(
    categories: seq<Category>, transactions: seq<Transaction>, nextCategoryId: int, nextTransactionId: int)

  /** The error TypeORM's `update(id, data)` throws (`UpdateValuesMissingError`) when `data`
      names no column to set; neither entity has an update-date column that would fill the set. */
  const UpdateValuesMissing: string := "Cannot perform update query because update values are not defined"

  /** Primary keys are unique within each table. */
  ghost predicate UniqueIds(s: Store)
  {
    && (forall i, j :: 0 <= i < j < |s.categories| ==> s.categories[i].id != s.categories[j].id)
    && (forall i, j :: 0 <= i < j < |s.transactions| ==> s.transactions[i].id != s.transactions[j].id)
  }

  /** Generated ids start at 1 and every id in use is below its generator's next value. */
  ghost predicate IdsBelowCounters(s: Store)
  {
    && 1 <= s.nextCategoryId && 1 <= s.nextTransactionId
    && (forall c :: c in s.categories ==> 1 <= c.id < s.nextCategoryId)
    && (forall t :: t in s.transactions ==> 1 <= t.id < s.nextTransactionId)
  }

  /** No transaction references a missing category. */
  ghost predicate NoDanglingReferences(s: Store)
  {
    forall t :: t in s.transactions ==> exists c :: c in s.categories && c.id == t.categoryId
  }

  /** Every transaction's type equals its category's type. */
  ghost predicate KindsAgree(s: Store)
  {
    forall t, c :: t in s.transactions && c in s.categories && c.id == t.categoryId ==> t.kind == c.kind
  }

  ghost predicate Consistent(s: Store)
  {
    UniqueIds(s) && IdsBelowCounters(s) && NoDanglingReferences(s) && KindsAgree(s)
  }

  /** `findOne({ where: { id, userId } })` on the categories. */
  function FindCategory(cats: seq<Category>, id: int, userId: int): (r: Option<Category>)
    ensures r.Some? ==> r.value in cats && r.value.id == id && r.value.userId == userId
    ensures r.None? <==> forall c :: c in cats ==> !(c.id == id && c.userId == userId)
  {
    if |cats| == 0 then None
    else if cats[0].id == id && cats[0].userId == userId then Some(cats[0])
    else
      assert cats == [cats[0]] + cats[1..];
      FindCategory(cats[1..], id, userId)
  }

  /** `findOne({ where: { id, userId } })` on the transactions. */
  function FindTransaction(txns: seq<Transaction>, id: int, userId: int): (r: Option<Transaction>)
    ensures r.Some? ==> r.value in txns && r.value.id == id && r.value.userId == userId
    ensures r.None? <==> forall t :: t in txns ==> !(t.id == id && t.userId == userId)
  {
    if |txns| == 0 then None
    else if txns[0].id == id && txns[0].userId == userId then Some(txns[0])
    else
      assert txns == [txns[0]] + txns[1..];
      FindTransaction(txns[1..], id, userId)
  }

  /** With unique ids, a category is determined by its id. */
  lemma CategoryIdDetermines(s: Store, a: Category, b: Category)
    requires UniqueIds(s) && a in s.categories && b in s.categories && a.id == b.id
    ensures a == b
  {
    var i :| 0 <= i < |s.categories| && s.categories[i] == a;
    var j :| 0 <= j < |s.categories| && s.categories[j] == b;
    assert i == j;
  }

  /** With unique ids, a transaction is determined by its id. */
  lemma TransactionIdDetermines(s: Store, a: Transaction, b: Transaction)
    requires UniqueIds(s) && a in s.transactions && b in s.transactions && a.id == b.id
    ensures a == b
  {
    var i :| 0 <= i < |s.transactions| && s.transactions[i] == a;
    var j :| 0 <= j < |s.transactions| && s.transactions[j] == b;
    assert i == j;
  }

  /** With unique ids, a found transaction is the only row with its id. */
  lemma OnlyTransactionWithId(s: Store, t: Transaction)
    requires t in s.transactions
    ensures UniqueIds(s) ==> forall x :: x in s.transactions && x.id == t.id ==> x == t
  {
    if UniqueIds(s) {
      forall x | x in s.transactions && x.id == t.id ensures x == t { TransactionIdDetermines(s, x, t); }
    }
  }

  /** With unique ids, a found category is the only row with its id. */
  lemma OnlyCategoryWithId(s: Store, c: Category)
    requires c in s.categories
    ensures UniqueIds(s) ==> forall x :: x in s.categories && x.id == c.id ==> x == c
  {
    if UniqueIds(s) {
      forall x | x in s.categories && x.id == c.id ensures x == c { CategoryIdDetermines(s, x, c); }
    }
  }
}

=== FILE: new_transaction_page.dfy ===
/** The new-transaction page: the three validations of `handleSubmit` in order, the sign rule,
    the reset after a submit, `handleTypeChange` and the basic/additional category split. */
module NewTransactionPage {
  import opened Wrappers
  import opened Kinds
  import opened Client
  import Seqs
  import Text

  /** The form state. `amount` is the raw input text; `categoryId` is `parseInt` of the select's
      value, so it may be `NaN`; `date` is an instant. */
  datatype Form = Form(description: string, amount: string, date: int, categoryId: Number)

  /** The first failing check, reported under its message key. */
  datatype Check = EnterDescription | EnterAmount | SelectCategory

  /** The body sent to `addTransaction`; a `NaN` amount is sent as it is. */
  datatype Payload = Payload(description: string, amount: Number, date: int, categoryId: int)

  datatype Outcome = Rejected(check: Check) | Submitted(payload: Payload)

  /** `!formData.amount || parseFloat(formData.amount) <= 0`; `NaN <= 0` is false. */
  predicate AmountRejected(amount: string, parseFloat: string -> Number)
  {
    amount == "" || (parseFloat(amount).Num? && parseFloat(amount).v <= 0)
  }

  /** `!formData.categoryId`: 0 and `NaN` are falsy. */
  predicate NoCategory(id: Number)
  {
    id.NaN? || id.v == 0
  }

  /** `transactionType === "expense" ? -Math.abs(amount) : Math.abs(amount)`. */
  function AdjustAmount(kind: Kind, a: Number): (r: Number)
    ensures a.NaN? <==> r.NaN?
    ensures r.Num? && kind == Expense ==> r.v <= 0
    ensures r.Num? && kind == Income ==> r.v >= 0
    ensures r.Num? ==> Abs(r.v) == Abs(a.v)
  {
    match a
    case NaN => NaN
    case Num(v) => if kind == Expense then Num(-Abs(v)) else Num(Abs(v))
  }

  /** `handleSubmit`; `parseFloat` is the library parse of the amount text, in cents. */
  function HandleSubmit(form: Form, kind: Kind, parseFloat: string -> Number): (r: Outcome)
    ensures Text.IsBlank(form.description) <==> r == Rejected(EnterDescription)
    ensures !Text.IsBlank(form.description) && AmountRejected(form.amount, parseFloat) ==> r == Rejected(EnterAmount)
    ensures r == Rejected(SelectCategory) <==>
              !Text.IsBlank(form.description) && !AmountRejected(form.amount, parseFloat) && NoCategory(form.categoryId)
    ensures r.Submitted? <==>
              !Text.IsBlank(form.description) && !AmountRejected(form.amount, parseFloat) && !NoCategory(form.categoryId)
    ensures r.Submitted? ==>
              && r.payload.description == form.description && r.payload.date == form.date
              && r.payload.categoryId == form.categoryId.v && r.payload.categoryId != 0
              && r.payload.amount == AdjustAmount(kind, parseFloat(form.amount))
  {
    if Text.IsBlank(form.description) then Rejected(EnterDescription)
    else if AmountRejected(form.amount, parseFloat) then Rejected(EnterAmount)
    else if NoCategory(form.categoryId) then Rejected(SelectCategory)
    else Submitted(Payload(form.description, AdjustAmount(kind, parseFloat(form.amount)), form.date, form.categoryId.v))
  }

  /** A submitted amount has the sign of the page's type and is never 0. */
  lemma SubmittedSignMatchesKind(form: Form, kind: Kind, parseFloat: string -> Number)
    requires HandleSubmit(form, kind, parseFloat).Submitted?
    requires parseFloat(form.amount).Num?
    ensures var a := HandleSubmit(form, kind, parseFloat).payload.amount;
            a.Num? && a.v != 0 && (kind == Expense <==> a.v < 0)
  {
  }

  /** `handleSubmit` on its own lets text that `parseFloat` reads as `NaN` through, since
      `NaN <= 0` is false. The page cannot produce such text: the amount field is an
      `<Input type="number">`, whose value is "" or a valid number literal. */
  lemma NaNAmountPasses(form: Form, kind: Kind, parseFloat: string -> Number)
    requires !Text.IsBlank(form.description) && !NoCategory(form.categoryId)
    requires form.amount != "" && parseFloat(form.amount).NaN?
    ensures HandleSubmit(form, kind, parseFloat) ==
            Submitted(Payload(form.description, NaN, form.date, form.categoryId.v))
  {
  }

  /** The form after a successful submit; `now` is the `new Date()` it takes. */
  function ResetForm(now: int): Form
  {
    Form("", "", now, Num(0))
  }

  /** Submitting, then resetting the form when the submit went through. */
  function SubmitAndReset(form: Form, kind: Kind, parseFloat: string -> Number, now: int): (r: (Outcome, Form))
    ensures r.0 == HandleSubmit(form, kind, parseFloat)
    ensures r.0.Rejected? ==> r.1 == form
    ensures r.0.Submitted? ==> r.1.description == "" && r.1.amount == "" && r.1.categoryId == Num(0) && r.1.date == now
  {
    var o := HandleSubmit(form, kind, parseFloat);
    if o.Submitted? then (o, ResetForm(now)) else (o, form)
  }

  /** A reset form cannot be submitted again as it is: its empty description is rejected first. */
  lemma ResetFormRejected(kind: Kind, parseFloat: string -> Number, now: int)
    ensures HandleSubmit(ResetForm(now), kind, parseFloat) == Rejected(EnterDescription)
  {
  }

  /** `categories.find(c => c.type === type)`. */
  function FirstOfKind(cats: seq<Category>, k: Kind): (r: Option<Category>)
    ensures r.None? <==> forall c :: c in cats ==> c.kind != k
    ensures r.Some? ==> exists i :: 0 <= i < |cats| && cats[i] == r.value && r.value.kind == k
                                    && forall j :: 0 <= j < i ==> cats[j].kind != k
  {
    Seqs.Find(cats, (c: Category) => c.kind == k)
  }

  /** `handleTypeChange`: the type changes; the first category of the new type is selected when
      there is one, else the selection stays. */
  function HandleTypeChange(form: Form, cats: seq<Category>, k: Kind): (r: (Kind, Form))
    ensures r.0 == k
    ensures r.1.description == form.description && r.1.amount == form.amount && r.1.date == form.date
    ensures (forall c :: c in cats ==> c.kind != k) ==> r.1 == form
    ensures (exists c :: c in cats && c.kind == k) ==>
              exists i :: 0 <= i < |cats| && cats[i].kind == k && r.1.categoryId == Num(cats[i].id)
                           && r.1 == form.(categoryId := Num(cats[i].id))
                           && forall j :: 0 <= j < i ==> cats[j].kind != k
  {
    match FirstOfKind(cats, k)
    case None => (k, form)
    case Some(c) => (k, form.(categoryId := Num(c.id)))
  }

  /** `category.isBasic`: no category record carries the property, so it reads `undefined`,
      which is falsy. */
  predicate IsBasic(c: Category)
  {
    false
  }

  /** The categories of the type split by `isBasic`. */
  function Basic(shown: seq<Category>): seq<Category>
  {
    Seqs.Filter(shown, (c: Category) => IsBasic(c))
  }

  function Additional(shown: seq<Category>): seq<Category>
  {
    Seqs.Filter(shown, (c: Category) => !IsBasic(c))
  }

  /** Basic and additional categories partition the categories of the type; since nothing is
      basic, the basic list is empty and every category of the type is additional. */
  lemma BasicAdditionalPartition(cats: seq<Category>, k: Kind)
    ensures multiset(Basic(CategoriesOfKind(cats, k))) + multiset(Additional(CategoriesOfKind(cats, k))) == multiset(CategoriesOfKind(cats, k))
    ensures Basic(CategoriesOfKind(cats, k)) == []
    ensures Additional(CategoriesOfKind(cats, k)) == CategoriesOfKind(cats, k)
  {
    var s := CategoriesOfKind(cats, k);
    Seqs.FilterCount(s, (c: Category) => IsBasic(c));
    Seqs.FilterCount(s, (c: Category) => !IsBasic(c));
    Seqs.FilterIsSubseq(s, (c: Category) => IsBasic(c));
    assert forall c :: (multiset(Basic(s)) + multiset(Additional(s)))[c] == multiset(s)[c];
    assert multiset(Basic(s)) == multiset{};
    Seqs.FilterAll(s, (c: Category) => !IsBasic(c));
  }

  /** `categoriesToShow`: every category of the type, or only the basic ones, which are none. */
  function CategoriesToShow(cats: seq<Category>, k: Kind, showAll: bool): (r: seq<Category>)
    ensures showAll ==> r == CategoriesOfKind(cats, k)
    ensures showAll ==> forall c :: c in r <==> c in cats && c.kind == k
    ensures !showAll ==> r == []
  {
    if showAll then CategoriesOfKind(cats, k) else BasicAdditionalPartition(cats, k); Basic(CategoriesOfKind(cats, k))
  }

  /** What the category field renders once loading is over: the cards, with the show-more
      toggle below them when there are additional categories, or the "noCategoriesFound" text. */
  datatype Panel = Cards(shown: seq<Category>, toggle: bool) | NoCategoriesFound

  function CategoryPanel(cats: seq<Category>, k: Kind, showAll: bool): (r: Panel)
    ensures r == NoCategoriesFound <==> CategoriesToShow(cats, k, showAll) == []
    ensures r.Cards? ==> r.shown == CategoriesToShow(cats, k, showAll)
                         && (r.toggle <==> Additional(CategoriesOfKind(cats, k)) != [])
  {
    var shown := CategoriesToShow(cats, k, showAll);
    if |shown| > 0 then Cards(shown, |Additional(CategoriesOfKind(cats, k))| > 0) else NoCategoriesFound
  }

  /** A click on the toggle flips `showAllCategories`; with no toggle rendered there is nothing
      to click and the flag stays. */
  function ClickToggle(cats: seq<Category>, k: Kind, showAll: bool): (r: bool)
    ensures CategoryPanel(cats, k, showAll).Cards? && CategoryPanel(cats, k, showAll).toggle ==> r == !showAll
    ensures !(CategoryPanel(cats, k, showAll).Cards? && CategoryPanel(cats, k, showAll).toggle) ==> r == showAll
  {
    match CategoryPanel(cats, k, showAll)
    case Cards(_, toggle) => if toggle then !showAll else showAll
    case NoCategoriesFound => showAll
  }

  /** Gap: `showAllCategories` starts false, so the panel shows "noCategoriesFound" whatever
      categories were loaded; the toggle that would set the flag is never rendered, so any number
      of clicks leaves it false and no category can be picked on this page. */
  lemma {:induction false} NoCategoryEverShown(cats: seq<Category>, k: Kind, clicks: nat)
    ensures ToggleClicks(cats, k, false, clicks) == false
    ensures CategoryPanel(cats, k, ToggleClicks(cats, k, false, clicks)) == NoCategoriesFound
    decreases clicks
  {
    if clicks > 0 {
      NoCategoryEverShown(cats, k, clicks - 1);
    }
  }

  /** The flag after `clicks` clicks on the toggle, starting from `showAll`. */
  function ToggleClicks(cats: seq<Category>, k: Kind, showAll: bool, clicks: nat): bool
    decreases clicks
  {
    if clicks == 0 then showAll else ClickToggle(cats, k, ToggleClicks(cats, k, showAll, clicks - 1))
  }
}

=== FILE: ordering.dfy ===
/** Sort keys, their order, and the stable sort that `Array.prototype.sort` performs. */
module Ordering {
  import Seqs

  /** A value compared by `<` and `>`: a number (a timestamp, an absolute amount) or a string. */
  datatype Key = Num(n: int) | Text(s: string)

  /** `"asc"` or `"desc"`. */
  datatype Direction = Asc | Desc

  function Flip(d: Direction): (r: Direction)
    ensures r != d
  {
    if d == Asc then Desc else Asc
  }

  /** Lexicographic order of strings by character code: how JavaScript's `<` and SQLite's
      BINARY collation compare text. The empty string comes first. */
  predicate TextLe(a: string, b: string)
  {
    |a| == 0 || (|b| > 0 && (a[0] < b[0] || (a[0] == b[0] && TextLe(a[1..], b[1..]))))
  }

  lemma {:induction false} TextLeReflexive(a: string)
    ensures TextLe(a, a)
    decreases |a|
  {
    if |a| > 0 {
      TextLeReflexive(a[1..]);
    }
  }

  lemma {:induction false} TextLeTotal(a: string, b: string)
    ensures TextLe(a, b) || TextLe(b, a)
    decreases |a|
  {
    if |a| > 0 && |b| > 0 && a[0] == b[0] {
      TextLeTotal(a[1..], b[1..]);
    }
  }

  lemma {:induction false} TextLeAntisymmetric(a: string, b: string)
    requires TextLe(a, b) && TextLe(b, a)
    ensures a == b
    decreases |a|
  {
    if |a| > 0 {
      TextLeAntisymmetric(a[1..], b[1..]);
      assert a == [a[0]] + a[1..];
      assert b == [b[0]] + b[1..];
    }
  }

  lemma {:induction false} TextLeTransitive(a: string, b: string, c: string)
    requires TextLe(a, b) && TextLe(b, c)
    ensures TextLe(a, c)
    decreases |a|
  {
    if |a| > 0 && a[0] == b[0] && b[0] == c[0] {
      TextLeTransitive(a[1..], b[1..], c[1..]);
    }
  }

  /** The order of keys: numbers numerically, strings lexicographically. A sort only ever
      compares keys of one variant; numbers are put first so that the order is total. */
  predicate KeyLe(a: Key, b: Key)
  {
    match (a, b)
    case (Num(x), Num(y)) => x <= y
    case (Text(x), Text(y)) => TextLe(x, y)
    case (Num(_), Text(_)) => true
    case (Text(_), Num(_)) => false
  }

  /** `a` may stand before `b` in a list sorted in direction `dir`. */
  predicate InOrder(dir: Direction, a: Key, b: Key)
  {
    if dir == Asc then KeyLe(a, b) else KeyLe(b, a)
  }

  lemma InOrderReflexive(dir: Direction, a: Key)
    ensures InOrder(dir, a, a)
  {
    if a.Text? {
      TextLeReflexive(a.s);
    }
  }

  lemma InOrderTotal(dir: Direction, a: Key, b: Key)
    ensures InOrder(dir, a, b) || InOrder(dir, b, a)
  {
    if a.Text? && b.Text? {
      TextLeTotal(a.s, b.s);
    }
  }

  lemma InOrderAntisymmetric(dir: Direction, a: Key, b: Key)
    requires InOrder(dir, a, b) && InOrder(dir, b, a)
    ensures a == b
  {
    if a.Text? && b.Text? {
      TextLeAntisymmetric(a.s, b.s);
    }
  }

  lemma InOrderTransitive(dir: Direction, a: Key, b: Key, c: Key)
    requires InOrder(dir, a, b) && InOrder(dir, b, c)
    ensures InOrder(dir, a, c)
  {
    if a.Text? && b.Text? && c.Text? {
      if dir == Asc {
        TextLeTransitive(a.s, b.s, c.s);
      } else {
        TextLeTransitive(c.s, b.s, a.s);
      }
    }
  }

  /** Every pair of elements of `s` is in `dir` order of their keys. */
  ghost predicate Sorted<T>(s: seq<T>, key: T -> Key, dir: Direction)
  {
    forall i, j :: 0 <= i < j < |s| ==> InOrder(dir, key(s[i]), key(s[j]))
  }

  /** Inserts `x` into `ys` before the first element it may precede, so before every element
      with an equal key. */
  function Insert<T>(x: T, ys: seq<T>, key: T -> Key, dir: Direction): (r: seq<T>)
    ensures |r| == |ys| + 1
    ensures multiset(r) == multiset(ys) + multiset{x}
  {
    if |ys| == 0 || InOrder(dir, key(x), key(ys[0])) then [x] + ys
    else
      assert ys == [ys[0]] + ys[1..];
      [ys[0]] + Insert(x, ys[1..], key, dir)
  }

  /** Insertion sort by `key` in direction `dir`: the stable sort that a comparator returning
      -1/1/0 for `<`/`>`/otherwise yields. */
  function SortBy<T>(s: seq<T>, key: T -> Key, dir: Direction): (r: seq<T>)
    ensures |r| == |s|
    ensures multiset(r) == multiset(s)
  {
    if |s| == 0 then []
    else
      assert s == [s[0]] + s[1..];
      Insert(s[0], SortBy(s[1..], key, dir), key, dir)
  }

  lemma {:induction false} InsertSorted<T(!new)>(x: T, ys: seq<T>, key: T -> Key, dir: Direction)
    requires Sorted(ys, key, dir)
    ensures Sorted(Insert(x, ys, key, dir), key, dir)
    decreases |ys|
  {
    var r := Insert(x, ys, key, dir);
    if |ys| == 0 || InOrder(dir, key(x), key(ys[0])) {
      forall i, j | 0 <= i < j < |r|
        ensures InOrder(dir, key(r[i]), key(r[j]))
      {
        if i == 0 && j > 1 {
          InOrderTransitive(dir, key(x), key(ys[0]), key(ys[j - 1]));
        }
      }
    } else {
      InOrderTotal(dir, key(x), key(ys[0]));
      var rest := Insert(x, ys[1..], key, dir);
      InsertSorted(x, ys[1..], key, dir);
      InsertBelow(ys[0], x, ys[1..], key, dir);
      assert r == [ys[0]] + rest;
      forall i, j | 0 <= i < j < |r|
        ensures InOrder(dir, key(r[i]), key(r[j]))
      {
        if i == 0 {
          assert r[j] == rest[j - 1];
        } else {
          assert r[i] == rest[i - 1] && r[j] == rest[j - 1];
        }
      }
    }
  }

  /** An element that may precede `x` and every element of `ys` may precede every element of
      the insertion. */
  lemma {:induction false} InsertBelow<T>(b: T, x: T, ys: seq<T>, key: T -> Key, dir: Direction)
    requires InOrder(dir, key(b), key(x))
    requires forall i :: 0 <= i < |ys| ==> InOrder(dir, key(b), key(ys[i]))
    ensures forall i :: 0 <= i < |Insert(x, ys, key, dir)| ==> InOrder(dir, key(b), key(Insert(x, ys, key, dir)[i]))
    decreases |ys|
  {
    var r := Insert(x, ys, key, dir);
    if |ys| == 0 || InOrder(dir, key(x), key(ys[0])) {
      assert forall i :: 0 < i < |r| ==> r[i] == ys[i - 1];
    } else {
      var rest := Insert(x, ys[1..], key, dir);
      InsertBelow(b, x, ys[1..], key, dir);
      assert r == [ys[0]] + rest;
      assert forall i :: 0 < i < |r| ==> r[i] == rest[i - 1];
    }
  }

  lemma {:induction false} SortBySorted<T(!new)>(s: seq<T>, key: T -> Key, dir: Direction)
    ensures Sorted(SortBy(s, key, dir), key, dir)
    decreases |s|
  {
    if |s| > 0 {
      SortBySorted(s[1..], key, dir);
      InsertSorted(s[0], SortBy(s[1..], key, dir), key, dir);
    }
  }

  /** The elements of `s` whose key is `k`, in order. */
  function WithKey<T>(s: seq<T>, key: T -> Key, k: Key): seq<T>
  {
    if |s| == 0 then []
    else (if key(s[0]) == k then [s[0]] else []) + WithKey(s[1..], key, k)
  }

  lemma {:induction false} InsertStable<T>(x: T, ys: seq<T>, key: T -> Key, dir: Direction, k: Key)
    ensures WithKey(Insert(x, ys, key, dir), key, k)
         == (if key(x) == k then [x] else []) + WithKey(ys, key, k)
    decreases |ys|
  {
    if |ys| == 0 || InOrder(dir, key(x), key(ys[0])) {
      WithKeyCons(x, ys, key, k);
    } else {
      var y := ys[0];
      InsertStable(x, ys[1..], key, dir, k);
      var rest := Insert(x, ys[1..], key, dir);
      assert Insert(x, ys, key, dir) == [y] + rest;
      WithKeyCons(y, rest, key, k);
      assert ys == [y] + ys[1..];
      WithKeyCons(y, ys[1..], key, k);
      var hx := if key(x) == k then [x] else [];
      var hy := if key(y) == k then [y] else [];
      var w := WithKey(ys[1..], key, k);
      if key(x) == k {
        InOrderReflexive(dir, key(x));
        assert hy == [];
        assert WithKey(Insert(x, ys, key, dir), key, k) == hx + w;
      } else {
        assert hx == [];
        assert WithKey(Insert(x, ys, key, dir), key, k) == hy + w;
      }
    }
  }

  lemma WithKeyCons<T>(y: T, s: seq<T>, key: T -> Key, k: Key)
    ensures WithKey([y] + s, key, k) == (if key(y) == k then [y] else []) + WithKey(s, key, k)
  {
    assert ([y] + s)[1..] == s;
  }

  /** Elements with equal keys keep their relative order: the sort is stable. */
  lemma {:induction false} SortByStable<T>(s: seq<T>, key: T -> Key, dir: Direction, k: Key)
    ensures WithKey(SortBy(s, key, dir), key, k) == WithKey(s, key, k)
    decreases |s|
  {
    if |s| > 0 {
      SortByStable(s[1..], key, dir, k);
      InsertStable(s[0], SortBy(s[1..], key, dir), key, dir, k);
    }
  }

  lemma {:induction false} InsertSum<T(!new)>(x: T, ys: seq<T>, key: T -> Key, dir: Direction, f: T -> int)
    ensures Seqs.Sum(Insert(x, ys, key, dir), f) == f(x) + Seqs.Sum(ys, f)
    decreases |ys|
  {
    if |ys| > 0 && !InOrder(dir, key(x), key(ys[0])) {
      InsertSum(x, ys[1..], key, dir, f);
      var rest := Insert(x, ys[1..], key, dir);
      assert ([ys[0]] + rest)[1..] == rest;
    } else {
      assert ([x] + ys)[1..] == ys;
    }
  }

  /** Sorting does not change a sum over the list. */
  lemma {:induction false} SortBySum<T(!new)>(s: seq<T>, key: T -> Key, dir: Direction, f: T -> int)
    ensures Seqs.Sum(SortBy(s, key, dir), f) == Seqs.Sum(s, f)
    decreases |s|
  {
    if |s| > 0 {
      SortBySum(s[1..], key, dir, f);
      InsertSum(s[0], SortBy(s[1..], key, dir), key, dir, f);
    }
  }
}

=== FILE: raw_server.dfy ===
/** The Express server over SQLite: the tables as sequences, the transaction list with its WHERE
    builder and JOIN, the write endpoints with their status codes, the category list and the
    default-category seeding. Types are kept as the TEXT the tables store. */
module RawServer {
  import opened Wrappers
  import Seqs
  import Ordering

  datatype RawCategory = RawCategory(id: int, name: string, kind: string, color: string)

  /** A `transactions` row; `amount` in cents. */
  datatype RawTransaction = RawTransaction(
    id: int, description: string, amount: int, kind: string, categoryId: int, date: string)

  /** The two tables and the next AUTOINCREMENT values. */
  datatype Db = Db(categories: seq<RawCategory>, transactions: seq<RawTransaction>,
                   nextCategoryId: int, nextTransactionId: int)

  /** A row of `transactions t JOIN categories c ON t.categoryId = c.id`. */
  datatype Row = Row(t: RawTransaction, category: RawCategory)

  /** The replies the endpoints send. */
  datatype Reply<T> = Success(body: T) | Created(body: T) | NoContent | BadRequest(error: string) | NotFound(error: string)

  function Status<T>(r: Reply<T>): (code: int)
    ensures 200 <= code < 500
    ensures code == 400 <==> r.BadRequest?
    ensures code == 404 <==> r.NotFound?
  {
    match r
    case Success(_) => 200
    case Created(_) => 201
    case NoContent => 204
    case BadRequest(_) => 400
    case NotFound(_) => 404
  }

  const AllFieldsRequired: string := "Tüm alanlar gereklidir"
  const TransactionNotFound: string := "İşlem bulunamadı"

  /** A JavaScript value that is truthy: a present, non-empty string. */
  predicate TruthyText(o: Option<string>)
  {
    o.Some? && o.value != ""
  }

  /** A present number other than 0. */
  predicate TruthyNumber(o: Option<int>)
  {
    o.Some? && o.value != 0
  }

  /** The rows the JOIN pairs with one transaction, in table order. */
  function RowsFor(t: RawTransaction, cats: seq<RawCategory>): (r: seq<Row>)
    ensures forall x :: x in r <==> x.t == t && x.category in cats && x.category.id == t.categoryId
  {
    if |cats| == 0 then []
    else (if cats[0].id == t.categoryId then [Row(t, cats[0])] else []) + RowsFor(t, cats[1..])
  }

  /** The inner JOIN: a transaction without a matching category yields no row. */
  function Join(txns: seq<RawTransaction>, cats: seq<RawCategory>): (r: seq<Row>)
    ensures forall x :: x in r <==> x.t in txns && x.category in cats && x.category.id == x.t.categoryId
  {
    if |txns| == 0 then [] else RowsFor(txns[0], cats) + Join(txns[1..], cats)
  }

  /** The query string of `GET /api/transactions`. */
  datatype ListQuery = ListQuery(startDate: Option<string>, endDate: Option<string>,
                                 categoryId: Option<string>, kind: Option<string>)

  /** One entry of `whereClauses`. */
  datatype Clause = DateFrom(start: string) | DateUntil(end: string) | CategoryIs(id: string) | KindIs(kind: string)

  /** The clauses pushed for the truthy parameters, in the order the handler pushes them. */
  function WhereClauses(q: ListQuery): (r: seq<Clause>)
    ensures |r| == 0 <==> !TruthyText(q.startDate) && !TruthyText(q.endDate) && !TruthyText(q.categoryId) && !TruthyText(q.kind)
    ensures |r| <= 4
  {
    (if TruthyText(q.startDate) then [DateFrom(q.startDate.value)] else [])
    + (if TruthyText(q.endDate) then [DateUntil(q.endDate.value)] else [])
    + (if TruthyText(q.categoryId) then [CategoryIs(q.categoryId.value)] else [])
    + (if TruthyText(q.kind) then [KindIs(q.kind.value)] else [])
  }

  /** What one clause asks of a row. `asInteger` is SQLite's conversion of a text parameter
      compared with an INTEGER column: `None` when the text is not numeric, which then equals
      no integer. */
  predicate Holds(c: Clause, asInteger: string -> Option<int>, t: RawTransaction)
  {
    match c
    case DateFrom(s) => Ordering.TextLe(s, t.date)
    case DateUntil(e) => Ordering.TextLe(t.date, e)
    case CategoryIs(id) => asInteger(id) == Some(t.categoryId)
    case KindIs(k) => t.kind == k
  }

  /** The clauses joined with AND. */
  predicate Matches(clauses: seq<Clause>, asInteger: string -> Option<int>, t: RawTransaction)
  {
    forall c :: c in clauses ==> Holds(c, asInteger, t)
  }

  /** The filter as a reader states it: every supplied parameter constrains, absent ones do not. */
  predicate Admits(q: ListQuery, asInteger: string -> Option<int>, t: RawTransaction)
  {
    && (TruthyText(q.startDate) ==> Ordering.TextLe(q.startDate.value, t.date))
    && (TruthyText(q.endDate) ==> Ordering.TextLe(t.date, q.endDate.value))
    && (TruthyText(q.categoryId) ==> asInteger(q.categoryId.value) == Some(t.categoryId))
    && (TruthyText(q.kind) ==> t.kind == q.kind.value)
  }

  /** The WHERE builder means the conjunctive filter. */
  lemma WhereClausesMeaning(q: ListQuery, asInteger: string -> Option<int>)
    ensures forall t :: Matches(WhereClauses(q), asInteger, t) <==> Admits(q, asInteger, t)
  {
    forall t
      ensures Matches(WhereClauses(q), asInteger, t) <==> Admits(q, asInteger, t)
    {
      var cs := WhereClauses(q);
      if TruthyText(q.startDate) { assert DateFrom(q.startDate.value) in cs; }
      if TruthyText(q.endDate) { assert DateUntil(q.endDate.value) in cs; }
      if TruthyText(q.categoryId) { assert CategoryIs(q.categoryId.value) in cs; }
      if TruthyText(q.kind) { assert KindIs(q.kind.value) in cs; }
    }
  }

  function RowDateKey(x: Row): Ordering.Key
  {
    Ordering.Text(x.t.date)
  }

  /** `GET /api/transactions`: the joined rows the clauses admit, `ORDER BY t.date DESC`. */
  function ListTransactions(db: Db, q: ListQuery, asInteger: string -> Option<int>): (r: seq<Row>)
    ensures forall x :: multiset(r)[x] ==
              if Admits(q, asInteger, x.t) then multiset(Join(db.transactions, db.categories))[x] else 0
    ensures Ordering.Sorted(r, RowDateKey, Ordering.Desc)
  {
    var rows := Join(db.transactions, db.categories);
    var clauses := WhereClauses(q);
    var p := (x: Row) => Matches(clauses, asInteger, x.t);
    WhereClausesMeaning(q, asInteger);
    Seqs.FilterCount(rows, p);
    Ordering.SortBySorted(Seqs.Filter(rows, p), RowDateKey, Ordering.Desc);
    Ordering.SortBy(Seqs.Filter(rows, p), RowDateKey, Ordering.Desc)
  }

  /** Every listed row satisfies every supplied filter and pairs a stored transaction with its category. */
  lemma ListedRowsSatisfyFilters(db: Db, q: ListQuery, asInteger: string -> Option<int>, x: Row)
    requires x in ListTransactions(db, q, asInteger)
    ensures Admits(q, asInteger, x.t)
    ensures x.t in db.transactions && x.category in db.categories && x.category.id == x.t.categoryId
  {
    assert multiset(ListTransactions(db, q, asInteger))[x] > 0;
  }

  /** The JOIN hides a transaction whose category does not exist, whatever the filters. */
  lemma OrphanNeverListed(db: Db, q: ListQuery, asInteger: string -> Option<int>, x: Row)
    requires forall c :: c in db.categories ==> c.id != x.t.categoryId
    ensures x !in ListTransactions(db, q, asInteger)
  {
    if x in ListTransactions(db, q, asInteger) {
      ListedRowsSatisfyFilters(db, q, asInteger, x);
    }
  }

  /** The JSON body of POST and PUT; a field the client left out is `None`. */
  datatype TransactionBody = TransactionBody(
    description: Option<string>, amount: Option<int>, kind: Option<string>, categoryId: Option<int>, date: Option<string>)

  /** The required-field check: every field truthy, so an amount or category id of 0 fails it. */
  predicate AllFieldsPresent(b: TransactionBody)
  {
    TruthyText(b.description) && TruthyNumber(b.amount) && TruthyText(b.kind) && TruthyNumber(b.categoryId) && TruthyText(b.date)
  }

  /** The joined row of one id, as `db.get` returns it: the first one, or nothing. */
  function LookupRow(db: Db, id: int): (r: Option<Row>)
    ensures r.None? <==> forall x :: x in Join(db.transactions, db.categories) ==> x.t.id != id
    ensures r.Some? ==> r.value in Join(db.transactions, db.categories) && r.value.t.id == id
  {
    var found := Seqs.Filter(Join(db.transactions, db.categories), (x: Row) => x.t.id == id);
    if |found| == 0 then None else assert found[0] in found; Some(found[0])
  }

  /** `POST /api/transactions`: no check of the category beyond truthiness. */
  function PostTransaction(db: Db, b: TransactionBody): (r: (Db, Reply<Option<Row>>))
    ensures !AllFieldsPresent(b) <==> r.1 == BadRequest(AllFieldsRequired)
    ensures !AllFieldsPresent(b) ==> r.0 == db
    ensures AllFieldsPresent(b) ==>
              && r.0 == db.(transactions := db.transactions + [RawTransaction(db.nextTransactionId, b.description.value,
                              b.amount.value, b.kind.value, b.categoryId.value, b.date.value)],
                            nextTransactionId := db.nextTransactionId + 1)
              && Status(r.1) == 201
  {
    if !AllFieldsPresent(b) then (db, BadRequest(AllFieldsRequired))
    else
      var t := RawTransaction(db.nextTransactionId, b.description.value, b.amount.value, b.kind.value,
                              b.categoryId.value, b.date.value);
      var db' := db.(transactions := db.transactions + [t], nextTransactionId := db.nextTransactionId + 1);
      (db', Created(LookupRow(db', t.id)))
  }

  /** Gap: POST stores a transaction whatever its category id and type, even when no category
      has that id (the reply then carries no row) or the category is of the other type. */
  lemma PostSkipsCategoryCheck(db: Db, b: TransactionBody)
    requires AllFieldsPresent(b)
    requires forall t :: t in db.transactions ==> t.id < db.nextTransactionId
    requires forall c :: c in db.categories ==> c.id != b.categoryId.value
    ensures Status(PostTransaction(db, b).1) == 201
    ensures PostTransaction(db, b).1.body.None?
    ensures |PostTransaction(db, b).0.transactions| == |db.transactions| + 1
  {
    var r := PostTransaction(db, b);
    forall x | x in Join(r.0.transactions, r.0.categories)
      ensures x.t.id != db.nextTransactionId
    {
      if x.t.id == db.nextTransactionId {
        assert false;
      }
    }
  }

  /** How many rows an `UPDATE … WHERE id = ?` or `DELETE … WHERE id = ?` touches. */
  function Changes(txns: seq<RawTransaction>, id: Option<int>): (n: nat)
    ensures n == 0 <==> forall t :: t in txns ==> Some(t.id) != id
  {
    var hits := Seqs.Filter(txns, (t: RawTransaction) => Some(t.id) == id);
    if |hits| > 0 then assert hits[0] in hits; |hits| else 0
  }

  /** `SET description = ?, amount = ?, type = ?, categoryId = ?, date = ?` on one row. */
  function Overwrite(t: RawTransaction, b: TransactionBody): RawTransaction
    requires AllFieldsPresent(b)
  {
    RawTransaction(t.id, b.description.value, b.amount.value, b.kind.value, b.categoryId.value, b.date.value)
  }

  /** The UPDATE applied to every row whose id matches; ids are kept. */
  function OverwriteRows(txns: seq<RawTransaction>, id: Option<int>, b: TransactionBody): (r: seq<RawTransaction>)
    requires AllFieldsPresent(b)
    ensures |r| == |txns|
    ensures forall i :: 0 <= i < |txns| ==>
              r[i] == if Some(txns[i].id) == id then Overwrite(txns[i], b) else txns[i]
  {
    Seqs.Map(txns, (t: RawTransaction) => if Some(t.id) == id then Overwrite(t, b) else t)
  }

  /** `PUT /api/transactions/:id`: the field check comes first, then the row must exist. */
  function PutTransaction(db: Db, idText: string, b: TransactionBody, asInteger: string -> Option<int>)
    : (r: (Db, Reply<Option<Row>>))
    ensures !AllFieldsPresent(b) <==> r.1 == BadRequest(AllFieldsRequired)
    ensures AllFieldsPresent(b) ==>
              ((forall t :: t in db.transactions ==> Some(t.id) != asInteger(idText)) <==> r.1 == NotFound(TransactionNotFound))
    ensures r.1.BadRequest? || r.1.NotFound? || r.1.Success?
    ensures AllFieldsPresent(b) && (exists t :: t in db.transactions && Some(t.id) == asInteger(idText)) ==> r.1.Success?
    ensures r.1.BadRequest? || r.1.NotFound? ==> r.0 == db
    ensures r.0.nextTransactionId == db.nextTransactionId && r.0.nextCategoryId == db.nextCategoryId
    ensures r.1.Success? ==> asInteger(idText).Some? && r.1.body == LookupRow(r.0, asInteger(idText).value)
    ensures r.1.Success? ==>
              && r.0.categories == db.categories
              && |r.0.transactions| == |db.transactions|
              && forall i :: 0 <= i < |db.transactions| ==>
                   r.0.transactions[i] == if Some(db.transactions[i].id) == asInteger(idText)
                                          then Overwrite(db.transactions[i], b) else db.transactions[i]
  {
    if !AllFieldsPresent(b) then (db, BadRequest(AllFieldsRequired))
    else
      var id := asInteger(idText);
      if Changes(db.transactions, id) == 0 then (db, NotFound(TransactionNotFound))
      else
        var db' := db.(transactions := OverwriteRows(db.transactions, id, b));
        (db', Success(LookupRow(db', id.value)))
  }

  /** Sending the same PUT twice leaves the tables as the first one left them. */
  lemma PutIdempotent(db: Db, idText: string, b: TransactionBody, asInteger: string -> Option<int>)
    ensures var once := PutTransaction(db, idText, b, asInteger);
            PutTransaction(once.0, idText, b, asInteger).0 == once.0
  {
    var id := asInteger(idText);
    if AllFieldsPresent(b) && Changes(db.transactions, id) != 0 {
      var txns := OverwriteRows(db.transactions, id, b);
      OverwriteRowsTwice(db.transactions, id, b);
      assert Changes(txns, id) != 0;
    }
  }

  /** Overwriting the matching rows a second time with the same values changes nothing. */
  lemma OverwriteRowsTwice(txns: seq<RawTransaction>, id: Option<int>, b: TransactionBody)
    requires AllFieldsPresent(b)
    ensures OverwriteRows(OverwriteRows(txns, id, b), id, b) == OverwriteRows(txns, id, b)
    ensures (exists t :: t in txns && Some(t.id) == id) ==> exists t :: t in OverwriteRows(txns, id, b) && Some(t.id) == id
  {
    var once := OverwriteRows(txns, id, b);
    assert forall i :: 0 <= i < |txns| ==> once[i].id == txns[i].id;
    if exists t :: t in txns && Some(t.id) == id {
      var t :| t in txns && Some(t.id) == id;
      var i :| 0 <= i < |txns| && txns[i] == t;
      assert once[i] in once;
    }
  }

  /** `DELETE /api/transactions/:id`: 404 when nothing was deleted, else 204. */
  function DeleteTransaction(db: Db, idText: string, asInteger: string -> Option<int>): (r: (Db, Reply<()>))
    ensures (forall t :: t in db.transactions ==> Some(t.id) != asInteger(idText)) <==> r.1 == NotFound(TransactionNotFound)
    ensures r.1.NotFound? || r.1 == NoContent
    ensures r.1.NotFound? ==> r.0 == db
    ensures r.1 == NoContent ==>
              && r.0.categories == db.categories
              && r.0.nextTransactionId == db.nextTransactionId
              && Seqs.IsSubseq(r.0.transactions, db.transactions)
              && forall t :: multiset(r.0.transactions)[t] ==
                   if Some(t.id) == asInteger(idText) then 0 else multiset(db.transactions)[t]
  {
    var id := asInteger(idText);
    if Changes(db.transactions, id) == 0 then (db, NotFound(TransactionNotFound))
    else
      var p := (t: RawTransaction) => Some(t.id) != id;
      Seqs.FilterIsSubseq(db.transactions, p);
      Seqs.FilterCount(db.transactions, p);
      (db.(transactions := Seqs.Filter(db.transactions, p)), NoContent)
  }

  function NameKey(c: RawCategory): Ordering.Key
  {
    Ordering.Text(c.name)
  }

  /** `GET /api/categories`: filtered by a truthy `type`, `ORDER BY name ASC`. */
  function ListCategories(db: Db, kind: Option<string>): (r: seq<RawCategory>)
    ensures forall c :: multiset(r)[c] ==
              if !TruthyText(kind) || c.kind == kind.value then multiset(db.categories)[c] else 0
    ensures Ordering.Sorted(r, NameKey, Ordering.Asc)
  {
    var p := (c: RawCategory) => !TruthyText(kind) || c.kind == kind.value;
    Seqs.FilterCount(db.categories, p);
    Ordering.SortBySorted(Seqs.Filter(db.categories, p), NameKey, Ordering.Asc);
    Ordering.SortBy(Seqs.Filter(db.categories, p), NameKey, Ordering.Asc)
  }

  /** A default category as `initDb` inserts it: name, type, color. */
  datatype Default = Default(name: string, kind: string, color: string)

  const Defaults: seq<Default> := [
    Default("Maaş", "income", "#33FFF0"),
    Default("Freelance", "income", "#FFF033"),
    Default("Yatırım Geliri", "income", "#33FF57"),
    Default("Hediye", "income", "#8833FF"),
    Default("Diğer Gelir", "income", "#FF33E9"),
    Default("Kira", "expense", "#FF5733"),
    Default("Market", "expense", "#33FF57"),
    Default("Faturalar", "expense", "#3357FF"),
    Default("Eğlence", "expense", "#F033FF"),
    Default("Sağlık", "expense", "#33FFEC"),
    Default("Ulaşım", "expense", "#FFB533"),
    Default("Yemek", "expense", "#FF335A"),
    Default("Alışveriş", "expense", "#8CFF33"),
    Default("Diğer Gider", "expense", "#33C1FF")
  ]

  /** The defaults inserted one by one from the next AUTOINCREMENT value. */
  function Inserted(ds: seq<Default>, nextId: int): (r: seq<RawCategory>)
    ensures |r| == |ds|
    ensures forall i :: 0 <= i < |ds| ==> r[i] == RawCategory(nextId + i, ds[i].name, ds[i].kind, ds[i].color)
  {
    if |ds| == 0 then [] else [RawCategory(nextId, ds[0].name, ds[0].kind, ds[0].color)] + Inserted(ds[1..], nextId + 1)
  }

  /** `initDb`'s seeding: the defaults go in only when the categories table is empty. */
  function Seed(db: Db): (r: Db)
    ensures |db.categories| > 0 ==> r == db
    ensures |db.categories| == 0 ==>
              && r.transactions == db.transactions
              && r.nextCategoryId == db.nextCategoryId + |Defaults|
              && |r.categories| == |Defaults|
              && forall i :: 0 <= i < |Defaults| ==>
                   r.categories[i] == RawCategory(db.nextCategoryId + i, Defaults[i].name, Defaults[i].kind, Defaults[i].color)
  {
    if |db.categories| > 0 then db
    else db.(categories := Inserted(Defaults, db.nextCategoryId), nextCategoryId := db.nextCategoryId + |Defaults|)
  }

  /** Seeding twice is seeding once. */
  lemma SeedIdempotent(db: Db)
    ensures Seed(Seed(db)) == Seed(db)
  {
  }
}

=== FILE: raw_stats.dfy ===
/** The statistics endpoints of the Express server: the balance, the monthly income/expense
    grouping with its month labels, and the expense breakdown by category. */
module RawStats {
  import opened Wrappers
  import opened RawServer
  import Seqs
  import Ordering
  import Text

  /** `CASE WHEN type = 'income' THEN amount ELSE 0 END`. */
  function IncomeOf(t: RawTransaction): int
  {
    if t.kind == "income" then t.amount else 0
  }

  /** `CASE WHEN type = 'expense' THEN amount ELSE 0 END`. */
  function ExpenseOf(t: RawTransaction): int
  {
    if t.kind == "expense" then t.amount else 0
  }

  function Amount(t: RawTransaction): int
  {
    t.amount
  }

  /** The `total` of the `GROUP BY type` row for one type; a type without rows has no group and
      the handler's default 0 stands, which is what an empty sum gives. */
  function TypeTotal(txns: seq<RawTransaction>, kind: string): int
  {
    Seqs.Sum(Seqs.Filter(txns, (t: RawTransaction) => t.kind == kind), Amount)
  }

  datatype BalanceReply = BalanceReply(balance: int, income: int, expense: int)

  /** `GET /api/balance`. */
  function GetBalance(db: Db): (r: BalanceReply)
    ensures r.balance == r.income - r.expense
    ensures r.income == Seqs.Sum(db.transactions, IncomeOf)
    ensures r.expense == Seqs.Sum(db.transactions, ExpenseOf)
  {
    Seqs.SumFilterMask(db.transactions, Amount, (t: RawTransaction) => t.kind == "income", IncomeOf);
    Seqs.SumFilterMask(db.transactions, Amount, (t: RawTransaction) => t.kind == "expense", ExpenseOf);
    var income := TypeTotal(db.transactions, "income");
    var expense := TypeTotal(db.transactions, "expense");
    BalanceReply(income - expense, income, expense)
  }

  /** A posted income raises the balance by its amount, a posted expense lowers it, and a row of
      any other type leaves it alone. */
  lemma BalanceAfterPost(db: Db, b: TransactionBody)
    requires AllFieldsPresent(b)
    ensures GetBalance(PostTransaction(db, b).0).balance ==
            GetBalance(db).balance + (if b.kind.value == "income" then b.amount.value
                                      else if b.kind.value == "expense" then -b.amount.value else 0)
  {
    var t := RawTransaction(db.nextTransactionId, b.description.value, b.amount.value, b.kind.value,
                            b.categoryId.value, b.date.value);
    assert PostTransaction(db, b).0.transactions == db.transactions + [t];
    Seqs.SumConcat(db.transactions, [t], IncomeOf);
    Seqs.SumConcat(db.transactions, [t], ExpenseOf);
  }

  /** `substr(date, 1, 7)`: the first seven characters, `YYYY-MM` for an ISO date. */
  function MonthKey(t: RawTransaction): (k: string)
    ensures |k| <= 7 && |k| <= |t.date| && k == t.date[..|k|]
  {
    if |t.date| <= 7 then t.date else t.date[..7]
  }

  /** One row of the monthly query before the labels are applied. */
  datatype MonthTotals = MonthTotals(month: string, income: int, expense: int)

  predicate HasMonth(rows: seq<MonthTotals>, m: string)
  {
    exists r :: r in rows && r.month == m
  }

  /** Every row's month comes strictly after `b`. */
  ghost predicate Above(b: string, rows: seq<MonthTotals>)
  {
    forall i :: 0 <= i < |rows| ==> Ordering.TextLe(b, rows[i].month) && b != rows[i].month
  }

  /** `ORDER BY month ASC` over distinct groups: each month strictly before all later ones. */
  ghost predicate StrictlyAscending(rows: seq<MonthTotals>)
  {
    |rows| == 0 || (Above(rows[0].month, rows[1..]) && StrictlyAscending(rows[1..]))
  }

  /** Adds one transaction's contributions to its month's group, opening the group in order
      when it does not exist yet. */
  function AddToMonth(rows: seq<MonthTotals>, key: string, inc: int, exp: int): seq<MonthTotals>
  {
    if |rows| == 0 then [MonthTotals(key, inc, exp)]
    else if rows[0].month == key then
      [MonthTotals(key, rows[0].income + inc, rows[0].expense + exp)] + rows[1..]
    else if Ordering.TextLe(key, rows[0].month) then
      [MonthTotals(key, inc, exp)] + rows
    else
      [rows[0]] + AddToMonth(rows[1..], key, inc, exp)
  }

  /** `GROUP BY month` with the two conditional sums. */
  function MonthlyTotals(txns: seq<RawTransaction>): seq<MonthTotals>
  {
    if |txns| == 0 then []
    else AddToMonth(MonthlyTotals(txns[1..]), MonthKey(txns[0]), IncomeOf(txns[0]), ExpenseOf(txns[0]))
  }

  lemma {:induction false} AddToMonthMonths(rows: seq<MonthTotals>, key: string, inc: int, exp: int, m: string)
    ensures HasMonth(AddToMonth(rows, key, inc, exp), m) <==> m == key || HasMonth(rows, m)
    decreases |rows|
  {
    var r := AddToMonth(rows, key, inc, exp);
    if |rows| == 0 {
      assert r[0] in r;
    } else if rows[0].month == key {
      assert rows == [rows[0]] + rows[1..];
      assert r[0] in r;
    } else if Ordering.TextLe(key, rows[0].month) {
      assert r[0] in r;
    } else {
      assert rows == [rows[0]] + rows[1..];
      AddToMonthMonths(rows[1..], key, inc, exp, m);
      if HasMonth(AddToMonth(rows[1..], key, inc, exp), m) {
        var w :| w in AddToMonth(rows[1..], key, inc, exp) && w.month == m;
        assert w in r;
      }
    }
  }

  /** There is a monthly row for a month exactly when some transaction falls in it. */
  lemma {:induction false} MonthlyMonths(txns: seq<RawTransaction>, m: string)
    ensures HasMonth(MonthlyTotals(txns), m) <==> exists t :: t in txns && MonthKey(t) == m
    decreases |txns|
  {
    if |txns| > 0 {
      MonthlyMonths(txns[1..], m);
      AddToMonthMonths(MonthlyTotals(txns[1..]), MonthKey(txns[0]), IncomeOf(txns[0]), ExpenseOf(txns[0]), m);
      assert forall t :: t in txns <==> t == txns[0] || t in txns[1..];
    }
  }

  lemma AboveLower(a: string, b: string, rows: seq<MonthTotals>)
    requires Ordering.TextLe(a, b) && a != b
    requires Above(b, rows)
    ensures Above(a, rows)
  {
    forall i | 0 <= i < |rows|
      ensures Ordering.TextLe(a, rows[i].month) && a != rows[i].month
    {
      Ordering.TextLeTransitive(a, b, rows[i].month);
      if a == rows[i].month {
        Ordering.TextLeAntisymmetric(a, b);
      }
    }
  }

  lemma {:induction false} AddToMonthAbove(rows: seq<MonthTotals>, key: string, inc: int, exp: int, b: string)
    requires Above(b, rows) && Ordering.TextLe(b, key) && b != key
    ensures Above(b, AddToMonth(rows, key, inc, exp))
    decreases |rows|
  {
    if |rows| > 0 && rows[0].month != key && !Ordering.TextLe(key, rows[0].month) {
      AddToMonthAbove(rows[1..], key, inc, exp, b);
    }
  }

  lemma {:induction false} AddToMonthAscending(rows: seq<MonthTotals>, key: string, inc: int, exp: int)
    requires StrictlyAscending(rows)
    ensures StrictlyAscending(AddToMonth(rows, key, inc, exp))
    decreases |rows|
  {
    var r := AddToMonth(rows, key, inc, exp);
    if |rows| == 0 {
      assert r[1..] == [];
    } else if rows[0].month == key {
      assert r[1..] == rows[1..];
    } else if Ordering.TextLe(key, rows[0].month) {
      assert r[1..] == rows;
      AboveLower(key, rows[0].month, rows[1..]);
    } else {
      Ordering.TextLeTotal(key, rows[0].month);
      AddToMonthAscending(rows[1..], key, inc, exp);
      AddToMonthAbove(rows[1..], key, inc, exp, rows[0].month);
      assert r[1..] == AddToMonth(rows[1..], key, inc, exp);
    }
  }

  /** The monthly rows come out in strictly ascending month order, one row per month. */
  lemma {:induction false} MonthlyAscending(txns: seq<RawTransaction>)
    ensures StrictlyAscending(MonthlyTotals(txns))
    decreases |txns|
  {
    if |txns| > 0 {
      MonthlyAscending(txns[1..]);
      AddToMonthAscending(MonthlyTotals(txns[1..]), MonthKey(txns[0]), IncomeOf(txns[0]), ExpenseOf(txns[0]));
    }
  }

  /** The recursive ordering means every earlier month is strictly before every later one. */
  lemma {:induction false} AscendingPairwise(rows: seq<MonthTotals>)
    requires StrictlyAscending(rows)
    ensures forall i, j :: 0 <= i < j < |rows| ==>
              Ordering.TextLe(rows[i].month, rows[j].month) && rows[i].month != rows[j].month
    decreases |rows|
  {
    if |rows| > 0 {
      AscendingPairwise(rows[1..]);
      forall i, j | 0 <= i < j < |rows|
        ensures Ordering.TextLe(rows[i].month, rows[j].month) && rows[i].month != rows[j].month
      {
        if i > 0 {
          assert rows[i] == rows[1..][i - 1] && rows[j] == rows[1..][j - 1];
        } else {
          assert rows[j] == rows[1..][j - 1];
        }
      }
    }
  }

  function RowIncome(r: MonthTotals): int
  {
    r.income
  }

  function RowExpense(r: MonthTotals): int
  {
    r.expense
  }

  lemma {:induction false} AddToMonthSums(rows: seq<MonthTotals>, key: string, inc: int, exp: int, m: string)
    ensures Seqs.Sum(AddToMonth(rows, key, inc, exp), (r: MonthTotals) => if r.month == m then r.income else 0)
         == Seqs.Sum(rows, (r: MonthTotals) => if r.month == m then r.income else 0) + (if key == m then inc else 0)
    ensures Seqs.Sum(AddToMonth(rows, key, inc, exp), (r: MonthTotals) => if r.month == m then r.expense else 0)
         == Seqs.Sum(rows, (r: MonthTotals) => if r.month == m then r.expense else 0) + (if key == m then exp else 0)
    ensures Seqs.Sum(AddToMonth(rows, key, inc, exp), RowIncome) == Seqs.Sum(rows, RowIncome) + inc
    ensures Seqs.Sum(AddToMonth(rows, key, inc, exp), RowExpense) == Seqs.Sum(rows, RowExpense) + exp
    decreases |rows|
  {
    var r := AddToMonth(rows, key, inc, exp);
    if |rows| == 0 {
    } else if rows[0].month == key {
      assert r[1..] == rows[1..];
    } else if Ordering.TextLe(key, rows[0].month) {
      assert r[1..] == rows;
    } else {
      AddToMonthSums(rows[1..], key, inc, exp, m);
      assert r[1..] == AddToMonth(rows[1..], key, inc, exp);
    }
  }

  /** Each month's row holds exactly the income and expense of that month's transactions. */
  lemma {:induction false} MonthlyPerMonth(txns: seq<RawTransaction>, m: string)
    ensures Seqs.Sum(MonthlyTotals(txns), (r: MonthTotals) => if r.month == m then r.income else 0)
         == Seqs.Sum(txns, (t: RawTransaction) => if MonthKey(t) == m then IncomeOf(t) else 0)
    ensures Seqs.Sum(MonthlyTotals(txns), (r: MonthTotals) => if r.month == m then r.expense else 0)
         == Seqs.Sum(txns, (t: RawTransaction) => if MonthKey(t) == m then ExpenseOf(t) else 0)
    decreases |txns|
  {
    if |txns| > 0 {
      MonthlyPerMonth(txns[1..], m);
      AddToMonthSums(MonthlyTotals(txns[1..]), MonthKey(txns[0]), IncomeOf(txns[0]), ExpenseOf(txns[0]), m);
    }
  }

  /** Conservation: the monthly incomes add up to the balance's income, and likewise for expense. */
  lemma {:induction false} MonthlyConservation(db: Db)
    ensures Seqs.Sum(MonthlyTotals(db.transactions), RowIncome) == GetBalance(db).income
    ensures Seqs.Sum(MonthlyTotals(db.transactions), RowExpense) == GetBalance(db).expense
  {
    MonthlyTotalsSum(db.transactions);
  }

  lemma {:induction false} MonthlyTotalsSum(txns: seq<RawTransaction>)
    ensures Seqs.Sum(MonthlyTotals(txns), RowIncome) == Seqs.Sum(txns, IncomeOf)
    ensures Seqs.Sum(MonthlyTotals(txns), RowExpense) == Seqs.Sum(txns, ExpenseOf)
    decreases |txns|
  {
    if |txns| > 0 {
      MonthlyTotalsSum(txns[1..]);
      AddToMonthSums(MonthlyTotals(txns[1..]), MonthKey(txns[0]), IncomeOf(txns[0]), ExpenseOf(txns[0]), "");
    }
  }

  /** `s.split(sep)`: the pieces between separators, the empty string included. */
  function Split(s: string, sep: char): (r: seq<string>)
    ensures |r| >= 1
  {
    if |s| == 0 then [""]
    else if s[0] == sep then [""] + Split(s[1..], sep)
    else
      var rest := Split(s[1..], sep);
      [[s[0]] + rest[0]] + rest[1..]
  }

  lemma {:induction false} SplitNoSeparator(s: string, sep: char)
    requires sep !in s
    ensures Split(s, sep) == [s]
    decreases |s|
  {
    if |s| > 0 {
      SplitNoSeparator(s[1..], sep);
      assert [s[0]] + s[1..] == s;
    }
  }

  lemma {:induction false} SplitAfterFirst(y: string, sep: char, m: string)
    requires sep !in y
    ensures Split(y + [sep] + m, sep) == [y] + Split(m, sep)
    decreases |y|
  {
    var s := y + [sep] + m;
    if |y| == 0 {
      assert s == [sep] + m;
      assert s[1..] == m;
    } else {
      assert s[0] == y[0];
      assert s[1..] == y[1..] + [sep] + m;
      SplitAfterFirst(y[1..], sep, m);
      assert [y[0]] + y[1..] == y;
    }
  }

  const MonthNames: seq<string> :=
    ["Ocak", "Şubat", "Mart", "Nisan", "Mayıs", "Haziran", "Temmuz", "Ağustos", "Eylül", "Ekim", "Kasım", "Aralık"]

  /** The two-digit month code of month `i`, "01" to "12". */
  function MonthCode(i: nat): (c: string)
    requires i < 100
    ensures |c| == 2 && Text.AllDigits(c)
  {
    [Text.DigitChar(i / 10), Text.DigitChar(i % 10)]
  }

  /** `monthNames[code]`: defined exactly for the twelve two-digit codes "01" … "12". */
  function MonthNameOf(code: string): (r: Option<string>)
    ensures r.Some? ==> r.value in MonthNames
  {
    if |code| == 2 && Text.AllDigits(code) && 1 <= Text.DigitsValue(code) <= 12 then
      Some(MonthNames[Text.DigitsValue(code) - 1])
    else None
  }

  /** Every month code names its month. */
  lemma MonthNameOfCode(i: nat)
    requires 1 <= i <= 12
    ensures MonthNameOf(MonthCode(i)) == Some(MonthNames[i - 1])
  {
    Text.TwoDigitsValue(MonthCode(i));
  }

  /** A name comes back only for one of the twelve codes. */
  lemma MonthNameOnlyForCodes(code: string)
    requires MonthNameOf(code).Some?
    ensures exists i :: 1 <= i <= 12 && code == MonthCode(i)
  {
    Text.TwoDigitsValue(code);
    var v := Text.DigitsValue(code);
    assert code == MonthCode(v);
  }

  /** The label of a month key: the piece after the first '-' looked up in the table. */
  function MonthLabel(month: string): (r: Option<string>)
    ensures r.Some? ==> r.value in MonthNames
  {
    var parts := Split(month, '-');
    if |parts| >= 2 then MonthNameOf(parts[1]) else None
  }

  /** `YYYY-MM` is labelled with the name of month `MM`. */
  lemma MonthLabelOfKey(year: string, i: nat)
    requires '-' !in year && 1 <= i <= 12
    ensures MonthLabel(year + "-" + MonthCode(i)) == Some(MonthNames[i - 1])
  {
    var c := MonthCode(i);
    assert forall k :: 0 <= k < |c| ==> c[k] != '-';
    assert year + "-" + c == year + ['-'] + c;
    SplitAfterFirst(year, '-', c);
    SplitNoSeparator(c, '-');
    assert Split(year + "-" + c, '-')[1] == c;
    MonthNameOfCode(i);
  }

  /** One row of `GET /api/stats/monthly`; `month` is `None` where the table has no entry. */
  datatype MonthRow = MonthRow(month: Option<string>, income: int, expense: int)

  /** `GET /api/stats/monthly`. */
  function MonthlyStats(db: Db): (r: seq<MonthRow>)
    ensures |r| == |MonthlyTotals(db.transactions)|
    ensures forall i :: 0 <= i < |r| ==>
              && r[i].month == MonthLabel(MonthlyTotals(db.transactions)[i].month)
              && r[i].income == MonthlyTotals(db.transactions)[i].income
              && r[i].expense == MonthlyTotals(db.transactions)[i].expense
  {
    Seqs.Map(MonthlyTotals(db.transactions), (m: MonthTotals) => MonthRow(MonthLabel(m.month), m.income, m.expense))
  }

  /** One row of `GET /api/stats/categories`: the category's columns and its summed amount. */
  datatype CategoryTotal = CategoryTotal(category: RawCategory, amount: int)

  function TotalId(g: CategoryTotal): int
  {
    g.category.id
  }

  function TotalAmount(g: CategoryTotal): int
  {
    g.amount
  }

  function TotalKey(g: CategoryTotal): Ordering.Key
  {
    Ordering.Num(g.amount)
  }

  /** Adds one joined row to the group of its category, opening the group at the end. */
  function AddToCategory(groups: seq<CategoryTotal>, x: Row): seq<CategoryTotal>
  {
    if |groups| == 0 then [CategoryTotal(x.category, x.t.amount)]
    else if groups[0].category.id == x.category.id then
      [CategoryTotal(groups[0].category, groups[0].amount + x.t.amount)] + groups[1..]
    else
      [groups[0]] + AddToCategory(groups[1..], x)
  }

  /** `GROUP BY t.categoryId` with `SUM(t.amount)`. */
  function GroupByCategory(rows: seq<Row>): seq<CategoryTotal>
  {
    if |rows| == 0 then [] else AddToCategory(GroupByCategory(rows[1..]), rows[0])
  }

  predicate HasGroup(groups: seq<CategoryTotal>, id: int)
  {
    exists g :: g in groups && g.category.id == id
  }

  lemma {:induction false} AddToCategoryGroups(groups: seq<CategoryTotal>, x: Row, id: int)
    ensures HasGroup(AddToCategory(groups, x), id) <==> id == x.category.id || HasGroup(groups, id)
    decreases |groups|
  {
    var r := AddToCategory(groups, x);
    if |groups| == 0 {
      assert r[0] in r;
    } else if groups[0].category.id == x.category.id {
      assert groups == [groups[0]] + groups[1..];
      assert r[0] in r;
    } else {
      assert groups == [groups[0]] + groups[1..];
      AddToCategoryGroups(groups[1..], x, id);
      if HasGroup(AddToCategory(groups[1..], x), id) {
        var w :| w in AddToCategory(groups[1..], x) && w.category.id == id;
        assert w in r;
      }
    }
  }

  /** A group's category is the category of a row added to it. */
  lemma {:induction false} AddToCategoryOrigin(groups: seq<CategoryTotal>, x: Row, g: CategoryTotal)
    requires g in AddToCategory(groups, x)
    ensures g.category == x.category || exists h :: h in groups && h.category == g.category
    decreases |groups|
  {
    if |groups| > 0 {
      assert groups == [groups[0]] + groups[1..];
      if groups[0].category.id != x.category.id && g != groups[0] {
        AddToCategoryOrigin(groups[1..], x, g);
      }
    }
  }

  lemma {:induction false} GroupByCategoryGroups(rows: seq<Row>, id: int)
    ensures HasGroup(GroupByCategory(rows), id) <==> exists x :: x in rows && x.category.id == id
    decreases |rows|
  {
    if |rows| > 0 {
      GroupByCategoryGroups(rows[1..], id);
      AddToCategoryGroups(GroupByCategory(rows[1..]), rows[0], id);
      assert rows == [rows[0]] + rows[1..];
      if exists x :: x in rows && x.category.id == id {
        var x :| x in rows && x.category.id == id;
        assert x == rows[0] || x in rows[1..];
      }
    }
  }

  lemma {:induction false} GroupByCategoryOrigin(rows: seq<Row>, g: CategoryTotal)
    requires g in GroupByCategory(rows)
    ensures exists x :: x in rows && x.category == g.category
    decreases |rows|
  {
    AddToCategoryOrigin(GroupByCategory(rows[1..]), rows[0], g);
    assert rows[0] in rows;
    if g.category != rows[0].category {
      var h :| h in GroupByCategory(rows[1..]) && h.category == g.category;
      GroupByCategoryOrigin(rows[1..], h);
      var x :| x in rows[1..] && x.category == h.category;
      assert x in rows;
    }
  }

  lemma {:induction false} AddToCategoryDistinct(groups: seq<CategoryTotal>, x: Row)
    requires Seqs.DistinctBy(groups, TotalId)
    ensures Seqs.DistinctBy(AddToCategory(groups, x), TotalId)
    decreases |groups|
  {
    var r := AddToCategory(groups, x);
    if |groups| > 0 && groups[0].category.id != x.category.id {
      var rest := AddToCategory(groups[1..], x);
      AddToCategoryDistinct(groups[1..], x);
      AddToCategoryAvoids(groups[1..], x, groups[0].category.id);
      assert r == [groups[0]] + rest;
      forall i, j | 0 <= i < j < |r|
        ensures r[i].category.id != r[j].category.id
      {
        assert r[j] == rest[j - 1];
        if i > 0 {
          assert r[i] == rest[i - 1];
        }
      }
    } else if |groups| > 0 {
      assert forall i :: 0 <= i < |r| ==> r[i].category.id == groups[i].category.id;
    }
  }

  /** A category id that neither the groups nor the row carry is not among the result's. */
  lemma {:induction false} AddToCategoryAvoids(groups: seq<CategoryTotal>, x: Row, k: int)
    requires x.category.id != k
    requires forall i :: 0 <= i < |groups| ==> groups[i].category.id != k
    ensures forall j :: 0 <= j < |AddToCategory(groups, x)| ==> AddToCategory(groups, x)[j].category.id != k
    decreases |groups|
  {
    var r := AddToCategory(groups, x);
    if |groups| > 0 && groups[0].category.id != x.category.id {
      AddToCategoryAvoids(groups[1..], x, k);
      assert forall j :: 0 < j < |r| ==> r[j] == AddToCategory(groups[1..], x)[j - 1];
    } else if |groups| > 0 {
      assert forall j :: 0 < j < |r| ==> r[j] == groups[j];
    }
  }

  lemma {:induction false} GroupByCategoryDistinct(rows: seq<Row>)
    ensures Seqs.DistinctBy(GroupByCategory(rows), TotalId)
    decreases |rows|
  {
    if |rows| > 0 {
      GroupByCategoryDistinct(rows[1..]);
      AddToCategoryDistinct(GroupByCategory(rows[1..]), rows[0]);
    }
  }

  lemma {:induction false} AddToCategorySums(groups: seq<CategoryTotal>, x: Row, k: int)
    ensures Seqs.Sum(AddToCategory(groups, x), (g: CategoryTotal) => if g.category.id == k then g.amount else 0)
         == Seqs.Sum(groups, (g: CategoryTotal) => if g.category.id == k then g.amount else 0)
            + (if x.category.id == k then x.t.amount else 0)
    ensures Seqs.Sum(AddToCategory(groups, x), TotalAmount) == Seqs.Sum(groups, TotalAmount) + x.t.amount
    decreases |groups|
  {
    var r := AddToCategory(groups, x);
    if |groups| == 0 {
    } else if groups[0].category.id == x.category.id {
      assert r[1..] == groups[1..];
    } else {
      AddToCategorySums(groups[1..], x, k);
      assert r[1..] == AddToCategory(groups[1..], x);
    }
  }

  lemma {:induction false} GroupByCategorySums(rows: seq<Row>, k: int)
    ensures Seqs.Sum(GroupByCategory(rows), (g: CategoryTotal) => if g.category.id == k then g.amount else 0)
         == Seqs.Sum(rows, (x: Row) => if x.category.id == k then x.t.amount else 0)
    ensures Seqs.Sum(GroupByCategory(rows), TotalAmount) == Seqs.Sum(rows, (x: Row) => x.t.amount)
    decreases |rows|
  {
    if |rows| > 0 {
      GroupByCategorySums(rows[1..], k);
      AddToCategorySums(GroupByCategory(rows[1..]), rows[0], k);
    }
  }

  /** The joined rows `WHERE t.type = 'expense'`. */
  function ExpenseRows(db: Db): (r: seq<Row>)
    ensures forall x :: x in r <==> x in Join(db.transactions, db.categories) && x.t.kind == "expense"
  {
    Seqs.Filter(Join(db.transactions, db.categories), (x: Row) => x.t.kind == "expense")
  }

  /** `GET /api/stats/categories`: one row per category, largest total first. */
  function CategoryBreakdown(db: Db): (r: seq<CategoryTotal>)
    ensures Ordering.Sorted(r, TotalKey, Ordering.Desc)
    ensures Seqs.DistinctBy(r, TotalId)
    ensures multiset(r) == multiset(GroupByCategory(ExpenseRows(db)))
  {
    var groups := GroupByCategory(ExpenseRows(db));
    GroupByCategoryDistinct(ExpenseRows(db));
    Ordering.SortBySorted(groups, TotalKey, Ordering.Desc);
    Seqs.PermutationKeepsDistinct(groups, Ordering.SortBy(groups, TotalKey, Ordering.Desc), TotalId);
    Ordering.SortBy(groups, TotalKey, Ordering.Desc)
  }

  /** The breakdown has a row for a category exactly when some expense transaction joins it, and
      each row carries a stored category. */
  lemma BreakdownRows(db: Db, id: int)
    ensures HasGroup(CategoryBreakdown(db), id) <==> exists x :: x in ExpenseRows(db) && x.t.categoryId == id
    ensures forall g :: g in CategoryBreakdown(db) ==> g.category in db.categories
  {
    var groups := GroupByCategory(ExpenseRows(db));
    var r := CategoryBreakdown(db);
    assert forall g :: g in r <==> g in groups by {
      assert forall g :: g in r <==> multiset(r)[g] > 0;
    }
    GroupByCategoryGroups(ExpenseRows(db), id);
    forall g | g in r
      ensures g.category in db.categories
    {
      GroupByCategoryOrigin(ExpenseRows(db), g);
    }
  }

  /** Each category's row holds exactly the sum of its expense transactions. */
  lemma BreakdownPerCategory(db: Db, k: int)
    ensures Seqs.Sum(CategoryBreakdown(db), (g: CategoryTotal) => if g.category.id == k then g.amount else 0)
         == Seqs.Sum(ExpenseRows(db), (x: Row) => if x.category.id == k then x.t.amount else 0)
  {
    var groups := GroupByCategory(ExpenseRows(db));
    GroupByCategorySums(ExpenseRows(db), k);
    Ordering.SortBySum(groups, TotalKey, Ordering.Desc, (g: CategoryTotal) => if g.category.id == k then g.amount else 0);
  }

  /** Conservation: the breakdown adds up to the expenses of the transactions that have a category. */
  lemma BreakdownTotal(db: Db)
    ensures Seqs.Sum(CategoryBreakdown(db), TotalAmount) == Seqs.Sum(ExpenseRows(db), (x: Row) => x.t.amount)
  {
    var groups := GroupByCategory(ExpenseRows(db));
    GroupByCategorySums(ExpenseRows(db), 0);
    Ordering.SortBySum(groups, TotalKey, Ordering.Desc, TotalAmount);
  }
}

=== FILE: register_page.dfy ===
/** The registration page's client-side checks before it calls `register`. */
module RegisterPage {
  import Text

  datatype Outcome = PasswordsDiffer | PasswordTooShort | Register(name: string, email: string, password: string)

  const PasswordsDifferMessage := "Şifreler eşleşmiyor"
  const PasswordTooShortMessage := "Şifre en az 6 karakter olmalıdır"
  const MinPasswordLength := 6

  function Message(o: Outcome): string
    requires !o.Register?
  {
    if o.PasswordsDiffer? then PasswordsDifferMessage else PasswordTooShortMessage
  }

  /** `handleSubmit`: a mismatch is reported first, then a short password; otherwise the three
      fields are sent. `password.length` counts UTF-16 code units. */
  function HandleSubmit(name: string, email: string, password: string, confirm: string): (r: Outcome)
    ensures r == PasswordsDiffer <==> password != confirm
    ensures r == PasswordTooShort <==> password == confirm && Text.Utf16Length(password) < MinPasswordLength
    ensures r.Register? <==> password == confirm && Text.Utf16Length(password) >= MinPasswordLength
    ensures r.Register? ==> r == Register(name, email, password)
  {
    if password != confirm then PasswordsDiffer
    else if Text.Utf16Length(password) < MinPasswordLength then PasswordTooShort
    else Register(name, email, password)
  }

  /** A password of three characters outside the Basic Multilingual Plane is six code units long,
      so it passes the length check. */
  lemma AstralPasswordLength()
    ensures HandleSubmit("a", "b", "\U{1F600}\U{1F600}\U{1F600}", "\U{1F600}\U{1F600}\U{1F600}").Register?
  {
    var pw := "\U{1F600}\U{1F600}\U{1F600}";
    assert pw[1..] == "\U{1F600}\U{1F600}" && pw[1..][1..] == "\U{1F600}";
    assert Text.Utf16Length(pw) == 6;
  }
}

=== FILE: repositories.dfy ===
/** `TransactionRepository` and `CategoryRepository`: the finders as filter-then-order
    specifications. The database's tie order is unspecified, so the contracts state only which
    rows come back (as a multiset) and that they are ordered. */
module Repositories {
  import opened Wrappers
  import opened Kinds
  import opened Ledger
  import Seqs
  import Ordering

  /** Stands for PostgreSQL's error on a `type` value outside the enum's labels ("invalid input
      value for enum ..."); its full text, naming the enum type and the value, is not modelled. */
  const InvalidEnumValue: string := "invalid input value for enum"

  /** A transaction's `date` column as an ordering key (ISO text compares chronologically). */
  function DateKey(t: Transaction): Ordering.Key
  {
    Ordering.Text(t.date)
  }

  /** A category's `name` column as an ordering key. */
  function NameKey(c: Category): Ordering.Key
  {
    Ordering.Text(c.name)
  }

  /** `TransactionRepository.findByUserId`: the user's transactions, newest first. */
  function FindTransactionsByUserId(txns: seq<Transaction>, userId: int): (r: seq<Transaction>)
    ensures forall t :: multiset(r)[t] == if t.userId == userId then multiset(txns)[t] else 0
    ensures Ordering.Sorted(r, DateKey, Ordering.Desc)
  {
    var p := (t: Transaction) => t.userId == userId;
    Seqs.FilterCount(txns, p);
    Ordering.SortBySorted(Seqs.Filter(txns, p), DateKey, Ordering.Desc);
    Ordering.SortBy(Seqs.Filter(txns, p), DateKey, Ordering.Desc)
  }

  /** `Between(startDate, endDate)`: inclusive at both ends. */
  predicate InDateRange(t: Transaction, startDate: string, endDate: string)
  {
    Ordering.TextLe(startDate, t.date) && Ordering.TextLe(t.date, endDate)
  }

  /** `TransactionRepository.findByUserIdAndDateRange`. */
  function FindTransactionsByUserIdAndDateRange(txns: seq<Transaction>, userId: int, startDate: string, endDate: string)
    : (r: seq<Transaction>)
    ensures forall t :: multiset(r)[t] ==
              if t.userId == userId && InDateRange(t, startDate, endDate) then multiset(txns)[t] else 0
    ensures Ordering.Sorted(r, DateKey, Ordering.Desc)
  {
    var p := (t: Transaction) => t.userId == userId && InDateRange(t, startDate, endDate);
    Seqs.FilterCount(txns, p);
    Ordering.SortBySorted(Seqs.Filter(txns, p), DateKey, Ordering.Desc);
    Ordering.SortBy(Seqs.Filter(txns, p), DateKey, Ordering.Desc)
  }

  /** `TransactionRepository.findByUserIdAndType`: `type` is an enum column, so the database
      refuses a value other than "income" or "expense" instead of matching nothing. */
  function FindTransactionsByUserIdAndType(txns: seq<Transaction>, userId: int, kind: string): (r: Result<seq<Transaction>>)
    ensures r.Err? <==> ParseKind(kind).None?
    ensures r.Err? ==> r.msg == InvalidEnumValue
    ensures r.Ok? ==>
              forall t :: multiset(r.value)[t] ==
                if t.userId == userId && KindName(t.kind) == kind then multiset(txns)[t] else 0
    ensures r.Ok? ==> Ordering.Sorted(r.value, DateKey, Ordering.Desc)
  {
    if ParseKind(kind).None? then Err(InvalidEnumValue)
    else
      var p := (t: Transaction) => t.userId == userId && KindName(t.kind) == kind;
      Seqs.FilterCount(txns, p);
      Ordering.SortBySorted(Seqs.Filter(txns, p), DateKey, Ordering.Desc);
      Ok(Ordering.SortBy(Seqs.Filter(txns, p), DateKey, Ordering.Desc))
  }

  /** `CategoryRepository.findByUserId`: the user's categories by name. */
  function FindCategoriesByUserId(cats: seq<Category>, userId: int): (r: seq<Category>)
    ensures forall c :: multiset(r)[c] == if c.userId == userId then multiset(cats)[c] else 0
    ensures Ordering.Sorted(r, NameKey, Ordering.Asc)
  {
    var p := (c: Category) => c.userId == userId;
    Seqs.FilterCount(cats, p);
    Ordering.SortBySorted(Seqs.Filter(cats, p), NameKey, Ordering.Asc);
    Ordering.SortBy(Seqs.Filter(cats, p), NameKey, Ordering.Asc)
  }

  /** `CategoryRepository.findByUserIdAndType`: the same enum column, so the same refusal. */
  function FindCategoriesByUserIdAndType(cats: seq<Category>, userId: int, kind: string): (r: Result<seq<Category>>)
    ensures r.Err? <==> ParseKind(kind).None?
    ensures r.Err? ==> r.msg == InvalidEnumValue
    ensures r.Ok? ==>
              forall c :: multiset(r.value)[c] ==
                if c.userId == userId && KindName(c.kind) == kind then multiset(cats)[c] else 0
    ensures r.Ok? ==> Ordering.Sorted(r.value, NameKey, Ordering.Asc)
  {
    if ParseKind(kind).None? then Err(InvalidEnumValue)
    else
      var p := (c: Category) => c.userId == userId && KindName(c.kind) == kind;
      Seqs.FilterCount(cats, p);
      Ordering.SortBySorted(Seqs.Filter(cats, p), NameKey, Ordering.Asc);
      Ok(Ordering.SortBy(Seqs.Filter(cats, p), NameKey, Ordering.Asc))
  }

  /** The type finder returns exactly the user's rows of that type: together the two type
      queries account for every row of the user. */
  lemma TypeQueriesPartitionUser(txns: seq<Transaction>, userId: int)
    ensures FindTransactionsByUserIdAndType(txns, userId, "income").Ok?
    ensures FindTransactionsByUserIdAndType(txns, userId, "expense").Ok?
    ensures forall t :: multiset(FindTransactionsByUserIdAndType(txns, userId, "income").value)[t]
                      + multiset(FindTransactionsByUserIdAndType(txns, userId, "expense").value)[t]
                      == multiset(FindTransactionsByUserId(txns, userId))[t]
  {
    forall t
      ensures multiset(FindTransactionsByUserIdAndType(txns, userId, "income").value)[t]
            + multiset(FindTransactionsByUserIdAndType(txns, userId, "expense").value)[t]
            == multiset(FindTransactionsByUserId(txns, userId))[t]
    {
      assert KindName(t.kind) == "income" || KindName(t.kind) == "expense";
      assert KindName(Income) != KindName(Expense);
    }
  }
}

=== FILE: seqs.dfy ===
/** Sequence helpers: filtering, sums, prefixes and the subsequence relation. */
module Seqs {
  import opened Wrappers

  /** The first element of `s` that satisfies `p` (`Array.prototype.find`). */
  function Find<T(!new)>(s: seq<T>, p: T -> bool): (r: Option<T>)
    ensures r.None? <==> forall x :: x in s ==> !p(x)
    ensures r.Some? ==> exists i :: 0 <= i < |s| && s[i] == r.value && p(r.value)
                                    && forall j :: 0 <= j < i ==> !p(s[j])
  {
    if |s| == 0 then None
    else if p(s[0]) then Some(s[0])
    else
      var r := Find(s[1..], p);
      assert forall x :: x in s ==> x == s[0] || x in s[1..];
      assert r.Some? ==> exists i :: 0 <= i < |s| && s[i] == r.value
                                    && forall j :: 0 <= j < i ==> !p(s[j]) by {
        if r.Some? {
          var i :| 0 <= i < |s[1..]| && s[1..][i] == r.value && p(r.value)
                   && forall j :: 0 <= j < i ==> !p(s[1..][j]);
          assert s[i + 1] == r.value;
          assert forall j :: 1 <= j < i + 1 ==> s[j] == s[1..][j - 1];
        }
      }
      r
  }

  /** The elements of `s` that satisfy `p`, in their original order
      (`Array.prototype.filter`, an SQL `WHERE`). */
  function Filter<T(!new)>(s: seq<T>, p: T -> bool): (r: seq<T>)
    ensures |r| <= |s|
    ensures forall x :: x in r <==> x in s && p(x)
    ensures forall i :: 0 <= i < |r| ==> p(r[i])
  {
    if |s| == 0 then []
    else
      assert s == [s[0]] + s[1..];
      (if p(s[0]) then [s[0]] else []) + Filter(s[1..], p)
  }

  /** Filtering keeps every occurrence of an element that satisfies `p` and none of the others. */
  lemma {:induction false} FilterCount<T(!new)>(s: seq<T>, p: T -> bool)
    ensures forall x :: multiset(Filter(s, p))[x] == if p(x) then multiset(s)[x] else 0
    decreases |s|
  {
    if |s| > 0 {
      FilterCount(s[1..], p);
      assert s == [s[0]] + s[1..];
      var h := if p(s[0]) then [s[0]] else [];
      assert Filter(s, p) == h + Filter(s[1..], p);
      assert multiset(Filter(s, p)) == multiset(h) + multiset(Filter(s[1..], p));
    }
  }

  /** `a` is obtained from `b` by deleting elements (order is kept). */
  ghost predicate IsSubseq<T(!new)>(a: seq<T>, b: seq<T>)
    decreases |b|
  {
    |a| == 0 || (|b| > 0 && ((a[0] == b[0] && IsSubseq(a[1..], b[1..])) || IsSubseq(a, b[1..])))
  }

  lemma {:induction false} FilterIsSubseq<T(!new)>(s: seq<T>, p: T -> bool)
    ensures IsSubseq(Filter(s, p), s)
    decreases |s|
  {
    if |s| > 0 {
      FilterIsSubseq(s[1..], p);
      if p(s[0]) {
        assert Filter(s, p) == [s[0]] + Filter(s[1..], p);
      } else {
        assert Filter(s, p) == Filter(s[1..], p);
      }
    }
  }

  /** Every element of a subsequence is an element of the whole. */
  lemma {:induction false} SubseqElements<T(!new)>(a: seq<T>, b: seq<T>)
    requires IsSubseq(a, b)
    ensures forall x :: x in a ==> x in b
    decreases |b|
  {
    if |a| > 0 {
      if a[0] == b[0] && IsSubseq(a[1..], b[1..]) {
        SubseqElements(a[1..], b[1..]);
        assert forall x :: x in a ==> x == a[0] || x in a[1..];
      } else {
        SubseqElements(a, b[1..]);
      }
    }
  }

  /** Two filters applied one after the other keep exactly what one filter with the conjunction keeps. */
  lemma {:induction false} FilterFilter<T(!new)>(s: seq<T>, p: T -> bool, q: T -> bool, pq: T -> bool)
    requires forall x :: pq(x) == (p(x) && q(x))
    ensures Filter(Filter(s, p), q) == Filter(s, pq)
    decreases |s|
  {
    if |s| > 0 {
      FilterFilter(s[1..], p, q, pq);
      FilterConcat([s[0]], Filter(s[1..], p), q);
      if p(s[0]) {
        assert Filter(s, p) == [s[0]] + Filter(s[1..], p);
      } else {
        assert Filter(s, p) == Filter(s[1..], p);
      }
    }
  }

  lemma {:induction false} FilterConcat<T(!new)>(a: seq<T>, b: seq<T>, p: T -> bool)
    ensures Filter(a + b, p) == Filter(a, p) + Filter(b, p)
    decreases |a|
  {
    if |a| == 0 {
      assert a + b == b;
    } else {
      var ab := a + b;
      assert ab[0] == a[0] && ab[1..] == a[1..] + b;
      FilterConcat(a[1..], b, p);
      if p(a[0]) {
        calc {
          Filter(ab, p);
          [a[0]] + Filter(a[1..] + b, p);
          [a[0]] + (Filter(a[1..], p) + Filter(b, p));
          ([a[0]] + Filter(a[1..], p)) + Filter(b, p);
        }
      } else {
        calc {
          Filter(ab, p);
          Filter(a[1..] + b, p);
          Filter(a[1..], p) + Filter(b, p);
        }
      }
    }
  }

  /** Filtering with a predicate every element satisfies changes nothing. */
  lemma {:induction false} FilterAll<T(!new)>(s: seq<T>, p: T -> bool)
    requires forall i :: 0 <= i < |s| ==> p(s[i])
    ensures Filter(s, p) == s
    decreases |s|
  {
    if |s| > 0 {
      FilterAll(s[1..], p);
    }
  }

  /** `if (c) filtered = filtered.filter(p)`. */
  function FilterIf<T(!new)>(s: seq<T>, c: bool, p: T -> bool): (r: seq<T>)
    ensures forall x :: x in r <==> x in s && (c ==> p(x))
  {
    if c then Filter(s, p) else s
  }

  /** A conditional filter is a filter by "inactive or satisfied". */
  lemma FilterIfIsFilter<T(!new)>(s: seq<T>, c: bool, p: T -> bool, q: T -> bool)
    requires forall x :: q(x) == (!c || p(x))
    ensures FilterIf(s, c, p) == Filter(s, q)
  {
    if c {
      assert forall x :: q(x) == p(x);
      FilterFilter(s, q, q, p);
      FilterSame(s, p, q);
    } else {
      FilterAll(s, q);
    }
  }

  lemma {:induction false} FilterSame<T(!new)>(s: seq<T>, p: T -> bool, q: T -> bool)
    requires forall x :: p(x) == q(x)
    ensures Filter(s, p) == Filter(s, q)
    decreases |s|
  {
    if |s| > 0 {
      FilterSame(s[1..], p, q);
    }
  }

  /** `f` summed over `s` (`reduce((sum, x) => sum + f(x), 0)`, SQL `SUM`). */
  function Sum<T(!new)>(s: seq<T>, f: T -> int): int
  {
    if |s| == 0 then 0 else f(s[0]) + Sum(s[1..], f)
  }

  lemma {:induction false} SumConcat<T(!new)>(a: seq<T>, b: seq<T>, f: T -> int)
    ensures Sum(a + b, f) == Sum(a, f) + Sum(b, f)
    decreases |a|
  {
    if |a| > 0 {
      assert (a + b)[0] == a[0];
      assert (a + b)[1..] == a[1..] + b;
      SumConcat(a[1..], b, f);
    } else {
      assert a + b == b;
    }
  }

  /** A sum of non-negative terms is non-negative. */
  lemma {:induction false} SumNonNegative<T(!new)>(s: seq<T>, f: T -> int)
    requires forall i :: 0 <= i < |s| ==> f(s[i]) >= 0
    ensures Sum(s, f) >= 0
    decreases |s|
  {
    if |s| > 0 {
      SumNonNegative(s[1..], f);
    }
  }

  /** A sum splits into the part where `p` holds and the part where it does not. */
  lemma {:induction false} SumSplit<T(!new)>(s: seq<T>, f: T -> int, p: T -> bool, notP: T -> bool)
    requires forall x :: notP(x) == !p(x)
    ensures Sum(s, f) == Sum(Filter(s, p), f) + Sum(Filter(s, notP), f)
    decreases |s|
  {
    if |s| > 0 {
      SumSplit(s[1..], f, p, notP);
      var hp := if p(s[0]) then [s[0]] else [];
      var hn := if notP(s[0]) then [s[0]] else [];
      assert Filter(s, p) == hp + Filter(s[1..], p);
      assert Filter(s, notP) == hn + Filter(s[1..], notP);
      SumConcat(hp, Filter(s[1..], p), f);
      SumConcat(hn, Filter(s[1..], notP), f);
    }
  }

  /** Summing only over the elements where `p` holds is summing `f` masked by `p`. */
  lemma {:induction false} SumFilterMask<T(!new)>(s: seq<T>, f: T -> int, p: T -> bool, masked: T -> int)
    requires forall x :: masked(x) == (if p(x) then f(x) else 0)
    ensures Sum(Filter(s, p), f) == Sum(s, masked)
    decreases |s|
  {
    if |s| > 0 {
      SumFilterMask(s[1..], f, p, masked);
      var h := if p(s[0]) then [s[0]] else [];
      assert Filter(s, p) == h + Filter(s[1..], p);
      SumConcat(h, Filter(s[1..], p), f);
    }
  }

  /** The first `n` elements of `s`, or all of them when there are fewer (`slice(0, n)`). */
  function Take<T(!new)>(s: seq<T>, n: nat): (r: seq<T>)
    ensures |r| == if |s| < n then |s| else n
    ensures forall i :: 0 <= i < |r| ==> r[i] == s[i]
  {
    if |s| <= n then s else s[..n]
  }

  /** `f` applied to every element (`Array.prototype.map`). */
  function Map<T, U>(s: seq<T>, f: T -> U): (r: seq<U>)
    ensures |r| == |s|
    ensures forall i :: 0 <= i < |s| ==> r[i] == f(s[i])
  {
    seq(|s|, i requires 0 <= i < |s| => f(s[i]))
  }

  /** No two elements of `s` share an `id`. */
  ghost predicate DistinctBy<T, K>(s: seq<T>, id: T -> K)
  {
    forall i, j :: 0 <= i < j < |s| ==> id(s[i]) != id(s[j])
  }

  lemma {:induction false} DistinctOccursOnce<T(!new), K>(s: seq<T>, id: T -> K, x: T)
    requires DistinctBy(s, id)
    ensures multiset(s)[x] <= 1
    decreases |s|
  {
    if |s| > 0 {
      assert s == [s[0]] + s[1..];
      DistinctOccursOnce(s[1..], id, x);
    }
  }

  /** A subsequence of a list with distinct ids has distinct ids. */
  lemma {:induction false} SubseqKeepsDistinct<T(!new), K>(a: seq<T>, b: seq<T>, id: T -> K)
    requires IsSubseq(a, b)
    requires DistinctBy(b, id)
    ensures DistinctBy(a, id)
    decreases |b|
  {
    if |a| > 0 {
      if a[0] == b[0] && IsSubseq(a[1..], b[1..]) {
        SubseqKeepsDistinct(a[1..], b[1..], id);
        SubseqElements(a[1..], b[1..]);
        forall j | 0 < j < |a|
          ensures id(a[0]) != id(a[j])
        {
          assert a[1..][j - 1] in b[1..];
        }
      } else {
        SubseqKeepsDistinct(a, b[1..], id);
      }
    }
  }

  /** A permutation of a list with distinct ids has distinct ids. */
  lemma PermutationKeepsDistinct<T(!new), K>(a: seq<T>, b: seq<T>, id: T -> K)
    requires multiset(a) == multiset(b)
    requires DistinctBy(a, id)
    ensures DistinctBy(b, id)
  {
    forall i, j | 0 <= i < j < |b|
      ensures id(b[i]) != id(b[j])
    {
      if b[i] == b[j] {
        assert b == b[..j] + b[j..];
        assert b[i] in b[..j] && b[j] in b[j..];
        assert multiset(b)[b[i]] == multiset(b[..j])[b[i]] + multiset(b[j..])[b[i]];
        DistinctOccursOnce(a, id, b[i]);
      } else {
        assert b[i] in multiset(a) && b[j] in multiset(a);
        var p :| 0 <= p < |a| && a[p] == b[i];
        var q :| 0 <= q < |a| && a[q] == b[j];
        assert p != q;
      }
    }
  }
}

=== FILE: text.dfy ===
/** String helpers with JavaScript's meaning: `length` in UTF-16 units, `includes`, `trim`-emptiness,
    `Number.prototype.toString` on integers and `padStart`. */
module Text {

  /** `s.length`: JavaScript counts UTF-16 code units, two for a character above U+FFFF. */
  function Utf16Length(s: string): (r: nat)
    ensures |s| <= r <= 2 * |s|
    ensures r == |s| <==> forall i :: 0 <= i < |s| ==> s[i] as int <= 0xFFFF
    decreases |s|
  {
    if |s| == 0 then 0
    else
      var rest := Utf16Length(s[1..]);
      assert forall i :: 1 <= i < |s| ==> s[i] == s[1..][i - 1];
      (if s[0] as int > 0xFFFF then 2 else 1) + rest
  }

  /** `t` occurs in `s` starting at index `i`. */
  predicate OccursAt(s: string, t: string, i: int)
  {
    0 <= i && i + |t| <= |s| && s[i..i + |t|] == t
  }

  lemma OccursShift(s: string, t: string, i: int)
    requires |s| > 0 && i >= 0
    ensures OccursAt(s, t, i + 1) <==> OccursAt(s[1..], t, i)
  {
    if 0 <= i && i + 1 + |t| <= |s| {
      var a, b := s[i + 1..i + 1 + |t|], s[1..][i..i + |t|];
      assert |a| == |b|;
      assert forall k :: 0 <= k < |a| ==> a[k] == s[i + 1 + k] == b[k];
    }
  }

  /** `s.includes(t)`: `t` occurs in `s` as a contiguous block (the empty string occurs everywhere). */
  function Includes(s: string, t: string): (r: bool)
    ensures r <==> exists i :: OccursAt(s, t, i)
    decreases |s|
  {
    if |t| <= |s| && s[..|t|] == t then
      assert OccursAt(s, t, 0);
      true
    else if |s| == 0 then false
    else
      var r := Includes(s[1..], t);
      if r then
        var j :| OccursAt(s[1..], t, j);
        OccursShift(s, t, j);
        r
      else
        forall i | 0 <= i
          ensures !OccursAt(s, t, i)
        {
          if i > 0 {
            OccursShift(s, t, i - 1);
          }
        }
        r
  }

  /** A character `trim` removes: the ECMAScript WhiteSpace and LineTerminator code points. */
  predicate IsSpace(c: char)
  {
    c == ' ' || c == '\t' || c == '\n' || c == '\r' || c == '\U{000B}' || c == '\U{000C}'
    || c == '\U{00A0}' || c == '\U{FEFF}' || c == '\U{1680}' || ('\U{2000}' <= c <= '\U{200A}')
    || c == '\U{2028}' || c == '\U{2029}' || c == '\U{202F}' || c == '\U{205F}' || c == '\U{3000}'
  }

  /** `s.trim()` is the empty string. */
  predicate IsBlank(s: string)
  {
    forall i :: 0 <= i < |s| ==> IsSpace(s[i])
  }

  predicate IsDigit(c: char)
  {
    '0' <= c <= '9'
  }

  predicate AllDigits(s: string)
  {
    forall i :: 0 <= i < |s| ==> IsDigit(s[i])
  }

  function DigitChar(d: int): (c: char)
    requires 0 <= d <= 9
    ensures IsDigit(c) && c as int - '0' as int == d
  {
    ('0' as int + d) as char
  }

  /** The number written by a string of decimal digits. */
  function DigitsValue(s: string): nat
    requires AllDigits(s)
  {
    if |s| == 0 then 0 else DigitsValue(s[..|s| - 1]) * 10 + (s[|s| - 1] as int - '0' as int)
  }

  /** `n.toString()` for a non-negative integer. */
  function NatToString(n: nat): (r: string)
    ensures 1 <= |r|
    ensures AllDigits(r)
    ensures n < 10 <==> |r| == 1
    ensures n < 100 ==> |r| <= 2
    decreases n
  {
    if n < 10 then [DigitChar(n)] else NatToString(n / 10) + [DigitChar(n % 10)]
  }

  /** `n.toString()` for any integer: a minus sign before the digits of a negative number. */
  function IntToString(n: int): (r: string)
    ensures 1 <= |r|
    ensures n >= 0 ==> r == NatToString(n)
    ensures n < 0 ==> r == "-" + NatToString(-n)
  {
    if n < 0 then "-" + NatToString(-n) else NatToString(n)
  }

  /** Reading back the digits that `NatToString` writes gives the number. */
  lemma {:induction false} NatToStringValue(n: nat)
    ensures DigitsValue(NatToString(n)) == n
    decreases n
  {
    var s := NatToString(n);
    if n >= 10 {
      NatToStringValue(n / 10);
      assert s[..|s| - 1] == NatToString(n / 10);
    }
  }

  /** `k` copies of `c`. */
  function Repeat(c: char, k: nat): (r: string)
    ensures |r| == k
    ensures forall i :: 0 <= i < k ==> r[i] == c
  {
    if k == 0 then [] else [c] + Repeat(c, k - 1)
  }

  /** `s.padStart(n, c)`: `c` repeated on the left until `s` is `n` characters long. */
  function PadStart(s: string, n: nat, c: char): (r: string)
    ensures |r| == if |s| < n then n else |s|
    ensures r[|r| - |s|..] == s
    ensures forall i :: 0 <= i < |r| - |s| ==> r[i] == c
  {
    if |s| < n then
      var pad := Repeat(c, n - |s|);
      assert (pad + s)[|pad|..] == s;
      pad + s
    else s
  }

  /** `n.toString().padStart(2, '0')`. */
  function Pad2(n: nat): string
  {
    PadStart(NatToString(n), 2, '0')
  }

  /** Below 100, the padded text is the tens digit followed by the units digit. */
  lemma Pad2Digits(n: nat)
    requires n < 100
    ensures Pad2(n) == [DigitChar(n / 10), DigitChar(n % 10)]
  {
    var s := NatToString(n);
    if n < 10 {
      assert s == [DigitChar(n)];
      assert Repeat('0', 1) == ['0'];
      assert Pad2(n) == ['0'] + s;
    } else {
      assert NatToString(n / 10) == [DigitChar(n / 10)];
      assert s == [DigitChar(n / 10), DigitChar(n % 10)];
    }
  }

  /** Two digits read back as tens and units. */
  lemma TwoDigitsValue(c: string)
    requires |c| == 2 && AllDigits(c)
    ensures DigitsValue(c) == (c[0] as int - '0' as int) * 10 + (c[1] as int - '0' as int)
  {
    assert c[..1][..0] == [] && c[..1][0] == c[0];
    assert DigitsValue(c[..1]) == c[0] as int - '0' as int;
  }

  /** The padded text of a number below 100 reads back as that number. */
  lemma Pad2Value(n: nat)
    requires n < 100
    ensures |Pad2(n)| == 2 && AllDigits(Pad2(n)) && DigitsValue(Pad2(n)) == n
  {
    var hi, lo := n / 10, n % 10;
    var c := [DigitChar(hi), DigitChar(lo)];
    Pad2Digits(n);
    assert Pad2(n) == c;
    assert AllDigits(c) by {
      assert IsDigit(c[0]) && IsDigit(c[1]);
    }
    TwoDigitsValue(c);
    assert c[0] as int - '0' as int == hi && c[1] as int - '0' as int == lo;
    assert hi * 10 + lo == n;
  }
}

=== FILE: transaction_controller.dfy ===
/** `TransactionController`: query dispatch over the repositories and the authenticated user's id
    stamped onto, or scoped into, every write. */
module TransactionController {
  import opened Wrappers
  import opened Kinds
  import opened Ledger
  import Ordering
  import Repositories
  import TransactionService

  /** A query parameter counts only when it is present and not the empty string. */
  predicate Truthy(o: Option<string>)
  {
    o.Some? && o.value != ""
  }

  /** The query string of `GET /transactions`. */
  datatype TransactionQuery = TransactionQuery(startDate: Option<string>, endDate: Option<string>, kind: Option<string>)

  /** `getTransactions`. `asDate` is how `new Date(...)` turns a query date into the value the
      database compares, a library conversion left as a parameter. A type outside the enum makes
      the typed finder fail. */
  function GetTransactions(s: Store, userId: int, q: TransactionQuery, asDate: string -> string): (r: Result<seq<Transaction>>)
    ensures r.Err? <==> !(Truthy(q.startDate) && Truthy(q.endDate)) && Truthy(q.kind) && ParseKind(q.kind.value).None?
    ensures r.Err? ==> r.msg == Repositories.InvalidEnumValue
    ensures r.Ok? ==> Ordering.Sorted(r.value, Repositories.DateKey, Ordering.Desc)
    ensures Truthy(q.startDate) && Truthy(q.endDate) ==>
              && r.Ok?
              && forall t :: multiset(r.value)[t] ==
                   if t.userId == userId && Repositories.InDateRange(t, asDate(q.startDate.value), asDate(q.endDate.value))
                   then multiset(s.transactions)[t] else 0
    ensures !(Truthy(q.startDate) && Truthy(q.endDate)) && Truthy(q.kind) && r.Ok? ==>
              forall t :: multiset(r.value)[t] ==
                if t.userId == userId && KindName(t.kind) == q.kind.value then multiset(s.transactions)[t] else 0
    ensures !(Truthy(q.startDate) && Truthy(q.endDate)) && !Truthy(q.kind) ==>
              r.Ok? && forall t :: multiset(r.value)[t] == if t.userId == userId then multiset(s.transactions)[t] else 0
  {
    if Truthy(q.startDate) && Truthy(q.endDate) then
      Ok(Repositories.FindTransactionsByUserIdAndDateRange(s.transactions, userId, asDate(q.startDate.value), asDate(q.endDate.value)))
    else if Truthy(q.kind) then
      Repositories.FindTransactionsByUserIdAndType(s.transactions, userId, q.kind.value)
    else
      Ok(Repositories.FindTransactionsByUserId(s.transactions, userId))
  }

  /** Only ever the user's own rows come back, whatever the query. */
  lemma GetTransactionsOwnRowsOnly(s: Store, userId: int, q: TransactionQuery, asDate: string -> string, t: Transaction)
    requires GetTransactions(s, userId, q, asDate).Ok?
    requires t in GetTransactions(s, userId, q, asDate).value
    ensures t in s.transactions && t.userId == userId
  {
    assert multiset(GetTransactions(s, userId, q, asDate).value)[t] > 0;
  }

  /** With a full date range the type parameter is ignored. */
  lemma DateRangeIgnoresType(s: Store, userId: int, q: TransactionQuery, asDate: string -> string, kind: Option<string>)
    requires Truthy(q.startDate) && Truthy(q.endDate)
    ensures GetTransactions(s, userId, q, asDate).Ok? && GetTransactions(s, userId, q.(kind := kind), asDate).Ok?
    ensures multiset(GetTransactions(s, userId, q, asDate).value)
         == multiset(GetTransactions(s, userId, q.(kind := kind), asDate).value)
  {
    var a := GetTransactions(s, userId, q, asDate).value;
    var b := GetTransactions(s, userId, q.(kind := kind), asDate).value;
    assert forall t :: multiset(a)[t] == multiset(b)[t];
  }

  /** A create body as JSON sends it: the client may include a `userId` of its own. */
  datatype TransactionBody = TransactionBody(
    userId: Option<int>, categoryId: int, kind: Kind, amount: int, description: string, date: string)

  /** `createTransaction`: the body's `userId` is overwritten with the authenticated user's. */
  function CreateTransaction(s: Store, userId: int, b: TransactionBody): (r: Result<(Store, Transaction)>)
    ensures r.Ok? ==> r.value.1.userId == userId && r.value.0.transactions == s.transactions + [r.value.1]
    ensures (forall c :: c in s.categories ==> !(c.id == b.categoryId && c.userId == userId))
            ==> r == Err(TransactionService.CategoryNotFound)
  {
    TransactionService.CreateTransaction(
      s, TransactionService.NewTransaction(userId, b.categoryId, b.kind, b.amount, b.description, b.date))
  }

  /** Whatever `userId` the client sends has no effect. */
  lemma CreateIgnoresClientUserId(s: Store, userId: int, b: TransactionBody, claimed: Option<int>)
    ensures CreateTransaction(s, userId, b) == CreateTransaction(s, userId, b.(userId := claimed))
  {
  }

  /** `updateTransaction`, scoped to the authenticated user. */
  function UpdateTransaction(s: Store, userId: int, id: int, p: TransactionService.TransactionPatch)
    : (r: Result<(Store, Transaction)>)
    ensures (forall t :: t in s.transactions && t.id == id ==> t.userId != userId)
            ==> r == Err(TransactionService.TransactionNotFound)
  {
    TransactionService.UpdateTransaction(s, id, userId, p)
  }

  /** Scoping: with unique ids, an update never touches a row of another user. */
  lemma UpdateLeavesOtherUsersAlone(s: Store, userId: int, id: int, p: TransactionService.TransactionPatch, i: int)
    requires UniqueIds(s)
    requires UpdateTransaction(s, userId, id, p).Ok?
    requires 0 <= i < |s.transactions| && s.transactions[i].userId != userId
    ensures UpdateTransaction(s, userId, id, p).value.0.transactions[i] == s.transactions[i]
  {
    var t :| t in s.transactions && t.id == id && t.userId == userId;
    if s.transactions[i].id == id {
      TransactionIdDetermines(s, s.transactions[i], t);
      assert false;
    }
  }

  /** The reply of `DELETE /transactions/:id`. */
  datatype DeleteReply = DeleteReply(success: bool)

  /** `deleteTransaction`: scoped to the user; on success it answers `{ success: true }`. */
  function DeleteTransaction(s: Store, userId: int, id: int): (r: Result<(Store, DeleteReply)>)
    ensures r.Ok? <==> exists t :: t in s.transactions && t.id == id && t.userId == userId
    ensures r.Ok? ==> r.value.1 == DeleteReply(true)
    ensures r.Err? ==> r.msg == TransactionService.TransactionNotFound
  {
    match TransactionService.DeleteTransaction(s, id, userId)
    case Err(m) => Err(m)
    case Ok(s') => Ok((s', DeleteReply(true)))
  }

  /** Scoping: with unique ids, a delete keeps every row of another user. */
  lemma DeleteKeepsOtherUsersRows(s: Store, userId: int, id: int, x: Transaction)
    requires UniqueIds(s)
    requires DeleteTransaction(s, userId, id).Ok?
    requires x in s.transactions && x.userId != userId
    ensures x in DeleteTransaction(s, userId, id).value.0.transactions
  {
    var t :| t in s.transactions && t.id == id && t.userId == userId;
    if x.id == id {
      TransactionIdDetermines(s, x, t);
      assert false;
    }
    assert multiset(DeleteTransaction(s, userId, id).value.0.transactions)[x] == multiset(s.transactions)[x];
  }
}

=== FILE: transaction_service.dfy ===
/** `TransactionService`: the guarded create, update and delete of transactions. Every
    operation returns the new store or the error message the service throws. */
module TransactionService {
  import opened Wrappers
  import opened Kinds
  import opened Ledger
  import Seqs

  /** A create request after the controller stamped the owner: every column but the id. */
  datatype NewTransaction = NewTransaction(
    userId: int, categoryId: int, kind: Kind, amount: int, description: string, date: string)

  /** The fields an update request may carry; an absent field is left as it is. */
  datatype TransactionPatch = TransactionPatch(
    userId: Option<int>, categoryId: Option<int>, kind: Option<Kind>,
    amount: Option<int>, description: Option<string>, date: Option<string>)

  const CategoryNotFound: string := "Kategori bulunamadı"
  const TransactionNotFound: string := "İşlem bulunamadı"

  /** Stands for the database error `update` throws when the written `categoryId` names no
      category: `@ManyToOne` with `@JoinColumn({ name: 'categoryId' })` makes the column a foreign
      key on PostgreSQL. The driver's full message, with the generated constraint name, is not
      modelled. */
  const ForeignKeyViolation: string := "violates foreign key constraint"

  function KindMismatch(k: Kind): string
  {
    "Bu kategori " + KindName(k) + " türünde bir işlem için kullanılamaz"
  }

  /** The row `save` writes for a create request, under the generated id. */
  function Saved(d: NewTransaction, id: int): Transaction
  {
    Transaction(id, d.userId, d.categoryId, d.kind, d.amount, d.description, d.date)
  }

  /** `createTransaction`: the category must exist for the same user and have the same type. */
  function CreateTransaction(s: Store, d: NewTransaction): (r: Result<(Store, Transaction)>)
    ensures (forall c :: c in s.categories ==> !(c.id == d.categoryId && c.userId == d.userId))
            <==> r == Err(CategoryNotFound)
    ensures r.Ok? ==> exists c :: c in s.categories && c.id == d.categoryId && c.userId == d.userId && c.kind == d.kind
    ensures UniqueIds(s) ==>
              ((exists c :: c in s.categories && c.id == d.categoryId && c.userId == d.userId && c.kind != d.kind)
               <==> r == Err(KindMismatch(d.kind)))
    ensures UniqueIds(s) && (exists c :: c in s.categories && c.id == d.categoryId && c.userId == d.userId && c.kind == d.kind)
            ==> r.Ok?
    ensures r.Ok? ==>
              && r.value.1 == Saved(d, s.nextTransactionId)
              && r.value.0 == s.(transactions := s.transactions + [r.value.1],
                                 nextTransactionId := s.nextTransactionId + 1)
  {
    match FindCategory(s.categories, d.categoryId, d.userId)
    case None => Err(CategoryNotFound)
    case Some(c) =>
      if c.kind != d.kind then
        Err(KindMismatch(d.kind))
      else
        var t := Saved(d, s.nextTransactionId);
        Ok((s.(transactions := s.transactions + [t], nextTransactionId := s.nextTransactionId + 1), t))
  }

  /** The stored row after `update(id, data)`: present fields overwrite, absent ones stay. */
  function Patched(t: Transaction, p: TransactionPatch): Transaction
  {
    Transaction(t.id, p.userId.GetOr(t.userId), p.categoryId.GetOr(t.categoryId), p.kind.GetOr(t.kind),
                p.amount.GetOr(t.amount), p.description.GetOr(t.description), p.date.GetOr(t.date))
  }

  /** `update(id, data)` applies the patch to the row with that primary key. */
  function UpdateRows(txns: seq<Transaction>, id: int, p: TransactionPatch): (r: seq<Transaction>)
    ensures |r| == |txns|
    ensures forall i :: 0 <= i < |txns| ==> r[i] == if txns[i].id == id then Patched(txns[i], p) else txns[i]
  {
    Seqs.Map(txns, (x: Transaction) => if x.id == id then Patched(x, p) else x)
  }

  /** The category re-check guard of `updateTransaction`: a category id is given, is truthy (not 0) and differs from the stored one. */
  predicate RechecksCategory(t: Transaction, p: TransactionPatch)
  {
    p.categoryId.Some? && p.categoryId.value != 0 && p.categoryId.value != t.categoryId
  }

  /** The foreign key refuses the write: the patch changes `categoryId` to an id no category
      row has (of any user). PostgreSQL checks the key only when its value changes. */
  predicate BreaksForeignKey(s: Store, t: Transaction, p: TransactionPatch)
  {
    p.categoryId.Some? && p.categoryId.value != t.categoryId
    && forall c :: c in s.categories ==> c.id != p.categoryId.value
  }

  /** The request body names no column: `{}`. */
  predicate NoValues(p: TransactionPatch)
  {
    p.userId.None? && p.categoryId.None? && p.kind.None? && p.amount.None? && p.description.None? && p.date.None?
  }

  /** `updateTransaction`: the owner lookup and the category re-check, then `update(id, data)`,
      which refuses an empty body and which the foreign key on `categoryId` may refuse. */
  function UpdateTransaction(s: Store, id: int, userId: int, p: TransactionPatch): (r: Result<(Store, Transaction)>)
    ensures (forall t :: t in s.transactions ==> !(t.id == id && t.userId == userId)) <==> r == Err(TransactionNotFound)
    ensures r.Ok? ==>
              && r.value.0 == s.(transactions := UpdateRows(s.transactions, id, p))
              && exists t :: t in s.transactions && t.id == id && t.userId == userId && r.value.1 == Patched(t, p)
                   && !NoValues(p) && !BreaksForeignKey(s, t, p)
                   && (RechecksCategory(t, p) ==>
                         exists c :: c in s.categories && c.id == p.categoryId.value && c.userId == userId
                                     && c.kind == p.kind.GetOr(t.kind))
    ensures NoValues(p) && (exists t :: t in s.transactions && t.id == id && t.userId == userId) ==>
              r == Err(UpdateValuesMissing)
    ensures UniqueIds(s) ==> forall t :: t in s.transactions && t.id == id && t.userId == userId ==>
              && (!RechecksCategory(t, p) ==> (r.Ok? <==> !NoValues(p) && !BreaksForeignKey(s, t, p)))
              && (!RechecksCategory(t, p) && BreaksForeignKey(s, t, p) ==> r == Err(ForeignKeyViolation))
              && (RechecksCategory(t, p) &&
                  (forall c :: c in s.categories ==> !(c.id == p.categoryId.value && c.userId == userId))
                  ==> r == Err(CategoryNotFound))
              && (RechecksCategory(t, p) &&
                  (exists c :: c in s.categories && c.id == p.categoryId.value && c.userId == userId
                               && c.kind != p.kind.GetOr(t.kind))
                  ==> r == Err(KindMismatch(p.kind.GetOr(t.kind))))
              && (RechecksCategory(t, p) &&
                  (exists c :: c in s.categories && c.id == p.categoryId.value && c.userId == userId
                               && c.kind == p.kind.GetOr(t.kind))
                  ==> r.Ok?)
  {
    match FindTransaction(s.transactions, id, userId)
    case None => Err(TransactionNotFound)
    case Some(t) =>
      OnlyTransactionWithId(s, t);
      var written :=
        if NoValues(p) then Err(UpdateValuesMissing)
        else if BreaksForeignKey(s, t, p) then Err(ForeignKeyViolation)
        else Ok((s.(transactions := UpdateRows(s.transactions, id, p)), Patched(t, p)));
      if RechecksCategory(t, p) then
        match FindCategory(s.categories, p.categoryId.value, userId)
        case None => Err(CategoryNotFound)
        case Some(c) =>
          OnlyCategoryWithId(s, c);
          var k := p.kind.GetOr(t.kind);
          if c.kind != k then Err(KindMismatch(k)) else written
      else
        written
  }

  /** `deleteTransaction`: `remove` deletes the row with the found transaction's primary key. */
  function DeleteTransaction(s: Store, id: int, userId: int): (r: Result<Store>)
    ensures (forall t :: t in s.transactions ==> !(t.id == id && t.userId == userId)) <==> r.Err?
    ensures r.Err? ==> r.msg == TransactionNotFound
    ensures r.Ok? ==>
              && r.value.categories == s.categories
              && r.value.nextCategoryId == s.nextCategoryId
              && r.value.nextTransactionId == s.nextTransactionId
              && Seqs.IsSubseq(r.value.transactions, s.transactions)
              && forall x :: multiset(r.value.transactions)[x] == if x.id == id then 0 else multiset(s.transactions)[x]
  {
    match FindTransaction(s.transactions, id, userId)
    case None => Err(TransactionNotFound)
    case Some(t) =>
      var kept := Seqs.Filter(s.transactions, (x: Transaction) => x.id != t.id);
      Seqs.FilterIsSubseq(s.transactions, (x: Transaction) => x.id != t.id);
      Seqs.FilterCount(s.transactions, (x: Transaction) => x.id != t.id);
      Ok(s.(transactions := kept))
  }

  /** A successful create keeps the store consistent. */
  lemma CreatePreservesConsistency(s: Store, d: NewTransaction)
    requires Consistent(s)
    requires CreateTransaction(s, d).Ok?
    ensures Consistent(CreateTransaction(s, d).value.0)
  {
    var c :| c in s.categories && c.id == d.categoryId && c.userId == d.userId && c.kind == d.kind;
    AppendTransaction(s, Saved(d, s.nextTransactionId), c);
  }

  /** Appending a transaction with the next id whose category exists with its type keeps the
      store consistent. */
  lemma AppendTransaction(s: Store, t: Transaction, c: Category)
    requires Consistent(s) && t.id == s.nextTransactionId
    requires c in s.categories && c.id == t.categoryId && c.kind == t.kind
    ensures Consistent(s.(transactions := s.transactions + [t], nextTransactionId := s.nextTransactionId + 1))
  {
    var s' := s.(transactions := s.transactions + [t], nextTransactionId := s.nextTransactionId + 1);
    assert forall x :: x in s'.transactions <==> x in s.transactions || x == t;
    forall t', c' | t' in s'.transactions && c' in s'.categories && c'.id == t'.categoryId
      ensures t'.kind == c'.kind
    {
      if t' == t {
        CategoryIdDetermines(s, c, c');
      }
    }
    forall i, j | 0 <= i < j < |s'.transactions|
      ensures s'.transactions[i].id != s'.transactions[j].id
    {
      if j == |s.transactions| {
        assert s'.transactions[i] in s.transactions;
      }
    }
  }

  /** Gap: an update that changes only the type is applied without a category check, so it
      breaks the type agreement of a consistent store. */
  lemma KindOnlyUpdateBreaksAgreement(s: Store, t: Transaction, k: Kind)
    requires Consistent(s)
    requires t in s.transactions && k != t.kind
    ensures var r := UpdateTransaction(s, t.id, t.userId, TransactionPatch(None, None, Some(k), None, None, None));
            r.Ok? && !KindsAgree(r.value.0)
  {
    var p := TransactionPatch(None, None, Some(k), None, None, None);
    var r := UpdateTransaction(s, t.id, t.userId, p);
    assert !RechecksCategory(t, p);
    var i :| 0 <= i < |s.transactions| && s.transactions[i] == t;
    var t' := r.value.0.transactions[i];
    assert t' == Patched(t, p) && t'.kind == k;
    var c :| c in s.categories && c.id == t.categoryId;
    assert t' in r.value.0.transactions && c in r.value.0.categories && c.id == t'.categoryId && t'.kind != c.kind;
  }

  /** Category id 0 is falsy, so it skips the category re-check; on a consistent store no category
      has id 0, so the foreign key refuses the write and the update fails. */
  lemma ZeroCategoryUpdateRefused(s: Store, t: Transaction)
    requires Consistent(s)
    requires t in s.transactions
    ensures UpdateTransaction(s, t.id, t.userId, TransactionPatch(None, Some(0), None, None, None, None))
            == Err(ForeignKeyViolation)
  {
    var p := TransactionPatch(None, Some(0), None, None, None, None);
    assert !RechecksCategory(t, p);
    var c :| c in s.categories && c.id == t.categoryId;
    assert t.categoryId != 0;
  }

  /** A successful update keeps the store consistent when it leaves the type alone or moves the
      transaction to another (truthy) category, which is then re-checked. A category id that
      skips the re-check (0, or the stored one) gets past the foreign key only if it names an
      existing category. */
  lemma UpdatePreservesConsistency(s: Store, id: int, userId: int, p: TransactionPatch)
    requires Consistent(s)
    requires UpdateTransaction(s, id, userId, p).Ok?
    requires forall t :: t in s.transactions && t.id == id ==>
               p.kind.None? || p.kind == Some(t.kind) || RechecksCategory(t, p)
    ensures Consistent(UpdateTransaction(s, id, userId, p).value.0)
  {
    var s' := UpdateTransaction(s, id, userId, p).value.0;
    var t :| t in s.transactions && t.id == id && t.userId == userId
             && !BreaksForeignKey(s, t, p)
             && (RechecksCategory(t, p) ==>
                   exists c :: c in s.categories && c.id == p.categoryId.value && c.userId == userId
                               && c.kind == p.kind.GetOr(t.kind));
    PatchedStoreConsistent(s, t, p);
  }

  lemma PatchedStoreConsistent(s: Store, t: Transaction, p: TransactionPatch)
    requires Consistent(s)
    requires t in s.transactions
    requires !BreaksForeignKey(s, t, p)
    requires p.kind.None? || p.kind == Some(t.kind) || RechecksCategory(t, p)
    requires RechecksCategory(t, p) ==>
               exists c :: c in s.categories && c.id == p.categoryId.value && c.kind == p.kind.GetOr(t.kind)
    ensures Consistent(s.(transactions := UpdateRows(s.transactions, t.id, p)))
  {
    var s' := s.(transactions := UpdateRows(s.transactions, t.id, p));
    forall i | 0 <= i < |s.transactions|
      ensures s'.transactions[i] == if s.transactions[i].id == t.id then Patched(t, p) else s.transactions[i]
      ensures s'.transactions[i].id == s.transactions[i].id
    {
      if s.transactions[i].id == t.id {
        TransactionIdDetermines(s, s.transactions[i], t);
      }
    }
    forall x | x in s'.transactions
      ensures 1 <= x.id < s'.nextTransactionId
      ensures exists c :: c in s'.categories && c.id == x.categoryId
      ensures forall c :: c in s'.categories && c.id == x.categoryId ==> x.kind == c.kind
    {
      var i :| 0 <= i < |s'.transactions| && s'.transactions[i] == x;
      var o := s.transactions[i];
      assert o in s.transactions;
      if o.id == t.id && RechecksCategory(t, p) {
        var c :| c in s.categories && c.id == p.categoryId.value && c.kind == p.kind.GetOr(t.kind);
        forall c' | c' in s'.categories && c'.id == x.categoryId
          ensures x.kind == c'.kind
        {
          CategoryIdDetermines(s, c, c');
        }
      }
    }
  }

  /** Deleting a transaction keeps the store consistent. */
  lemma DeletePreservesConsistency(s: Store, id: int, userId: int)
    requires Consistent(s)
    requires DeleteTransaction(s, id, userId).Ok?
    ensures Consistent(DeleteTransaction(s, id, userId).value)
  {
    var s' := DeleteTransaction(s, id, userId).value;
    assert s' == s.(transactions := s'.transactions);
    DropTransactions(s, s'.transactions);
  }

  /** Keeping any subsequence of the transactions keeps the store consistent. */
  lemma DropTransactions(s: Store, kept: seq<Transaction>)
    requires Consistent(s) && Seqs.IsSubseq(kept, s.transactions)
    ensures Consistent(s.(transactions := kept))
  {
    Seqs.SubseqElements(kept, s.transactions);
    Seqs.SubseqKeepsDistinct(kept, s.transactions, (t: Transaction) => t.id);
  }

}

=== FILE: transactions_new_page.dfy ===
/** The stand-alone add-transaction page: one "fill in every field" check, the sign taken from the
    selected category, and the category list reloaded for the chosen type. */
module TransactionsNewPage {
  import opened Wrappers
  import opened Kinds
  import opened Client
  import Seqs

  /** The form: every field is the raw text of its input; `date` is `YYYY-MM-DD` text. */
  datatype Form = Form(kind: Kind, amount: string, categoryId: string, description: string, date: string)

  /** The body sent to `addTransaction`. */
  datatype Payload = Payload(description: string, amount: Number, categoryId: Number, date: string)

  datatype Outcome = FillAllFields | Submitted(payload: Payload)

  const FillAllFieldsMessage := "Lütfen tüm alanları doldurun"

  /** `categories.find(c => c.id === parseInt(categoryId))`: `NaN` equals no id. */
  function Selected(cats: seq<Category>, id: Number): (r: Option<Category>)
    ensures id.NaN? ==> r.None?
    ensures id.Num? ==> r == FindCategory(cats, id.v)
  {
    match id
    case NaN => None
    case Num(v) => FindCategory(cats, v)
  }

  /** Negative exactly when the selected category is an expense category. */
  function SignedAmount(selected: Option<Category>, a: Number): (r: Number)
    ensures a.NaN? <==> r.NaN?
    ensures r.Num? ==> Abs(r.v) == Abs(a.v)
    ensures r.Num? && selected.Some? && selected.value.kind == Expense ==> r.v <= 0
    ensures r.Num? && !(selected.Some? && selected.value.kind == Expense) ==> r.v >= 0
  {
    match a
    case NaN => NaN
    case Num(v) =>
      if selected.Some? && selected.value.kind == Expense then Num(-Abs(v)) else Num(Abs(v))
  }

  /** `handleSubmit`; `parseFloat` and `parseInt` are the library parses. */
  function HandleSubmit(form: Form, cats: seq<Category>,
                        parseFloat: string -> Number, parseInt: string -> Number): (r: Outcome)
    ensures r == FillAllFields <==>
              form.amount == "" || form.categoryId == "" || form.description == "" || form.date == ""
    ensures r.Submitted? ==>
              && r.payload.description == form.description && r.payload.date == form.date
              && r.payload.categoryId == parseInt(form.categoryId)
              && r.payload.amount == SignedAmount(Selected(cats, parseInt(form.categoryId)), parseFloat(form.amount))
  {
    if form.amount == "" || form.categoryId == "" || form.description == "" || form.date == "" then
      FillAllFields
    else
      var id := parseInt(form.categoryId);
      Submitted(Payload(form.description, SignedAmount(Selected(cats, id), parseFloat(form.amount)), id, form.date))
  }

  /** With the categories loaded for the form's type, a found category makes the sign follow the
      form's type. */
  lemma SignFollowsTypeWhenFound(form: Form, all: seq<Category>,
                                 parseFloat: string -> Number, parseInt: string -> Number)
    requires HandleSubmit(form, CategoriesOfKind(all, form.kind), parseFloat, parseInt).Submitted?
    requires Selected(CategoriesOfKind(all, form.kind), parseInt(form.categoryId)).Some?
    requires parseFloat(form.amount).Num?
    ensures var a := HandleSubmit(form, CategoriesOfKind(all, form.kind), parseFloat, parseInt).payload.amount;
            a.Num? && (form.kind == Expense ==> a.v <= 0) && (form.kind == Income ==> a.v >= 0)
  {
    var c := Selected(CategoriesOfKind(all, form.kind), parseInt(form.categoryId)).value;
    assert c in CategoriesOfKind(all, form.kind);
  }

  /** Gap: an id no loaded category has is still submitted, and with a non-negative amount even
      on the expense type. */
  lemma UnknownCategoryGivesPositive(form: Form, cats: seq<Category>,
                                     parseFloat: string -> Number, parseInt: string -> Number)
    requires form.amount != "" && form.categoryId != "" && form.description != "" && form.date != ""
    requires Selected(cats, parseInt(form.categoryId)).None?
    requires parseFloat(form.amount).Num?
    ensures var r := HandleSubmit(form, cats, parseFloat, parseInt);
            r.Submitted? && r.payload.amount == Num(Abs(parseFloat(form.amount).v))
  {
  }

  /** Choosing a type clears the selected category. */
  function ChangeType(form: Form, k: Kind): (r: Form)
    ensures r.kind == k && r.categoryId == ""
    ensures r.amount == form.amount && r.description == form.description && r.date == form.date
  {
    form.(kind := k, categoryId := "")
  }

  /** Right after a type change the form cannot be submitted: the category is missing. */
  lemma ChangeTypeBlocksSubmit(form: Form, k: Kind, cats: seq<Category>,
                               parseFloat: string -> Number, parseInt: string -> Number)
    ensures HandleSubmit(ChangeType(form, k), cats, parseFloat, parseInt) == FillAllFields
  {
  }
}

=== FILE: transactions_page.dfy ===
/** The transactions page: the client-side filter chain of `handleFilter`, the column sort of
    `sortData`, the `handleSort` toggle, the totals and the removal after a delete. */
module TransactionsPage {
  import opened Wrappers
  import opened Kinds
  import opened Client
  import Seqs
  import Ordering
  import Text

  const DayMs: int := 86400000

  /** `setHours(23, 59, 59, 999)`: the last millisecond of the day holding `d`. */
  function EndOfDay(d: int): (r: int)
    ensures d <= r < d + DayMs
    ensures (r + 1) % DayMs == 0
  {
    d - d % DayMs + DayMs - 1
  }

  /** The page's filter state. Dates are instants; a Date object is truthy whatever its value. */
  datatype Filters = Filters(startDate: Option<int>, endDate: Option<int>, categoryId: Option<int>,
                             kind: Option<Kind>, description: string)

  /** `if (filters.categoryId)`: an id of 0 is falsy and filters nothing. */
  predicate CategoryFilterActive(f: Filters)
  {
    f.categoryId.Some? && f.categoryId.value != 0
  }

  predicate StartOk(f: Filters, t: Transaction)
  {
    f.startDate.Some? ==> t.at >= f.startDate.value
  }

  predicate EndOk(f: Filters, t: Transaction)
  {
    f.endDate.Some? ==> t.at <= EndOfDay(f.endDate.value)
  }

  predicate CategoryOk(f: Filters, t: Transaction)
  {
    CategoryFilterActive(f) ==> t.categoryId == f.categoryId.value
  }

  predicate KindOk(cats: seq<Category>, f: Filters, t: Transaction)
  {
    f.kind.Some? ==> CategoryKindIs(cats, t.categoryId, f.kind.value)
  }

  /** `toLowerCase().includes(...)`. `lower` is `String.prototype.toLowerCase`, whose Unicode
      case mapping (Turkish letters included) is a library call left as a parameter. */
  predicate DescriptionOk(lower: string -> string, f: Filters, t: Transaction)
  {
    f.description != "" ==> Text.Includes(lower(t.description), lower(f.description))
  }

  /** All active filters at once. */
  predicate Admits(cats: seq<Category>, lower: string -> string, f: Filters, t: Transaction)
  {
    StartOk(f, t) && EndOk(f, t) && CategoryOk(f, t) && KindOk(cats, f, t) && DescriptionOk(lower, f, t)
  }

  /** The filter steps of `handleFilter`, in the order it applies them. */
  function FilterChain(txns: seq<Transaction>, cats: seq<Category>, lower: string -> string, f: Filters): seq<Transaction>
  {
    var a := Seqs.FilterIf(txns, f.startDate.Some?, (t: Transaction) => StartOk(f, t));
    var b := Seqs.FilterIf(a, f.endDate.Some?, (t: Transaction) => EndOk(f, t));
    var c := Seqs.FilterIf(b, CategoryFilterActive(f), (t: Transaction) => CategoryOk(f, t));
    var d := Seqs.FilterIf(c, f.kind.Some?, (t: Transaction) => KindOk(cats, f, t));
    Seqs.FilterIf(d, f.description != "", (t: Transaction) => DescriptionOk(lower, f, t))
  }

  /** The chain is one filter by the conjunction of the active conditions. */
  lemma FilterChainIsConjunction(txns: seq<Transaction>, cats: seq<Category>, lower: string -> string, f: Filters)
    ensures FilterChain(txns, cats, lower, f) == Seqs.Filter(txns, (t: Transaction) => Admits(cats, lower, f, t))
  {
    var p1 := (t: Transaction) => StartOk(f, t);
    var p2 := (t: Transaction) => EndOk(f, t);
    var p3 := (t: Transaction) => CategoryOk(f, t);
    var p4 := (t: Transaction) => KindOk(cats, f, t);
    var p5 := (t: Transaction) => DescriptionOk(lower, f, t);
    var q2 := (t: Transaction) => StartOk(f, t) && EndOk(f, t);
    var q3 := (t: Transaction) => q2(t) && CategoryOk(f, t);
    var q4 := (t: Transaction) => q3(t) && KindOk(cats, f, t);
    var q5 := (t: Transaction) => Admits(cats, lower, f, t);
    var a := Seqs.FilterIf(txns, f.startDate.Some?, p1);
    Seqs.FilterIfIsFilter(txns, f.startDate.Some?, p1, p1);
    var b := Seqs.FilterIf(a, f.endDate.Some?, p2);
    Seqs.FilterIfIsFilter(a, f.endDate.Some?, p2, p2);
    Seqs.FilterFilter(txns, p1, p2, q2);
    var c := Seqs.FilterIf(b, CategoryFilterActive(f), p3);
    Seqs.FilterIfIsFilter(b, CategoryFilterActive(f), p3, p3);
    Seqs.FilterFilter(txns, q2, p3, q3);
    var d := Seqs.FilterIf(c, f.kind.Some?, p4);
    Seqs.FilterIfIsFilter(c, f.kind.Some?, p4, p4);
    Seqs.FilterFilter(txns, q3, p4, q4);
    Seqs.FilterIfIsFilter(d, f.description != "", p5, p5);
    Seqs.FilterFilter(txns, q4, p5, q5);
  }

  /** The filtered list, before sorting, is a subsequence of the loaded list whose elements
      satisfy every active filter, and it keeps every loaded element that does. */
  lemma FilterChainMeaning(txns: seq<Transaction>, cats: seq<Category>, lower: string -> string, f: Filters)
    ensures Seqs.IsSubseq(FilterChain(txns, cats, lower, f), txns)
    ensures forall t :: t in FilterChain(txns, cats, lower, f) <==> t in txns && Admits(cats, lower, f, t)
  {
    FilterChainIsConjunction(txns, cats, lower, f);
    Seqs.FilterIsSubseq(txns, (t: Transaction) => Admits(cats, lower, f, t));
  }

  /** The end date covers its whole day: anything up to 23:59:59.999 of that day passes. */
  lemma EndDateIncludesWholeDay(f: Filters, t: Transaction)
    requires f.endDate.Some?
    requires t.at - t.at % DayMs == f.endDate.value - f.endDate.value % DayMs
    ensures EndOk(f, t)
  {
  }

  /** A type filter drops every transaction whose category is not loaded. */
  lemma KindFilterDropsUnknownCategory(txns: seq<Transaction>, cats: seq<Category>, lower: string -> string, f: Filters, t: Transaction)
    requires f.kind.Some?
    requires forall c :: c in cats ==> c.id != t.categoryId
    ensures t !in FilterChain(txns, cats, lower, f)
  {
    FilterChainMeaning(txns, cats, lower, f);
  }

  /** The description filter sees a description only through `toLowerCase`: two descriptions that
      lower-case alike are kept or dropped together. */
  lemma DescriptionFilterIgnoresCase(lower: string -> string, f: Filters, t: Transaction, u: Transaction)
    requires f.description != "" && lower(t.description) == lower(u.description)
    ensures DescriptionOk(lower, f, t) <==> DescriptionOk(lower, f, u)
  {
  }

  /** The state the "clear filters" button sets. */
  const ClearedFilters: Filters := Filters(None, None, None, None, "")

  /** With the filters cleared, the chain keeps every loaded transaction in order. */
  lemma ClearedFiltersKeepAll(txns: seq<Transaction>, cats: seq<Category>, lower: string -> string)
    ensures FilterChain(txns, cats, lower, ClearedFilters) == txns
  {
  }

  /** The sortable columns of the table. */
  datatype Column = Date | Description | CategoryName | Amount

  /** The value `sortData` compares for a column. */
  function SortKey(cats: seq<Category>, col: Column): Transaction -> Ordering.Key
  {
    (t: Transaction) =>
      match col
      case Date => Ordering.Num(t.at)
      case Description => Ordering.Text(t.description)
      case CategoryName => Ordering.Text(match FindCategory(cats, t.categoryId) case Some(c) => c.name case None => "")
      case Amount => Ordering.Num(Abs(t.amount))
  }

  /** `sortData`: unchanged without a column, else a stable sort by the column's value. */
  function SortData(data: seq<Transaction>, cats: seq<Category>, col: Option<Column>, dir: Ordering.Direction)
    : (r: seq<Transaction>)
    ensures col.None? ==> r == data
    ensures multiset(r) == multiset(data)
    ensures col.Some? ==> Ordering.Sorted(r, SortKey(cats, col.value), dir)
  {
    if col.None? then data
    else
      Ordering.SortBySorted(data, SortKey(cats, col.value), dir);
      Ordering.SortBy(data, SortKey(cats, col.value), dir)
  }

  /** Rows with equal values keep their loaded order. */
  lemma SortDataStable(data: seq<Transaction>, cats: seq<Category>, col: Column, dir: Ordering.Direction, k: Ordering.Key)
    ensures Ordering.WithKey(SortData(data, cats, Some(col), dir), SortKey(cats, col), k)
         == Ordering.WithKey(data, SortKey(cats, col), k)
  {
    Ordering.SortByStable(data, SortKey(cats, col), dir, k);
  }

  /** The sort state: initially the date column, descending. */
  datatype SortState = SortState(column: Option<Column>, direction: Ordering.Direction)

  const InitialSort: SortState := SortState(Some(Date), Ordering.Desc)

  /** `handleSort(column)`: the same column flips the direction, another column starts descending. */
  function HandleSort(s: SortState, col: Column): (r: SortState)
    ensures r.column == Some(col)
  {
    if s.column == Some(col) then s.(direction := Ordering.Flip(s.direction))
    else SortState(Some(col), Ordering.Desc)
  }

  /** Clicking the current column twice restores the state. */
  lemma HandleSortTwiceRestores(s: SortState, col: Column)
    requires s.column == Some(col)
    ensures HandleSort(HandleSort(s, col), col) == s
    ensures HandleSort(s, col).direction != s.direction
  {
    match s.direction
    case Asc =>
    case Desc =>
  }

  /** A newly chosen column sorts descending, and a second click on it makes it ascending. */
  lemma HandleSortNewColumn(s: SortState, col: Column)
    requires s.column != Some(col)
    ensures HandleSort(s, col).direction == Ordering.Desc
    ensures HandleSort(HandleSort(s, col), col).direction == Ordering.Asc
  {
  }

  /** `handleFilter`: the filter chain, then `sortData` with the current sort state. */
  function HandleFilter(txns: seq<Transaction>, cats: seq<Category>, lower: string -> string, f: Filters, s: SortState): (r: seq<Transaction>)
    ensures multiset(r) == multiset(FilterChain(txns, cats, lower, f))
    ensures forall t :: t in r <==> t in txns && Admits(cats, lower, f, t)
    ensures s.column.Some? ==> Ordering.Sorted(r, SortKey(cats, s.column.value), s.direction)
  {
    var c := FilterChain(txns, cats, lower, f);
    FilterChainMeaning(txns, cats, lower, f);
    var r := SortData(c, cats, s.column, s.direction);
    assert forall t :: (t in r <==> t in multiset(r)) && (t in c <==> t in multiset(c));
    r
  }

  function AbsAmount(t: Transaction): int
  {
    Abs(t.amount)
  }

  /** `totalIncome` or `totalExpense`: |amount| summed over the shown transactions whose looked-up
      category has the type. */
  function Total(shown: seq<Transaction>, cats: seq<Category>, k: Kind): (r: int)
    ensures r >= 0
  {
    var of := Seqs.Filter(shown, (t: Transaction) => CategoryKindIs(cats, t.categoryId, k));
    Seqs.SumNonNegative(of, AbsAmount);
    Seqs.Sum(of, AbsAmount)
  }

  /** `balance = totalIncome - totalExpense`. */
  function Balance(shown: seq<Transaction>, cats: seq<Category>): (r: int)
    ensures r <= Total(shown, cats, Income) && -Total(shown, cats, Expense) <= r
  {
    Total(shown, cats, Income) - Total(shown, cats, Expense)
  }

  /** The two totals together cover exactly the shown transactions whose category is loaded. */
  lemma TotalsCoverKnownCategories(shown: seq<Transaction>, cats: seq<Category>)
    ensures Total(shown, cats, Income) + Total(shown, cats, Expense)
         == Seqs.Sum(Seqs.Filter(shown, (t: Transaction) => FindCategory(cats, t.categoryId).Some?), AbsAmount)
  {
    var known := (t: Transaction) => FindCategory(cats, t.categoryId).Some?;
    var inc := (t: Transaction) => CategoryKindIs(cats, t.categoryId, Income);
    var notInc := (t: Transaction) => !CategoryKindIs(cats, t.categoryId, Income);
    var exp := (t: Transaction) => CategoryKindIs(cats, t.categoryId, Expense);
    var ks := Seqs.Filter(shown, known);
    Seqs.SumSplit(ks, AbsAmount, inc, notInc);
    Seqs.FilterFilter(shown, known, inc, inc);
    Seqs.FilterFilter(shown, known, notInc, exp);
  }

  /** After a delete, both lists lose exactly the rows with that id and keep the rest in order. */
  function DeleteFromLists(all: seq<Transaction>, shown: seq<Transaction>, id: int)
    : (r: (seq<Transaction>, seq<Transaction>))
    ensures forall t :: t in r.0 <==> t in all && t.id != id
    ensures forall t :: t in r.1 <==> t in shown && t.id != id
    ensures Seqs.IsSubseq(r.0, all) && Seqs.IsSubseq(r.1, shown)
    ensures forall t: Transaction :: t.id != id ==> multiset(r.0)[t] == multiset(all)[t] && multiset(r.1)[t] == multiset(shown)[t]
  {
    var p := (t: Transaction) => t.id != id;
    Seqs.FilterIsSubseq(all, p);
    Seqs.FilterIsSubseq(shown, p);
    Seqs.FilterCount(all, p);
    Seqs.FilterCount(shown, p);
    (Seqs.Filter(all, p), Seqs.Filter(shown, p))
  }
}

=== FILE: wrappers.dfy ===
/** Failure-compatible wrappers shared by the whole model. */
module Wrappers {

  /** A value that may be missing (`undefined`, an absent query parameter, a failed lookup). */
  datatype Option<+T> = None | Some(value: T) {

    /** Returns the value encapsulated in Some, or `default` when None. */
    function GetOr(default: T): T {
      match this
      case Some(v) => v
      case None => default
    }
  }

  /** The outcome of an operation that either succeeds or fails with one of the source's messages. */
  datatype Result<+T> = Ok(value: T) | Err(msg: string)
}
